=== FILE: README.md ===
# Salon booking: a Dafny model

This project models the core of a hair-salon booking system. The system has two halves:

- **The backend** is a FastAPI application over a SQLite database with five tables: users, stylists, services, bookings and payments.
  - Customers register, log in, look up free slots, book, cancel and pay for a booking with a mock card payment.
  - The owner manages the service catalogue, the stylists and the user and booking lists.
  - At startup the database is seeded with an owner account, a default stylist and three sample services.
- **The browser pages** talk to that backend:
  - `app.js` is the single-page customer front end.
  - `book.js` is the booking page.
  - `admin.js` is the owner's dashboard: a role gate, stylist management, the list of all bookings and walk-in booking.
  - `stylist.js` is the stylist's schedule.

## How the model is organised

There is one Dafny module per source file, and all of them are under `src/`.

- **Tables.** The database is `Database.Db`, a class with one `seq` field per table. Each route handler is a method that `modifies` it.
  - Each handler has a pure outcome function beside it, such as `Bookings.CreateBookingOutcome`.
  - The handler's `ensures` ties its reply to that function of the old tables and states the whole new state.
  - The invariants of the tables are preserved by every handler: unique keys, unique e-mails, unique service names, one stylist profile per user and one payment per booking.
- **Values.**
  - Datetimes are whole minutes.
  - Money is an integer number of cents.
  - A new primary key is one more than the largest key in use, as SQLite assigns rowids.
- **Parameters.** Password hashing, password checking and JWT encoding and decoding are function parameters, because `app/auth.py` is not part of this model. The current time is a parameter as well.
- **Browser values.** A page works on `Browser.Value`, JavaScript values as `JSON.parse` delivers them, with JavaScript truthiness, `||`, property access and `String(...)`.
- **Page state.** A page's global variables are the fields of a class: `AppPage.App`, `BookPage.Book`, `AdminPage.Admin` and `StylistPage.Dashboard`.
  - Each event handler is a method on that class.
  - A handler that sends a request returns the request it would hand to `fetch`, or says why none is sent.
- **Not modelled in the pages.** The DOM, toasts and locale formatting of dates are left out; the formatting functions are parameters.

## Model

| member | source | states |
|---|---|---|
| Models.ParseRole | app/models.py:9-13 | a parsed role prints back as the same string |
| Models.RoleValues | app/models.py:9-13 | each role's value is one of the four role strings, and parsing it gives the role back |
| Models.StatusValueInjective | app/models.py:52-56 | two booking statuses have the same stored string exactly when they are the same status |
| Models.NewUser | app/models.py:15-25 | a new user row carries the given fields and is active (column default `is_active=True`) |
| Models.NewStylist | app/models.py:27-39 | a new stylist profile carries the given user, name, bio and working hours |
| Models.StylistHoursDefault | app/models.py:35-36 | a stylist created without hours works from 9 to 20 |
| Models.NewService | app/models.py:41-50 | a new service carries the given fields and is active |
| Models.NewBooking | app/models.py:58-73 | a new booking carries the given fields, has no walk-in name or e-mail, and is not a walk-in |
| Models.BookingDefaults | app/models.py:68-69 | a booking created with the defaults is pending, not a walk-in, and has no customer and no stylist |
| Models.NewPayment | app/models.py:80-87 | a new payment starts as initiated, with no provider and no masked details |
| Schemas.ValidateUserCreate | app/schemas.py:10-11 | a registration payload is accepted exactly when the password has at least 8 characters; otherwise the status is 422 |
| Schemas.ValidateStylistCreateFull | app/schemas.py:62-69 | the same password-length rule for the full stylist-creation payload; no route takes this body (`create_stylist` reads query parameters, app/routers/stylists.py:14-15), so nothing calls it |
| Schemas.StylistCreateFullDefaults | app/schemas.py:62-69 | the full stylist payload, which no route takes, defaults to hours 9 to 20 and no bio |
| Schemas.ServiceCreateDefaults | app/schemas.py:25-32 | a service payload defaults to 60 minutes and no description |
| Schemas.ServiceUpdateItems | app/schemas.py:34-39 | the items of a partial service update (`exclude_unset`): an item is present exactly when its field was set, with the sent value, one item per set field, none for an empty payload |
| Schemas.StylistUpdateItems | app/schemas.py:56-60 | the items of a partial stylist update: an item is present exactly when its field was set, with the sent value, one item per set field |
| Schemas.TokenTypeDefault | app/schemas.py:123-125 | a token reply's type defaults to `bearer` |
| Text.ParseIntOfIntToString | app/deps.py:15-17 | `int(str(i)) == i`: the `sub` claim written by login reads back as the same user id |
| Text.NatToStringInjective | app/routers/auth.py:56 | two different ids never give the same `sub` claim |
| Tables.IndexOf | app/routers/services.py:30-32 | a lookup by key finds the first row with that key, and finds none exactly when no row has it |
| Tables.NextId | app/models.py:17 | a new primary key is positive and not in use |
| Tables.RemoveAtMembers | app/routers/services.py:45-46 | after a row is deleted, the table holds exactly the other rows |
| Database.Db.constructor | app/models.py:15-87 | a fresh database has five empty tables, and they satisfy the table invariants |
| CardPayment.LuhnChecksum | app/payment.py:4-16 | the loop over the digits computes the Luhn check on the digits of the number, and rejects fewer than 12 digits |
| CardPayment.PrefixSumIsAnnexB | app/payment.py:7-15 | the loop's alternating doubling, counted from the left with the parity of the length, equals the ISO/IEC 7812-1 Annex B sum counted from the right |
| CardPayment.LuhnIsAnnexB | app/payment.py:4-16 | a number passes exactly when it has at least 12 digits and the Annex B sum is a multiple of 10 |
| CardPayment.LuhnIgnoresNonDigit | app/payment.py:5 | spaces, dashes and other non-digits do not change the verdict |
| CardPayment.AlternatingFoursAndTwos | app/payment.py:7-15 | each `42` pair of digits adds 10 to the check sum |
| CardPayment.AlternatingCardPasses | app/payment.py:4-16 | a 16-digit number alternating 4 and 2 passes the check (its sum is 80) |
| CardPayment.TestCardPasses | app/payment.py:4-16 | the test card 4242 4242 4242 4242 passes |
| CardPayment.MaskCard | app/payment.py:19-21 | the mask shows at most 4 digits: the last four when there are four, otherwise none |
| CardPayment.MaskedDigits | app/payment.py:19-21 | the only digits of a mask are the last four digits of the card |
| CardPayment.ValidateExpiry | app/payment.py:24-31 | an expiry is valid exactly when the month is 1 to 12 and the month is not before the current month |
| CardPayment.ExpiryValidNextYear | app/payment.py:24-31 | a valid expiry stays valid a year later |
| CardPayment.TestExpiryPasses | app/payment.py:24-31 | 12/2099 is valid in any month up to 2099 |
| Deps.GetCurrentUser | app/deps.py:11-19 | 401 without a payload or without `sub`; otherwise the active user whose id is `int(sub)`; a `sub` that is not an integer raises (500) |
| Deps.TokenIdentifiesUser | app/deps.py:11-19 | a token whose `sub` is a user's id admits that user when active, and is refused with 401 when not |
| Deps.RequireRole | app/deps.py:22-27 | 403 unless the user has exactly the required role; otherwise the user unchanged |
| Deps.Authorize | app/deps.py:22-27 | a role-guarded route first resolves the user, then checks the role |
| Deps.RequireOwner | app/deps.py:29 | the owner guard admits exactly an active owner account |
| Deps.RequireCustomer | app/deps.py:30 | the customer guard admits exactly an active customer account |
| Deps.RequireStylist | app/deps.py:31 | the stylist guard admits exactly an active stylist account |
| Deps.GuardsExclusive | app/deps.py:29-31 | no token passes two of the three guards |
| Bookings.GetService | app/routers/bookings.py:16-20 | an active service with that id, or 404 "Service not found" |
| Bookings.GetServiceOfRow | app/routers/bookings.py:16-20 | with unique ids, a service row is found exactly when it is active |
| Bookings.IsOverlapping | app/routers/bookings.py:23-32 | true exactly when some non-cancelled booking of the stylist intersects the half-open interval and is not the excluded id (an id of 0 excludes nothing) |
| Bookings.BackToBackDoNotClash | app/routers/bookings.py:28-29 | a booking ending when another starts does not clash with it |
| Bookings.StylistShift | app/routers/bookings.py:40-46 | 404 exactly for an unknown stylist; for a known one, 500 exactly when an hour lies outside 0..23 (the `time` constructor raises) and success exactly when both hours are valid; the shift runs that day from start hour to end hour |
| Bookings.CollectSlots | app/routers/bookings.py:49-54 | the slot loop computes the slots of the specification function |
| Bookings.Availability | app/routers/bookings.py:35-55 | 404 for a missing service, the stylist errors, otherwise the free slots of the shift |
| Bookings.SlotsSound | app/routers/bookings.py:49-54 | every slot is on the hourly grid from the shift start, lasts the service duration, ends within the shift, names the stylist and is free |
| Bookings.SlotsIncreasing | app/routers/bookings.py:49-54 | slots come in strictly increasing start order |
| Bookings.SlotsComplete | app/routers/bookings.py:49-54 | every free grid slot that fits inside the shift is listed |
| Bookings.SlotsEmptyWhenBooked | app/routers/bookings.py:49-54 | when every grid slot is taken, no slot is listed |
| Bookings.SlotsEmptyWhenTooLong | app/routers/bookings.py:49-54 | a service longer than the shift has no slot |
| Bookings.SlotIsBookable | app/routers/bookings.py:49-82 | a listed slot passes `create_booking`'s overlap check |
| Bookings.CreateBookingOutcome | app/routers/bookings.py:58-82 | the user errors, then 404 for the service, 400 exactly when no stylist is given, 409 exactly on overlap; success exactly when the user and service resolve, a stylist is given and nothing overlaps, and then a new confirmed booking of the user for the service's duration |
| Bookings.AddKeepsNoOverlap | app/routers/bookings.py:68-79 | a booking that passed the overlap check keeps the table free of double bookings |
| Bookings.CreateBookingKeepsNoOverlap | app/routers/bookings.py:58-82 | `create_booking` keeps the table free of double bookings |
| Bookings.CreateBooking | app/routers/bookings.py:58-82 | the reply is the outcome; on success exactly that row is added; the invariants hold; other tables are unchanged |
| Bookings.CancelOutcome | app/routers/bookings.py:85-98 | the user errors, then 404 exactly for a missing booking, 403 exactly for a user who is neither the owner nor the booking's customer, success exactly otherwise; the row with status cancelled |
| Bookings.CancelIdempotent | app/routers/bookings.py:85-98 | cancelling twice gives the same reply and table as cancelling once |
| Bookings.CancelKeepsNoOverlap | app/routers/bookings.py:95-97 | cancelling keeps the table free of double bookings |
| Bookings.CancelBooking | app/routers/bookings.py:85-98 | the reply is the outcome; only that booking's status changes |
| Bookings.StorePayment | app/routers/bookings.py:121-129 | when the booking has a payment row, that row alone is replaced and every other row stays where it was; otherwise the payment is appended |
| Bookings.SavePayment | app/routers/bookings.py:120-131 | the booking's payment row (the existing one, else a new one with the next id) is marked success with the masked number and provider `mock`, and the payments table becomes the store of that row; no other table changes |
| Bookings.PayOutcome | app/routers/bookings.py:101-131 | the user errors, then 404 for a missing booking, 403 exactly when another customer owns it, 400 exactly for a cancelled booking or a card failing Luhn or expiry; for an accepted payment, 500 exactly when the booking's service is gone (`booking.service.price` on None) and success exactly otherwise: a successful mock payment with the masked card, reusing the booking's payment row or charging the service price |
| Bookings.PayKeepsOnePaymentPerBooking | app/models.py:83 | after paying there is exactly one payment row for the booking and still at most one per booking |
| Bookings.PayBooking | app/routers/bookings.py:101-149 | the reply is the outcome; on success the payment is stored; bookings and the other tables are unchanged |
| Services.ListServices | app/routers/services.py:11-13 | exactly the active services |
| Services.ListServicesAppend | app/routers/services.py:11-13 | the listing keeps table order |
| Services.CreateServiceOutcome | app/routers/services.py:16-25 | owner only; 400 exactly when the name is taken; success exactly for an owner and a free name, giving an active service built from the payload with a fresh id |
| Services.CreateServiceKeepsUnique | app/models.py:43-44 | creation keeps ids and names unique |
| Services.CreateService | app/routers/services.py:16-25 | the reply is the outcome; on success exactly that row is added |
| Services.ApplyServiceFieldsAppend | app/routers/services.py:33-34 | applying two runs of fields is applying one then the other |
| Services.ServiceUpdateIsMerge | app/routers/services.py:33-34 | the `setattr` loop sets exactly the fields given and keeps the id |
| Services.UpdateServiceOutcome | app/routers/services.py:28-37 | owner only; 404 exactly for a missing id; for an existing row, 500 exactly when the merged name is one another row already has (the unique index fails at commit) and success exactly otherwise, giving the merged row |
| Services.ReplaceKeepsServicesValid | app/models.py:44 | an update whose name no other row has keeps names unique |
| Services.UpdateService | app/routers/services.py:28-37 | the reply is the outcome; on success only that row changes |
| Services.SetServiceFields | app/routers/services.py:33-34 | the `setattr` loop leaves the row the items applied in order would give |
| Services.DeactivatedServiceHidden | app/routers/services.py:11-13 | a service switched off through an update leaves the public list, and booking lookups answer 404 |
| Services.DeleteServiceOutcome | app/routers/services.py:40-47 | owner only; 404 exactly for a missing id; 500 exactly while a booking references the service (the ORM's `SET NULL` on the bookings meets the NOT NULL `service_id` of app/models.py:64 at commit); success exactly for an owner, an existing id and no referencing booking, giving the position of that row |
| Services.DeleteService | app/routers/services.py:40-47 | the reply is the outcome; on success exactly that row is removed; on failure nothing changes; no other table changes |
| Services.DeleteServiceLeavesNoDanglingBooking | app/routers/services.py:40-47 | a successful deletion leaves every booking whose service existed still pointing at an existing service, and the id is gone |
| Services.DeleteRemovesExactly | app/routers/services.py:40-47 | with unique ids, the rows left are exactly those with another id |
| Stylists.CreateStylistOutcome | app/routers/stylists.py:15-36 | owner only; 404 exactly for an unknown user, 400 exactly when the user already has a profile; success exactly for an owner, a known user and no existing profile, giving the new profile |
| Stylists.CreateStylistKeepsOneProfilePerUser | app/models.py:30 | creation keeps one profile per user |
| Stylists.CreateStylist | app/routers/stylists.py:15-36 | the reply is the outcome; on success the profile is added and the user's role becomes stylist |
| Stylists.ApplyStylistFieldsAppend | app/routers/stylists.py:44-46 | applying two runs of fields is applying one then the other |
| Stylists.ApplyStylistItemIf | app/routers/stylists.py:44-46 | a field that was not set changes nothing |
| Stylists.StylistUpdateIsMerge | app/routers/stylists.py:44-46 | the `setattr` loop sets exactly the fields given |
| Stylists.UpdateStylist | app/routers/stylists.py:38-50 | owner only; 404 exactly for a missing id; success exactly for an owner and an existing id, and then only that row changes, to the merged profile |
| Stylists.SetStylistFields | app/routers/stylists.py:44-46 | the `setattr` loop leaves the row the items applied in order would give |
| Stylists.StylistBookings | app/routers/stylists.py:58 | a stylist's bookings are exactly the rows pointing at it, cancelled ones included |
| Stylists.DeleteStylistOutcome | app/routers/stylists.py:52-67 | owner only; 404 exactly for a missing id, 400 exactly while a booking points at the stylist; success exactly for an owner, an existing id and no such booking, giving the row to delete |
| Stylists.DemoteLinkedUser | app/routers/stylists.py:62-64 | the linked user goes back to customer; every other user is unchanged |
| Stylists.DemoteUser | app/routers/stylists.py:62-64 | in place, the users table becomes the one with the linked user demoted; the invariants of the database hold and no other table changes |
| Stylists.DeleteStylist | app/routers/stylists.py:52-67 | on success the profile is removed and its user demoted; on failure nothing changes |
| Stylists.DeleteStylistLeavesNoDanglingBooking | app/routers/stylists.py:58-67 | a deletion leaves no booking pointing at the deleted stylist |
| Auth.RegisterOutcome | app/routers/auth.py:16-35 | 422 exactly when the password is shorter than 8 characters (the `UserCreate` validation of app/schemas.py:11 runs first); for a valid body 400 exactly when the e-mail is taken; success exactly for a long enough password and a free e-mail, giving an active customer with a fresh id and the hashed password |
| Auth.AddUserKeepsUnique | app/models.py:17-18 | a user with a new id and e-mail keeps both unique |
| Auth.Register | app/routers/auth.py:16-35 | the reply is the outcome, request validation included; on success exactly that user is added, on any failure the users table is unchanged |
| Auth.LoginClaims | app/routers/auth.py:56 | the token's `sub` reads back as the user id and its `role` as the user's role |
| Auth.LoginUsers | app/routers/auth.py:42-51 | the built-in owner account is added exactly when its e-mail is asked for and missing |
| Auth.LoginOutcome | app/routers/auth.py:53-57 | 401 exactly when no user has the e-mail or the password does not verify; otherwise a bearer token for that user |
| Auth.LoginTokenAuthenticates | app/routers/auth.py:37-57 | a token issued by login passes `get_current_user` for the same user while active |
| Auth.Login | app/routers/auth.py:37-57 | the owner account is committed before the password check; the reply is the outcome on that table |
| Auth.ForgotPassword | app/routers/auth.py:59-80 | a reset token exists exactly for a registered e-mail and names that user |
| Auth.ForgotPasswordSameReply | app/routers/auth.py:64-80 | the reply does not reveal whether an address is registered |
| Auth.ResetTarget | app/routers/auth.py:82-95 | 400 exactly unless the payload has type `reset`; 404 for a missing, non-numeric or unknown `sub`; success exactly for a reset payload whose `sub` parses to a known user id, giving that user |
| Auth.ResetPassword | app/routers/auth.py:82-100 | only that user's password hash changes |
| Admin.ListUsers | app/routers/admin.py:10-13 | one record per user in table order, with id, e-mail, role and active flag |
| Admin.ListUsersIgnoresPasswords | app/routers/admin.py:10-13 | the listing carries nothing derived from password hashes |
| Admin.AdminListUsers | app/routers/admin.py:10-13 | owner only; otherwise the listing |
| Admin.InsertByStart | app/routers/admin.py:17-18 | inserting into a list ordered by descending start keeps it ordered and a permutation |
| Admin.SortByStartDesc | app/routers/admin.py:17-18 | the result is a permutation of the bookings, latest start first |
| Admin.AdminListBookings | app/routers/admin.py:15-18 | owner only; otherwise every booking, latest start first |
| Admin.ListAllBookingsKeepsEveryRow | app/routers/admin.py:15-18 | no booking, cancelled or not, is left out |
| Seed.SeedAdmin | app/main.py:26-38 | the administrator is promoted to owner when present and created otherwise, and is found by e-mail |
| Seed.SeedStylist | app/main.py:39-52 | the stylist "Sam", linked to the administrator, is added only to an empty table |
| Seed.AddSample | app/main.py:75-79 | a sample service is inserted unless its name exists, and afterwards its name is present |
| Seed.AddSamplesKeepsPrefix | app/main.py:75-79 | the sample loop keeps existing rows in place |
| Seed.AddSamplesCoversNames | app/main.py:54-79 | after the loop every sample name is in the table |
| Seed.AddSamplesNoop | app/main.py:75-79 | when every sample name exists, the loop changes nothing |
| Seed.SeedIdempotent | app/main.py:19-81 | seeding twice leaves the tables as seeding once |
| Seed.SeedEstablishesOwner | app/main.py:19-81 | after seeding an owner with the administrator e-mail exists and the stylist table is not empty |
| Seed.UpsertAdmin | app/main.py:26-38 | the users table after the upsert is the specification's |
| Seed.InsertSamples | app/main.py:75-79 | the loop leaves the services table of the specification |
| Seed.SeedData | app/main.py:19-81 | seeding leaves the tables of the specification; bookings and payments are untouched |
| Browser.RoleGate | frontend/admin.js:17-23 | admitted exactly when the decoded payload's `role` is the page's role; unreadable exactly when nothing decodes |
| Browser.PayloadPiece | frontend/admin.js:11 | `token.split('.')[1]` of a compact JWT is its payload |
| Browser.Base64UrlToBase64 | frontend/admin.js:12 | the translation leaves no `-` or `_` and changes no other character |
| Browser.Base64UrlRoundTrip | frontend/admin.js:12 | the translation loses nothing on base64url text |
| Browser.ParseIntValueOfIntToString | frontend/app.js:205-206 | `parseInt` reads back the id the form holds |
| Browser.Highlight | frontend/admin.js:363-368 | after a click exactly the clicked button is selected |
| Browser.AppendAll | frontend/admin.js:289-309 | the `html +=` loop yields the head followed by every part in order |
| Browser.ConcatAt | frontend/admin.js:289-309 | each part stands in the markup after the parts before it and before those after |
| BookingLabels.StatusBadge | frontend/admin.js:294-296 | `confirmed` and `cancelled` have their own badge; any other status shows as pending |
| BookingLabels.BadgeOfStatus | frontend/stylist.js:47-49 | on server statuses a completed booking wears the pending badge |
| BookingLabels.AdminCustomerLabel | frontend/admin.js:290-292 | a walk-in shows its name, any other booking `User #<customer_id>` |
| BookingLabels.ScheduleCustomerLabel | frontend/stylist.js:51-53 | a walk-in shows its name; otherwise the customer name, or `User #<customer_id>` without one |
| BookingLabels.CustomerLabelsAgree | frontend/stylist.js:51-53 | the two pages label a booking alike, except a non-walk-in booking with a customer name |
| BookingLabels.AdminLabelOfRow | frontend/admin.js:290-292 | on the server's rows the owner sees the walk-in name, the user id, or `User #null` |
| AppPage.Activation | frontend/app.js:5-7 | one flag per view, set exactly for the view with that id |
| AppPage.ActivationSingle | frontend/app.js:5-7 | with distinct ids, exactly one view is active |
| AppPage.GuestActivation | frontend/app.js:74-75 | guest mode activates exactly the `booking` view |
| AppPage.GuestShowsBooking | frontend/app.js:74-75 | guest mode shows what `activate('booking')` shows |
| AppPage.RestoredToken | frontend/app.js:20 | an empty stored token counts as none |
| AppPage.LoginToken | frontend/app.js:119-122 | a token is kept exactly when the reply is ok, its body parsed to a non-null JSON value and that value has an `access_token`; the kept value is that field |
| AppPage.LoginSurvivesReload | frontend/app.js:119-122 | the server's access token is kept, and a reload restores it |
| AppPage.GuestBooking | frontend/app.js:190-216 | nothing is sent without a name and an e-mail; otherwise the guest booking request |
| AppPage.CanCancelStatuses | frontend/app.js:296 | cancel is offered exactly for pending and confirmed bookings |
| AppPage.App.constructor | frontend/app.js:16-21 | the page starts on `home`, with the stored token and not in guest mode |
| AppPage.App.Activate | frontend/app.js:5-7 | exactly the chosen view becomes active; nothing else changes |
| AppPage.App.EnableGuestMode | frontend/app.js:60-78 | guest mode on, the token dropped from memory and storage, the booking view shown |
| AppPage.App.Login | frontend/app.js:106-139 | on an accepted reply the token is kept in memory and storage and guest mode ends; otherwise nothing changes |
| AppPage.App.UserBooking | frontend/app.js:231-245 | nothing is sent without a token; otherwise the booking with the bearer token |
| AppPage.App.SubmitBooking | frontend/app.js:181-188 | the guest path in guest mode, the user path otherwise |
| AppPage.App.MyBookings | frontend/app.js:259-268 | nothing is fetched without a token, and the page asks the user to log in |
| AppPage.App.Cancel | frontend/app.js:323-330 | nothing is sent unless the user confirms; otherwise the cancel request |
| BookPage.NormaliseStylists | frontend/book.js:42-44 | an array is kept; otherwise `items`, `results` or an empty list |
| BookPage.StylistItems | frontend/book.js:42-50 | nothing changes exactly when the reply is null or undefined; an array reply is listed as it is; otherwise `items`, else `results`, else nothing is chosen, and the list is the chosen value's items when it is an array and empty otherwise |
| BookPage.StylistLabel | frontend/book.js:54 | the first truthy of display name, name and full name, else `Stylist #<id>` |
| BookPage.LabelOfServerStylist | frontend/book.js:54 | on the server's stylists, the display name, or `Stylist #<id>` when it is empty |
| BookPage.HiddenId | frontend/book.js:9-10 | the selection's id, or empty |
| BookPage.Book.constructor | frontend/book.js:4-6 | nothing selected and nothing listed |
| BookPage.Book.UpdateConfirmation | frontend/book.js:8-15 | the hidden inputs and confirmation lines mirror the selection |
| BookPage.Book.LoadServices | frontend/book.js:17-29 | one button per service of the reply |
| BookPage.Book.LoadStylists | frontend/book.js:31-64 | the stylist cards after normalisation, none active; a reply that is not JSON, or one whose normalisation throws, leaves the list and the cards as they were, since the second read of the body in the catch block rejects |
| BookPage.Book.ChooseService | frontend/book.js:26 | the service is selected and nothing else changes |
| BookPage.Book.ChooseStylist | frontend/book.js:56-61 | the stylist is selected and exactly its card is active |
| BookPage.Book.ChooseSlot | frontend/book.js:85 | the start is selected and nothing else changes |
| BookPage.Book.SlotsQuery | frontend/book.js:66-75 | the service, stylist and date are checked in that order, each with its own message; otherwise the availability query |
| BookPage.Book.BookingRequest | frontend/book.js:90-101 | nothing is sent unless all three are chosen; otherwise the booking with the bearer token |
| AdminPage.AdminGate | frontend/admin.js:2-29 | no token, an unreadable payload, or the owner-role check on the decoded payload |
| AdminPage.AdminGateOnServerToken | frontend/admin.js:2-29 | on a server token the gate admits exactly the owner role |
| AdminPage.EscapeAsWritten | frontend/admin.js:160-161 | the escaping as written: `'` becomes `\'` and `"` becomes `&quot;`, so no double quote is left |
| AdminPage.EscapeForOnclick | frontend/admin.js:160-161 | the corrected escaping leaves no double quote |
| AdminPage.AsWrittenEscapeClosesEarly | frontend/admin.js:160-172 | the escaping as written turns `a\'` into a literal that closes after three characters |
| AdminPage.DecodeEscape | frontend/admin.js:163-172 | the browser's attribute decoding of the corrected escaping is a JavaScript escaping |
| AdminPage.ReadJsEscape | frontend/admin.js:172 | that JavaScript escaping reads back as the original text |
| AdminPage.EscapeForOnclickRoundTrip | frontend/admin.js:160-172 | the corrected escaping round-trips through the attribute and the string literal |
| AdminPage.EditCall | frontend/admin.js:160-172 | the edit handler's text as the page builds it, with the escaping as written: it has no double quote when the numeric fields have none |
| AdminPage.EditCallCorrected | frontend/admin.js:160-172 | the same text with the corrected escaping; it has no double quote when the numeric fields have none |
| AdminPage.EscapesAgreeOnPlainText | frontend/admin.js:160-161 | on text without `&`, backslashes or line breaks the escaping as written equals the corrected one |
| AdminPage.EditCallAgreesOnPlainText | frontend/admin.js:160-172 | when the name and bio carry no `&`, backslash or line break, the page's edit handler is the corrected one |
| AdminPage.AdminRows | frontend/admin.js:289-309 | one row per booking |
| AdminPage.BookingsView | frontend/admin.js:268-316 | the empty message for a falsy or empty reply, the table for an array, an error otherwise |
| AdminPage.RenderAllBookings | frontend/admin.js:268-316 | the rendering loop yields the view of the specification |
| AdminPage.BookingsViewRow | frontend/admin.js:289-309 | each booking has its own row, in the listing's order |
| AdminPage.Admin.constructor | frontend/admin.js:337-339 | nothing chosen and nothing listed |
| AdminPage.Admin.CheckAccess | frontend/admin.js:2-29 | the browser goes where the gate says; the token is removed exactly when it is unreadable |
| AdminPage.Admin.LoadWalkinServices | frontend/admin.js:349-372 | one button per service, none selected |
| AdminPage.Admin.LoadWalkinStylists | frontend/admin.js:374-397 | one button per stylist, none selected |
| AdminPage.Admin.ChooseWalkinService | frontend/admin.js:363-368 | that service chosen and exactly its button selected |
| AdminPage.Admin.ChooseWalkinStylist | frontend/admin.js:388-393 | that stylist chosen and exactly its button selected |
| AdminPage.Admin.LoadWalkinSlots | frontend/admin.js:399-418 | the start is cleared first; the query goes out exactly when a service id and a date are given, with the stylist only when one is chosen |
| AdminPage.Admin.ShowWalkinSlots | frontend/admin.js:419-441 | one button per slot, none selected |
| AdminPage.Admin.ChooseWalkinSlot | frontend/admin.js:429-439 | that slot's start chosen and exactly its button selected |
| AdminPage.Admin.WalkinRequest | frontend/admin.js:447-465 | nothing is sent unless all three are chosen; an empty e-mail is sent as null |
| AdminPage.Admin.DeleteStylistRequest | frontend/admin.js:184-191 | nothing is sent unless the owner confirms |
| AdminPage.Admin.DeleteBookingRequest | frontend/admin.js:318-325 | nothing is sent unless the owner confirms |
| StylistPage.StylistGate | frontend/stylist.js:2-12 | no token, an unreadable payload, or the stylist-role check on the raw decoded payload |
| StylistPage.StylistGateOnServerToken | frontend/stylist.js:6-12 | on a server token the gate admits exactly the stylist role |
| StylistPage.ScheduleRows | frontend/stylist.js:42-66 | one row per booking |
| StylistPage.ScheduleView | frontend/stylist.js:13-74 | the error message exactly when the request failed, the body is null or it is neither empty nor an array; the empty message for length 0; otherwise the table |
| StylistPage.ScheduleViewRow | frontend/stylist.js:42-66 | each assigned booking has its own row, in order |
| StylistPage.Dashboard.constructor | frontend/stylist.js:2-12 | the browser goes where the gate says; the token is never removed |
| StylistPage.Dashboard.BeginLoad | frontend/stylist.js:15-20 | the placeholder is shown and the schedule is requested with the bearer token |
| StylistPage.Dashboard.ShowSchedule | frontend/stylist.js:22-73 | the rendering loop leaves the view of the specification |
| StylistPage.Dashboard.Logout | frontend/stylist.js:76-79 | the token is removed and the browser goes to `/auth` |

## Left out

- E-mail sending (`app/email_utils.py`) is not part of this model. Only the reset token that `forgot_password` would mail is modelled.
- `pay_booking`'s receipt e-mail is left out, and so are `create_booking`'s notification and the two auth e-mails.
- Password hashing, password verification and JWT encoding and decoding (`app/auth.py`) are not part of this model. They are function parameters, and token expiry is part of the decode parameter.
- Configuration constants (`app/config.py`), CORS, the static page routes of `app/main.py` and the `created_at` timestamps are left out.
- Prices are floats in the source. They are integer cents here, and float rounding is not modelled.
- Pydantic's `EmailStr` check of e-mail syntax is not modelled; e-mail addresses are plain strings.
- Python's `str.isdigit` also accepts non-ASCII digits; the card functions count only `0` to `9`.
- Auth.ResetTarget matches `sub` through `Text.ParseInt`. The SQLite comparison in `reset_password` (app/routers/auth.py:92-93) would also match numeric text such as `5.0`, but the server only signs `str(user.id)`.
- Python's `int()` of a string accepts white space and underscores. `Text.ParseInt` accepts only an optional sign and decimal digits.
- JavaScript's `parseInt` also accepts hexadecimal and non-ASCII white space. `Browser.ParseIntValue` models only ASCII white space, a sign and decimal digits.
- An explicit JSON `null` for a NOT NULL column in an update payload, which fails at commit, is not modelled.
- Two concurrent requests that both pass a uniqueness or overlap check before either commits are not modelled. The handlers run one at a time.
- The database leaves the order of bookings with equal start times open. `Admin.SortByStartDesc` keeps table order among them.
- Several endpoints the pages call have no route in the backend: `/bookings/guest`, `/bookings/walkin`, `/bookings/me`, `/bookings/stylist-schedule` and `DELETE /bookings/{id}`. The pages' requests to them are modelled; the server side is not.
- `admin.js`'s `createNewStylist` sends a JSON body, while `create_stylist` reads query parameters. Only the backend side is modelled.
- Handlers that only send a fixed request and show the reply are left out: `register`, `createService`, `payBooking`, `listUsers`, `listServices`, `listStylists` and `checkAvailability` in the pages. `createNewStylist`, `openEditModal` and `submitEditStylist` are left out for the same reason.
- `list_stylists` (app/routers/stylists.py:11-13) is a plain read that returns the stylist table as it stands (`db.stylists`). No member states anything about it.
- `auth.js` and `register.js`, the small login and registration scripts, are left out.
- Toasts, alerts, loading states, inline styles, white space inside markup and the locale formatting of dates are left out. Formatting enters the renderers as function parameters.
- The walk-in confirmation panel (`updateWalkinConfirmation`) and the `DOMContentLoaded` wiring are left out.
- `loadMyBookings`' table markup is left out; only its token check and `canCancel` are modelled.
- `loadManageStylists`' card markup is left out. Only the `onclick` text of the edit button, with its escaping, is modelled.
- List items in replies are assumed to be objects or values whose missing properties read as `undefined`. A `null` item, on which the source throws, is read as `undefined`.
- `AdminPage.HtmlAttrDecode` decodes only `&quot;` and `&amp;`, the two references the escaping produces.
- StylistPage.StylistGate passes the token's payload piece to `atob` without the base64url translation that `admin.js` applies, as the source does. A payload containing `-` or `_` is then unreadable.

## Findings

| source | as written | input that shows it | evidently intended | confidence | as-written member | corrected member |
|---|---|---|---|---|---|---|
| frontend/admin.js:160-161 | the name and bio are escaped for the single-quoted JavaScript literal inside the `onclick` attribute by replacing `'` with `\'` and `"` with `&quot;`; a backslash is not escaped | a display name `a\'` becomes `a\\'`; in the literal `'a\\'` the doubled backslash is one backslash and the quote closes the string after three characters, so the handler does not parse | the name and bio reach `openEditModal` unchanged: escape `&` and the backslash as well | not executed | AdminPage.AsWrittenEscapeClosesEarly | AdminPage.EscapeForOnclickRoundTrip |

=== FILE: src/admin.dfy ===
/** The admin router: every route requires the owner role. It lists the users without
    their password hashes, and every booking, latest start first. */
module Admin {
  import opened Wrappers
  import opened Models
  import opened Deps

  /** One record of `list_users`: exactly id, email, role and is_active. */
  datatype UserSummary = UserSummary(id: int, email: string, role: Role, isActive: bool)

  function Summary(u: User): UserSummary {
    UserSummary(u.id, u.email, u.role, u.isActive)
  }

  /** The projection of `list_users`, one record per user in table order. */
  function ListUsers(users: seq<User>): (r: seq<UserSummary>)
    ensures |r| == |users|
    ensures forall i :: 0 <= i < |users| ==>
      r[i].id == users[i].id && r[i].email == users[i].email &&
      r[i].role == users[i].role && r[i].isActive == users[i].isActive
  {
    if users == [] then [] else [Summary(users[0])] + ListUsers(users[1..])
  }

  /** Two users who differ only in their password hash (or name) are listed alike: the
      listing carries nothing derived from the hash. */
  lemma {:induction false} ListUsersIgnoresPasswords(users: seq<User>, others: seq<User>)
    requires |users| == |others|
    requires forall i :: 0 <= i < |users| ==>
      others[i] == users[i].(hashedPassword := others[i].hashedPassword, fullName := others[i].fullName)
    ensures ListUsers(users) == ListUsers(others)
  {
    if users != [] {
      ListUsersIgnoresPasswords(users[1..], others[1..]);
    }
  }

  /** `GET /admin/users` behind the owner guard. */
  function AdminListUsers(users: seq<User>, claims: Option<Claims>): (r: Result<seq<UserSummary>>)
    ensures r.Ok? <==> RequireOwner(users, claims).Ok?
    ensures r.Ok? ==> r.value == ListUsers(users)
    ensures r.Fail? ==> r == RequireOwner(users, claims).PropagateFailure()
  {
    var _ :- RequireOwner(users, claims);
    Ok(ListUsers(users))
  }

  predicate StartDescending(bs: seq<Booking>) {
    forall i, j :: 0 <= i < j < |bs| ==> bs[i].startTime >= bs[j].startTime
  }

  /** Insertion of one booking into a list ordered by descending start; it goes before
      rows with the same start. */
  function InsertByStart(b: Booking, sorted: seq<Booking>): (r: seq<Booking>)
    ensures multiset(r) == multiset(sorted) + multiset{b}
    ensures |r| == |sorted| + 1
    ensures r[0] == b || (sorted != [] && r[0] == sorted[0])
    ensures StartDescending(sorted) ==> StartDescending(r)
  {
    if sorted == [] then [b]
    else if b.startTime >= sorted[0].startTime then [b] + sorted
    else
      var rest := InsertByStart(b, sorted[1..]);
      assert sorted == [sorted[0]] + sorted[1..];
      InsertStep(b, sorted, rest);
      [sorted[0]] + rest
  }

  /** The recursive step of `InsertByStart`: a booking that starts no earlier than every
      row of the insertion into the tail may stay in front of it. */
  lemma InsertStep(b: Booking, sorted: seq<Booking>, rest: seq<Booking>)
    requires sorted != [] && b.startTime < sorted[0].startTime
    requires multiset(rest) == multiset(sorted[1..]) + multiset{b}
    requires StartDescending(sorted[1..]) ==> StartDescending(rest)
    ensures StartDescending(sorted) ==> StartDescending([sorted[0]] + rest)
  {
    if StartDescending(sorted) {
      var h := sorted[0];
      forall x | x in rest
        ensures h.startTime >= x.startTime
      {
        assert x in multiset(rest);
        if x != b {
          assert x in multiset(sorted[1..]);
          var j :| 0 <= j < |sorted[1..]| && sorted[1..][j] == x;
          assert sorted[j + 1] == x;
        }
      }
      var r := [h] + rest;
      forall i, j | 0 <= i < j < |r|
        ensures r[i].startTime >= r[j].startTime
      {
        assert r[j] == rest[j - 1];
        if i > 0 {
          assert r[i] == rest[i - 1];
        }
      }
    }
  }

  /** `order_by(Booking.start_time.desc())`: latest start first. The database leaves the
      order of equal starts open; this model keeps table order among them. */
  function SortByStartDesc(bs: seq<Booking>): (r: seq<Booking>)
    ensures multiset(r) == multiset(bs)
    ensures StartDescending(r)
  {
    if bs == [] then []
    else
      assert bs == [bs[0]] + bs[1..];
      InsertByStart(bs[0], SortByStartDesc(bs[1..]))
  }

  /** `GET /admin/bookings` behind the owner guard: every booking, whatever its status,
      ordered by descending start. */
  function AdminListBookings(users: seq<User>, bookings: seq<Booking>, claims: Option<Claims>)
    : (r: Result<seq<Booking>>)
    ensures r.Ok? <==> RequireOwner(users, claims).Ok?
    ensures r.Ok? ==> multiset(r.value) == multiset(bookings) && StartDescending(r.value)
    ensures r.Fail? ==> r == RequireOwner(users, claims).PropagateFailure()
  {
    var _ :- RequireOwner(users, claims);
    Ok(SortByStartDesc(bookings))
  }

  /** Nothing is filtered out: each booking row, cancelled or not, is in the listing. */
  lemma ListAllBookingsKeepsEveryRow(bookings: seq<Booking>, b: Booking)
    requires b in bookings
    ensures b in SortByStartDesc(bookings)
  {
    assert b in multiset(bookings);
  }
}

=== FILE: src/admin_page.dfy ===
/** The owner's page (`admin.js`): the role gate that runs before anything else, the
    walk-in booking flow kept in three page variables, the confirm dialogs in front of the
    deletions, the table of all bookings, and the escaping that puts a stylist's name and
    bio into the edit button's `onclick` attribute. */
module AdminPage {
  import opened Wrappers
  import opened Text
  import opened Models
  import opened Browser
  import opened BookingLabels

  // -------------------------------------------------------------------------------------
  // The gate

  /** `checkAdminAccess`: no stored token; else the token's second dot-separated part,
      translated from base64url to base64 and decoded (`decode` stands for `atob`,
      `decodeURIComponent` and `JSON.parse`, `None` when one of them throws), must carry the
      role `owner`. */
  function AdminGate(stored: Option<string>, decode: string -> Option<Value>): (g: Gate)
    ensures g == NoToken <==> stored.None? || stored.value == ""
    ensures g != NoToken && Piece(stored.value, '.', 1).None? ==> g == Unreadable
    ensures g != NoToken && Piece(stored.value, '.', 1).Some? ==>
      g == RoleGate(decode(Base64UrlToBase64(Piece(stored.value, '.', 1).value)), RoleValue(Owner))
  {
    if !Truthy(Stored(stored)) then NoToken
    else
      match Piece(stored.value, '.', 1)
      case None => Unreadable
      case Some(part) => RoleGate(decode(Base64UrlToBase64(part)), "owner")
  }

  /** The claims of a token the server issues, as JSON. */
  function ClaimsJson(sub: string, role: Role): Value {
    Obj(map["sub" := Str(sub), "role" := Str(RoleValue(role))])
  }

  /** On a token in compact form whose payload decodes to the claims the server writes, the
      gate admits exactly the owner role and sends every other role to `/`. */
  lemma AdminGateOnServerToken(header: string, payload: string, signature: string,
                               decode: string -> Option<Value>, sub: string, role: Role)
    requires '.' !in header && '.' !in payload && '.' !in signature
    requires decode(Base64UrlToBase64(payload)) == Some(ClaimsJson(sub, role))
    ensures AdminGate(Some(header + "." + payload + "." + signature), decode) == Admitted <==> role == Owner
    ensures role != Owner ==> AdminGate(Some(header + "." + payload + "." + signature), decode) == WrongRole
  {
    PayloadPiece(header, payload, signature);
    var token := header + "." + payload + "." + signature;
    assert token[|header|] == '.';
    assert Get(ClaimsJson(sub, role), "role") == Some(Str(RoleValue(role)));
    if role != Owner {
      assert RoleValue(role) != RoleValue(Owner) by {
        RoleValues(role);
        RoleValues(Owner);
      }
    }
  }

  // -------------------------------------------------------------------------------------
  // The edit button's escaping

  /** The escaping `loadManageStylists` applies, as written: `'` becomes `\'`, then `"`
      becomes `&quot;`. A backslash is left as it is. */
  function EscapeAsWritten(s: string): (r: string)
    ensures '"' !in r
  {
    ReplaceChar(ReplaceChar(s, '\'', "\\'"), '"', "&quot;")
  }

  /** One character of the corrected escaping: `&` and `"` as HTML character references
      for the attribute, backslash, `'` and line breaks as JavaScript escapes for the
      string literal. */
  function EscapeChar(c: char): string {
    if c == '&' then "&amp;"
    else if c == '"' then "&quot;"
    else if c == '\\' then "\\\\"
    else if c == '\'' then "\\'"
    else if c == '\n' then "\\n"
    else if c == '\r' then "\\r"
    else [c]
  }

  /** The corrected escaping: the chain of `replace` calls with `&` and the backslash
      replaced first, so that no escape it adds is escaped again. Its output never
      contains `"`, so it cannot end the attribute. */
  function EscapeForOnclick(s: string): (r: string)
    ensures '"' !in r
  {
    if s == [] then [] else EscapeChar(s[0]) + EscapeForOnclick(s[1..])
  }

  /** How the browser reads a double-quoted attribute value: `&quot;` and `&amp;` become
      `"` and `&`. The other character references are not modelled; the corrected escaping
      leaves no `&` that does not start one of these two. */
  function HtmlAttrDecode(t: string): string {
    if t == [] then []
    else if |t| >= 6 && t[..6] == "&quot;" then "\"" + HtmlAttrDecode(t[6..])
    else if |t| >= 5 && t[..5] == "&amp;" then "&" + HtmlAttrDecode(t[5..])
    else [t[0]] + HtmlAttrDecode(t[1..])
  }

  /** Reading `'t'` as a JavaScript string literal: the value it denotes; or the position
      of a quote in `t` that ends the literal early, so the rest of `t` is read as code;
      or `Unread` for a line break or an escape sequence this model does not read. */
  datatype Literal = Reads(value: string) | ClosesAt(index: nat) | Unread

  function Prepend(c: char, l: Literal, width: nat): Literal {
    match l
    case Reads(v) => Reads([c] + v)
    case ClosesAt(i) => ClosesAt(i + width)
    case Unread => Unread
  }

  function ReadLiteral(t: string): Literal {
    if t == [] then Reads([])
    else if t[0] == '\'' then ClosesAt(0)
    else if t[0] == '\n' || t[0] == '\r' then Unread
    else if t[0] == '\\' then
      if |t| == 1 then Unread
      else if t[1] == '\\' || t[1] == '\'' || t[1] == '"' then Prepend(t[1], ReadLiteral(t[2..]), 2)
      else if t[1] == 'n' then Prepend('\n', ReadLiteral(t[2..]), 2)
      else if t[1] == 'r' then Prepend('\r', ReadLiteral(t[2..]), 2)
      else Unread
    else Prepend(t[0], ReadLiteral(t[1..]), 1)
  }

  /** The name `a\'` (three characters) escaped as written becomes `a\\'`: the doubled
      backslash reads as one backslash and the quote after it closes the literal, so
      whatever follows in a name runs as code in the click handler. */
  lemma AsWrittenEscapeClosesEarly()
    ensures EscapeAsWritten("a\\'") == "a\\\\'"
    ensures ReadLiteral(HtmlAttrDecode(EscapeAsWritten("a\\'"))) == ClosesAt(3)
  {
    AsWrittenOutput();
    AsWrittenDecoded();
    AsWrittenRead();
  }

  lemma AsWrittenOutput()
    ensures EscapeAsWritten("a\\'") == "a\\\\'"
  {
    ReplaceOne('a', '\'', "\\'");
    ReplaceOne('\\', '\'', "\\'");
    ReplaceOne('\'', '\'', "\\'");
    ReplaceCharAppend(['a'], ['\\'], '\'', "\\'");
    ReplaceCharAppend(['a'] + ['\\'], ['\''], '\'', "\\'");
    assert "a\\'" == ['a'] + ['\\'] + ['\''];
    var t := "a\\\\'";
    assert ReplaceChar("a\\'", '\'', "\\'") == t;
    ReplaceOne('a', '"', "&quot;");
    ReplaceOne('\\', '"', "&quot;");
    ReplaceOne('\'', '"', "&quot;");
    ReplaceCharAppend(['a'], ['\\'], '"', "&quot;");
    ReplaceCharAppend(['a'] + ['\\'], ['\\'], '"', "&quot;");
    ReplaceCharAppend(['a'] + ['\\'] + ['\\'], ['\''], '"', "&quot;");
    assert t == ['a'] + ['\\'] + ['\\'] + ['\''];
  }

  lemma AsWrittenDecoded()
    ensures HtmlAttrDecode("a\\\\'") == "a\\\\'"
  {
    DecodePlain('\'', []);
    DecodePlain('\\', ['\'']);
    DecodePlain('\\', ['\\', '\'']);
    DecodePlain('a', ['\\', '\\', '\'']);
    assert "a\\\\'" == ['a'] + ['\\', '\\', '\''];
  }

  lemma AsWrittenRead()
    ensures ReadLiteral("a\\\\'") == ClosesAt(3)
  {
    var t := "a\\\\'";
    assert t[1..] == "\\\\'" && t[1..][2..] == "'";
    assert ReadLiteral("'") == ClosesAt(0);
  }

  lemma ReplaceOne(x: char, c: char, repl: string)
    ensures ReplaceChar([x], c, repl) == if x == c then repl else [x]
  {
    assert [x][1..] == [];
  }

  /** What the attribute decoding leaves of the corrected escaping: backslash, quote and
      line breaks as JavaScript escapes, every other character as itself. */
  function JsEscapeChar(c: char): string {
    if c == '\\' then "\\\\"
    else if c == '\'' then "\\'"
    else if c == '\n' then "\\n"
    else if c == '\r' then "\\r"
    else [c]
  }

  function JsEscape(s: string): string {
    if s == [] then [] else JsEscapeChar(s[0]) + JsEscape(s[1..])
  }

  /** A text whose `i`-th character differs from the pattern's does not start with it. */
  lemma NotPrefix(t: string, p: string, i: nat)
    requires i < |p| && i < |t| && t[i] != p[i]
    ensures !(|t| >= |p| && t[..|p|] == p)
  {
  }

  lemma DecodePlain(c: char, rest: string)
    requires c != '&'
    ensures HtmlAttrDecode([c] + rest) == [c] + HtmlAttrDecode(rest)
  {
    var t := [c] + rest;
    assert t[1..] == rest;
    NotPrefix(t, "&quot;", 0);
    NotPrefix(t, "&amp;", 0);
  }

  lemma DecodeAmp(rest: string)
    ensures HtmlAttrDecode("&amp;" + rest) == "&" + HtmlAttrDecode(rest)
  {
    var t := "&amp;" + rest;
    NotPrefix(t, "&quot;", 1);
    assert t[..5] == "&amp;" && t[5..] == rest;
  }

  lemma DecodeQuot(rest: string)
    ensures HtmlAttrDecode("&quot;" + rest) == "\"" + HtmlAttrDecode(rest)
  {
    var t := "&quot;" + rest;
    assert t[..6] == "&quot;" && t[6..] == rest;
  }

  /** Two characters that do not start a reference decode as themselves. */
  lemma DecodeTwo(a: char, b: char, rest: string)
    requires a != '&' && b != '&'
    ensures HtmlAttrDecode([a, b] + rest) == [a, b] + HtmlAttrDecode(rest)
  {
    assert [a, b] + rest == [a] + ([b] + rest);
    DecodePlain(b, rest);
    DecodePlain(a, [b] + rest);
  }

  lemma DecodeEscapeChar(c: char, rest: string)
    ensures HtmlAttrDecode(EscapeChar(c) + rest) == JsEscapeChar(c) + HtmlAttrDecode(rest)
  {
    if c == '&' {
      DecodeAmp(rest);
    } else if c == '"' {
      DecodeQuot(rest);
    } else if c == '\\' {
      DecodeTwo('\\', '\\', rest);
    } else if c == '\'' {
      DecodeTwo('\\', '\'', rest);
    } else if c == '\n' {
      DecodeTwo('\\', 'n', rest);
    } else if c == '\r' {
      DecodeTwo('\\', 'r', rest);
    } else {
      DecodePlain(c, rest);
    }
  }

  lemma {:induction false} DecodeEscape(s: string)
    ensures HtmlAttrDecode(EscapeForOnclick(s)) == JsEscape(s)
  {
    if s != [] {
      DecodeEscapeChar(s[0], EscapeForOnclick(s[1..]));
      DecodeEscape(s[1..]);
    }
  }

  lemma ReadEscapeChar(c: char, rest: string)
    ensures ReadLiteral(JsEscapeChar(c) + rest) == Prepend(c, ReadLiteral(rest), |JsEscapeChar(c)|)
  {
    var t := JsEscapeChar(c) + rest;
    if |JsEscapeChar(c)| == 2 {
      assert t[2..] == rest;
    } else {
      assert t[1..] == rest;
    }
  }

  lemma {:induction false} ReadJsEscape(s: string)
    ensures ReadLiteral(JsEscape(s)) == Reads(s)
  {
    if s != [] {
      ReadEscapeChar(s[0], JsEscape(s[1..]));
      ReadJsEscape(s[1..]);
    }
  }

  /** The corrected escaping round-trips: inside the double-quoted attribute and the
      single-quoted literal, every name and bio reaches `openEditModal` unchanged. */
  lemma EscapeForOnclickRoundTrip(s: string)
    ensures ReadLiteral(HtmlAttrDecode(EscapeForOnclick(s))) == Reads(s)
  {
    DecodeEscape(s);
    ReadJsEscape(s);
  }

  /** The `onclick` text of a stylist card's edit button as `loadManageStylists` builds
      it: `openEditModal(id, 'name', 'bio', start, end)`, the name and bio escaped as
      written and the bio `''` when unset. A `"` in the name or bio becomes `&quot;`, so the
      text cannot end the double-quoted attribute early unless the id or the hours
      themselves carry a quote; a backslash can still end the string literal early
      (`AsWrittenEscapeClosesEarly`). */
  function EditCall(st: Value): (r: string)
    ensures ('"' !in JsString(Field(st, "id")) && '"' !in JsString(Field(st, "start_hour")) &&
             '"' !in JsString(Field(st, "end_hour"))) ==> '"' !in r
  {
    "openEditModal(" + JsString(Field(st, "id")) +
    ", '" + EscapeAsWritten(JsString(Field(st, "display_name"))) +
    "', '" + EscapeAsWritten(JsString(Or(Field(st, "bio"), Str("")))) +
    "', " + JsString(Field(st, "start_hour")) + ", " + JsString(Field(st, "end_hour")) + ")"
  }

  /** The same text built with the corrected escaping, whose name and bio literals read
      back as the original text (`EscapeForOnclickRoundTrip`). */
  function EditCallCorrected(st: Value): (r: string)
    ensures ('"' !in JsString(Field(st, "id")) && '"' !in JsString(Field(st, "start_hour")) &&
             '"' !in JsString(Field(st, "end_hour"))) ==> '"' !in r
  {
    "openEditModal(" + JsString(Field(st, "id")) +
    ", '" + EscapeForOnclick(JsString(Field(st, "display_name"))) +
    "', '" + EscapeForOnclick(JsString(Or(Field(st, "bio"), Str("")))) +
    "', " + JsString(Field(st, "start_hour")) + ", " + JsString(Field(st, "end_hour")) + ")"
  }

  /** A character the two escapings treat alike: neither `&`, a backslash nor a line break. */
  predicate PlainChar(c: char) {
    c != '&' && c != '\\' && c != '\n' && c != '\r'
  }

  /** On text without `&`, backslashes or line breaks the escaping as written is the
      corrected one. */
  lemma {:induction false} EscapesAgreeOnPlainText(s: string)
    ensures (forall k :: 0 <= k < |s| ==> PlainChar(s[k])) ==> EscapeAsWritten(s) == EscapeForOnclick(s)
  {
    if s != [] && forall k :: 0 <= k < |s| ==> PlainChar(s[k]) {
      var x, t := s[0], s[1..];
      assert s == [x] + t;
      assert forall k :: 0 <= k < |t| ==> PlainChar(t[k]) by {
        forall k | 0 <= k < |t| ensures PlainChar(t[k]) { assert t[k] == s[k + 1]; }
      }
      EscapesAgreeOnPlainText(t);
      ReplaceCharAppend([x], t, '\'', "\\'");
      ReplaceOne(x, '\'', "\\'");
      var head := ReplaceChar([x], '\'', "\\'");
      ReplaceCharAppend(head, ReplaceChar(t, '\'', "\\'"), '"', "&quot;");
      assert ReplaceChar(head, '"', "&quot;") == EscapeChar(x) by {
        if x == '\'' {
          ReplaceOne('\\', '"', "&quot;");
          ReplaceOne('\'', '"', "&quot;");
          ReplaceCharAppend(['\\'], ['\''], '"', "&quot;");
          assert head == ['\\'] + ['\''];
        } else {
          ReplaceOne(x, '"', "&quot;");
        }
      }
    }
  }

  /** When the name and bio carry no `&`, backslash or line break, the button the page
      renders is the corrected one. */
  lemma EditCallAgreesOnPlainText(st: Value)
    ensures (forall k :: 0 <= k < |JsString(Field(st, "display_name"))| ==>
               PlainChar(JsString(Field(st, "display_name"))[k])) &&
            (forall k :: 0 <= k < |JsString(Or(Field(st, "bio"), Str("")))| ==>
               PlainChar(JsString(Or(Field(st, "bio"), Str("")))[k])) ==>
            EditCall(st) == EditCallCorrected(st)
  {
    EscapesAgreeOnPlainText(JsString(Field(st, "display_name")));
    EscapesAgreeOnPlainText(JsString(Or(Field(st, "bio"), Str(""))));
  }

  // -------------------------------------------------------------------------------------
  // The bookings table

  /** One row of the owner's bookings table; `when` stands for the locale formatting of
      the start time. */
  function AdminRow(bk: Value, when: Value -> string): string {
    "<tr><td>" + JsString(Field(bk, "id")) + "</td><td>" + AdminCustomerLabel(bk) +
    "</td><td>" + JsString(Field(bk, "service_id")) +
    "</td><td>" + JsString(Or(Field(bk, "stylist_id"), Str("-"))) +
    "</td><td>" + when(Field(bk, "start_time")) +
    "</td><td><span class=\"" + StatusBadge(Field(bk, "status")) + "\">" + JsString(Field(bk, "status")) +
    "</span></td><td><button onclick=\"deleteBooking(" + JsString(Field(bk, "id")) + ")\" class=\"danger\">Delete</button></td></tr>"
  }

  /** The rows of `bks`, in order. */
  function AdminRows(bks: seq<Value>, when: Value -> string): (r: seq<string>)
    ensures |r| == |bks|
  {
    seq(|bks|, k requires 0 <= k < |bks| => AdminRow(bks[k], when))
  }

  const BookingsHead := "<table><thead><tr><th>ID</th><th>Customer</th><th>Service</th><th>Stylist</th><th>Time</th><th>Status</th><th>Action</th></tr></thead><tbody>"
  const NoBookings := "<p class=\"text-muted\">No bookings found.</p>"

  /** The content `loadAllBookings` gives the table area for a parsed reply: the empty
      message for a falsy or empty reply, the table for an array, and `None` for anything
      else, which has no `forEach` and ends in the error line. */
  function BookingsView(data: Value, when: Value -> string): (r: Option<string>)
    ensures !Truthy(data) || Length(data) == Num(0) ==> r == Some(NoBookings)
    ensures data.Arr? && data.items != [] ==>
      r.Some? && |r.value| >= |BookingsHead| && r.value[..|BookingsHead|] == BookingsHead
    ensures r.None? <==> Truthy(data) && Length(data) != Num(0) && !data.Arr?
  {
    if !Truthy(data) || Length(data) == Num(0) then Some(NoBookings)
    else if data.Arr? then
      var rows := Concat(AdminRows(data.items, when));
      TableStartsWithHead(rows);
      Some(BookingsHead + rows + "</tbody></table>")
    else None
  }

  /** The table starts with its head. */
  lemma TableStartsWithHead(rows: string)
    ensures var table := BookingsHead + rows + "</tbody></table>";
      |table| >= |BookingsHead| && table[..|BookingsHead|] == BookingsHead
  {
    var table := BookingsHead + rows + "</tbody></table>";
    assert table[..|BookingsHead|] == BookingsHead;
  }

  /** `loadAllBookings` after the reply parsed: the `html +=` loop over the rows of the
      bookings. */
  method RenderAllBookings(data: Value, when: Value -> string) returns (view: Option<string>)
    ensures view == BookingsView(data, when)
  {
    if !Truthy(data) || Length(data) == Num(0) {
      return Some(NoBookings);
    }
    if !data.Arr? {
      return None;
    }
    var html := AppendAll(BookingsHead, AdminRows(data.items, when));
    view := Some(html + "</tbody></table>");
  }

  /** Each booking of a listing has its own row, in the listing's order: the table is the
      rows before it, its row, and the rows after it. */
  lemma BookingsViewRow(bks: seq<Value>, k: nat, when: Value -> string)
    requires k < |bks|
    ensures AdminRows(bks, when)[k] == AdminRow(bks[k], when)
    ensures BookingsView(Arr(bks), when) == Some(BookingsHead + (Concat(AdminRows(bks, when)[..k]) +
      AdminRows(bks, when)[k] + Concat(AdminRows(bks, when)[k + 1..])) + "</tbody></table>")
  {
    var rows := AdminRows(bks, when);
    BookingsViewOfArray(bks, when);
    ConcatAt(rows, k);
  }

  /** A non-empty listing is shown as the head, its rows and the closing tags. */
  lemma BookingsViewOfArray(bks: seq<Value>, when: Value -> string)
    requires bks != []
    ensures BookingsView(Arr(bks), when) == Some(BookingsHead + Concat(AdminRows(bks, when)) + "</tbody></table>")
  {
    assert Length(Arr(bks)) == Num(|bks|);
  }

  // -------------------------------------------------------------------------------------
  // The page

  class Admin {
    /** The `token` entry of `localStorage`, and where the page sent the browser (`None`:
        nowhere). */
    var storage: Option<string>
    var location: Option<string>
    var walkinService: Value
    var walkinStylist: Value
    var walkinSelectedStart: Value
    /** The walk-in lists on show and which button of each is `selected`. */
    var services: seq<Value>
    var serviceButtons: seq<bool>
    var stylists: seq<Value>
    var stylistButtons: seq<bool>
    var slots: seq<Value>
    var slotButtons: seq<bool>
    /** Whether the "Selected: ..." line is displayed. */
    var slotShown: bool

    ghost predicate Valid()
      reads this
    {
      |serviceButtons| == |services| && |stylistButtons| == |stylists| && |slotButtons| == |slots|
    }

    /** Page load, before the gate runs: nothing chosen, nothing listed. */
    constructor (stored: Option<string>)
      ensures Valid() && storage == stored && location.None?
      ensures walkinService == Null && walkinStylist == Null && walkinSelectedStart == Null
    {
      storage, location := stored, None;
      walkinService, walkinStylist, walkinSelectedStart := Null, Null, Null;
      services, serviceButtons, stylists, stylistButtons, slots, slotButtons := [], [], [], [], [], [];
      slotShown := false;
    }

    /** `checkAdminAccess`: the browser goes where the gate says; the stored token is
        removed exactly when it is there but unreadable. */
    method CheckAccess(decode: string -> Option<Value>)
      requires Valid()
      modifies this
      ensures Valid()
      ensures location == GateDestination(AdminGate(old(storage), decode))
      ensures AdminGate(old(storage), decode) == Unreadable ==> storage.None?
      ensures AdminGate(old(storage), decode) != Unreadable ==> storage == old(storage)
      ensures walkinService == old(walkinService) && walkinStylist == old(walkinStylist)
      ensures walkinSelectedStart == old(walkinSelectedStart)
    {
      var gate := AdminGate(storage, decode);
      if gate == Unreadable {
        storage := None;
      }
      location := GateDestination(gate);
    }

    /** `loadServices` of the walk-in flow: one button per service, none selected. */
    method LoadWalkinServices(data: seq<Value>)
      requires Valid()
      modifies this
      ensures Valid() && services == data && forall k :: 0 <= k < |serviceButtons| ==> !serviceButtons[k]
      ensures walkinService == old(walkinService) && walkinStylist == old(walkinStylist)
      ensures walkinSelectedStart == old(walkinSelectedStart) && storage == old(storage)
      ensures stylists == old(stylists) && slots == old(slots)
    {
      services := data;
      serviceButtons := seq(|data|, _ => false);
    }

    /** `loadStylists` of the walk-in flow: one button per stylist, none selected. */
    method LoadWalkinStylists(data: seq<Value>)
      requires Valid()
      modifies this
      ensures Valid() && stylists == data && forall k :: 0 <= k < |stylistButtons| ==> !stylistButtons[k]
      ensures walkinService == old(walkinService) && walkinStylist == old(walkinStylist)
      ensures walkinSelectedStart == old(walkinSelectedStart) && storage == old(storage)
      ensures services == old(services) && slots == old(slots)
    {
      stylists := data;
      stylistButtons := seq(|data|, _ => false);
    }

    /** The click handler of the `k`-th walk-in service: that service, that button alone
        selected; the stylist and the start stay. */
    method ChooseWalkinService(k: nat)
      requires Valid() && k < |services|
      modifies this
      ensures Valid() && walkinService == old(services)[k]
      ensures forall j :: 0 <= j < |serviceButtons| ==> (serviceButtons[j] <==> j == k)
      ensures walkinStylist == old(walkinStylist) && walkinSelectedStart == old(walkinSelectedStart)
      ensures services == old(services) && stylists == old(stylists) && slots == old(slots)
      ensures storage == old(storage)
    {
      walkinService := services[k];
      serviceButtons := Highlight(serviceButtons, k);
    }

    /** The click handler of the `k`-th walk-in stylist. */
    method ChooseWalkinStylist(k: nat)
      requires Valid() && k < |stylists|
      modifies this
      ensures Valid() && walkinStylist == old(stylists)[k]
      ensures forall j :: 0 <= j < |stylistButtons| ==> (stylistButtons[j] <==> j == k)
      ensures walkinService == old(walkinService) && walkinSelectedStart == old(walkinSelectedStart)
      ensures services == old(services) && stylists == old(stylists) && slots == old(slots)
      ensures storage == old(storage)
    {
      walkinStylist := stylists[k];
      stylistButtons := Highlight(stylistButtons, k);
    }

    /** `loadWalkinSlots`: first the chosen start is cleared, the slot list emptied and the
        "Selected" line hidden; then nothing is sent without a service id and a date; the
        query names the stylist only when one with an id is chosen. */
    method LoadWalkinSlots(date: string) returns (r: Issue)
      requires Valid()
      modifies this
      ensures Valid()
      ensures walkinSelectedStart == Null && slots == [] && !slotShown
      ensures r.Issued? <==> Truthy(Field(walkinService, "id")) && date != ""
      ensures r.Blocked? ==> r.message == "Please select service and date."
      ensures r.Issued? ==>
        r.request.path == "/bookings/availability" &&
        r.request.authorization == Some(Bearer(Stored(storage))) &&
        |r.request.query| >= 2 && r.request.query[..2] == [("service_id", JsString(Field(walkinService, "id"))), ("date", date)] &&
        (|r.request.query| == 3 <==> Truthy(Field(walkinStylist, "id"))) &&
        (|r.request.query| == 3 ==> r.request.query[2] == ("stylist_id", JsString(Field(walkinStylist, "id"))))
      ensures walkinService == old(walkinService) && walkinStylist == old(walkinStylist)
      ensures services == old(services) && stylists == old(stylists) && storage == old(storage)
    {
      slots, slotButtons := [], [];
      slotShown := false;
      walkinSelectedStart := Null;
      var svcId := Field(walkinService, "id");
      if !Truthy(svcId) || date == "" {
        return Blocked("Please select service and date.");
      }
      var query := [("service_id", JsString(svcId)), ("date", date)];
      if Truthy(Field(walkinStylist, "id")) {
        query := query + [("stylist_id", JsString(Field(walkinStylist, "id")))];
      }
      r := Issued(Request("GET", "/bookings/availability", query, Some(Bearer(Stored(storage))), Undefined));
    }

    /** The availability reply of the walk-in flow: one button per slot, none selected. */
    method ShowWalkinSlots(data: seq<Value>)
      requires Valid()
      modifies this
      ensures Valid() && slots == data && forall k :: 0 <= k < |slotButtons| ==> !slotButtons[k]
      ensures walkinService == old(walkinService) && walkinStylist == old(walkinStylist)
      ensures walkinSelectedStart == old(walkinSelectedStart) && slotShown == old(slotShown)
      ensures services == old(services) && stylists == old(stylists) && storage == old(storage)
    {
      slots := data;
      slotButtons := seq(|data|, _ => false);
    }

    /** The click handler of the `k`-th slot: that button alone selected, its start chosen
        and the "Selected" line shown. */
    method ChooseWalkinSlot(k: nat)
      requires Valid() && k < |slots|
      modifies this
      ensures Valid() && walkinSelectedStart == Field(old(slots)[k], "start_time") && slotShown
      ensures forall j :: 0 <= j < |slotButtons| ==> (slotButtons[j] <==> j == k)
      ensures walkinService == old(walkinService) && walkinStylist == old(walkinStylist)
      ensures services == old(services) && stylists == old(stylists) && slots == old(slots)
      ensures storage == old(storage)
    {
      slotButtons := Highlight(slotButtons, k);
      walkinSelectedStart := Field(slots[k], "start_time");
      slotShown := true;
    }

    /** `createWalkin`: nothing is sent unless service, stylist and start are all chosen;
        the payload is the selection with the typed name, and an empty email is sent as
        null. */
    function WalkinRequest(name: string, email: string): (r: Issue)
      reads this
      ensures r.Issued? <==> Truthy(walkinService) && Truthy(walkinStylist) && Truthy(walkinSelectedStart)
      ensures r.Blocked? ==> r.message == "Please complete all steps (Service, Stylist, Time)"
      ensures r.Issued? ==>
        r.request.verb == "POST" && r.request.path == "/bookings/walkin" &&
        r.request.authorization == Some(Bearer(Stored(storage))) &&
        Field(r.request.body, "service_id") == Field(walkinService, "id") &&
        Field(r.request.body, "stylist_id") == Field(walkinStylist, "id") &&
        Field(r.request.body, "start_time") == walkinSelectedStart &&
        Field(r.request.body, "customer_name") == Str(name) &&
        Field(r.request.body, "customer_email") == (if email == "" then Null else Str(email))
    {
      if !Truthy(walkinService) || !Truthy(walkinStylist) || !Truthy(walkinSelectedStart) then
        Blocked("Please complete all steps (Service, Stylist, Time)")
      else Issued(Request("POST", "/bookings/walkin", [], Some(Bearer(Stored(storage))),
        Obj(map["service_id" := Field(walkinService, "id"), "stylist_id" := Field(walkinStylist, "id"),
                "start_time" := walkinSelectedStart, "customer_name" := Str(name),
                "customer_email" := Or(Str(email), Null)])))
    }

    /** `deleteStylist(id)`: nothing is sent unless the owner confirms. */
    function DeleteStylistRequest(id: Value, confirmed: bool): (r: Issue)
      reads this
      ensures r.Issued? <==> confirmed
      ensures !confirmed ==> r.Declined?
      ensures r.Issued? ==> r.request == Request("DELETE", "/stylists/" + JsString(id), [],
                                                  Some(Bearer(Stored(storage))), Undefined)
    {
      if !confirmed then Declined
      else Issued(Request("DELETE", "/stylists/" + JsString(id), [], Some(Bearer(Stored(storage))), Undefined))
    }

    /** `deleteBooking(id)`: nothing is sent unless the owner confirms. */
    function DeleteBookingRequest(id: Value, confirmed: bool): (r: Issue)
      reads this
      ensures r.Issued? <==> confirmed
      ensures !confirmed ==> r.Declined?
      ensures r.Issued? ==> r.request == Request("DELETE", "/bookings/" + JsString(id), [],
                                                  Some(Bearer(Stored(storage))), Undefined)
    {
      if !confirmed then Declined
      else Issued(Request("DELETE", "/bookings/" + JsString(id), [], Some(Bearer(Stored(storage))), Undefined))
    }
  }
}

=== FILE: src/app_page.dfy ===
/** The single-page front end (`app.js`): navigation between views, the token and guest
    mode it keeps in module variables and in `localStorage`, and the checks its booking,
    "my bookings" and cancel handlers make before they send anything. */
module AppPage {
  import opened Wrappers
  import opened Tables
  import opened Models
  import opened Browser

  /** The active flags `activate(id)` leaves: a view is active exactly when its id is `id`. */
  function Activation(views: seq<string>, id: string): (r: seq<bool>)
    ensures |r| == |views|
  {
    seq(|views|, k requires 0 <= k < |views| => views[k] == id)
  }

  /** With distinct view ids, activating one of them leaves exactly that view active. */
  lemma ActivationSingle(views: seq<string>, id: string)
    requires Distinct(views) && id in views
    ensures exists k :: 0 <= k < |views| && views[k] == id && Activation(views, id)[k]
    ensures forall j, k :: (0 <= j < |views| && 0 <= k < |views| &&
      Activation(views, id)[j] && Activation(views, id)[k]) ==> j == k
  {
    var k := IndexOf(views, id).value;
    assert Activation(views, id)[k];
  }

  /** The active flags after `enableGuestMode`: every view loses `active`, then the element
      with id `booking` (the first such in document order) gains it. Without such an
      element the lookup throws and no view is active. */
  function GuestActivation(views: seq<string>): (r: seq<bool>)
    ensures |r| == |views|
    ensures forall k :: 0 <= k < |views| ==> (r[k] <==> IndexOf(views, "booking") == Some(k))
  {
    seq(|views|, k requires 0 <= k < |views| => IndexOf(views, "booking") == Some(k))
  }

  /** With distinct view ids, guest mode shows the same view as `activate('booking')`. */
  lemma GuestShowsBooking(views: seq<string>)
    requires Distinct(views)
    ensures GuestActivation(views) == Activation(views, "booking")
  {
    forall k | 0 <= k < |views|
      ensures GuestActivation(views)[k] == Activation(views, "booking")[k]
    {
      if views[k] == "booking" {
        IndexOfDistinct(views, k);
      }
    }
  }

  /** `localStorage.getItem('token') || null`: an empty stored token counts as none. */
  function RestoredToken(stored: Option<string>): (v: Value)
    ensures Truthy(v) <==> stored.Some? && stored.value != ""
    ensures Truthy(v) ==> v == Str(stored.value)
    ensures !Truthy(v) ==> v == Null
  {
    Or(Stored(stored), Null)
  }

  /** The reply to the login form: the HTTP status was ok or not, and `JSON.parse` of the
      body gave a value or threw (`None`). `None` as a whole is a failed `fetch`. */
  datatype LoginReply = LoginReply(ok: bool, body: Option<Value>)

  /** The token `login` keeps, when it keeps one: the reply is ok and its parsed body is not
      null, so that reading `access_token` does not throw. */
  function LoginToken(reply: Option<LoginReply>): (r: Option<Value>)
    ensures r.Some? <==>
      reply.Some? && reply.value.ok && reply.value.body.Some? && Get(reply.value.body.value, "access_token").Some?
    ensures r.Some? ==> r == Get(reply.value.body.value, "access_token")
  {
    if reply.None? || !reply.value.ok || reply.value.body.None? then None
    else Get(reply.value.body.value, "access_token")
  }

  /** The body of a `/auth/login` reply: the `Token` schema as JSON. */
  function TokenJson(accessToken: string, tokenType: string): Value {
    Obj(map["access_token" := Str(accessToken), "token_type" := Str(tokenType)])
  }

  /** A login the server accepts keeps its access token, and a reload of the page restores
      it from storage whenever it is not empty. */
  lemma LoginSurvivesReload(accessToken: string)
    requires accessToken != ""
    ensures LoginToken(Some(LoginReply(true, Some(TokenJson(accessToken, "bearer"))))) == Some(Str(accessToken))
    ensures RestoredToken(Some(JsString(Str(accessToken)))) == Str(accessToken)
  {
  }

  /** The booking form of the page. */
  datatype BookingForm = BookingForm(serviceId: string, stylistId: string, start: string,
                                     guestName: string, guestEmail: string)

  /** `createGuestBooking`: without a name or without an email nothing is sent; otherwise
      the form goes to `/bookings/guest` with no `Authorization` header. */
  function GuestBooking(form: BookingForm): (r: Issue)
    ensures r.Declined? == false
    ensures r.Issued? <==> form.guestName != "" && form.guestEmail != ""
    ensures r.Issued? ==>
      r.request.verb == "POST" && r.request.path == "/bookings/guest" && r.request.authorization.None? &&
      Field(r.request.body, "customer_name") == Str(form.guestName) &&
      Field(r.request.body, "customer_email") == Str(form.guestEmail) &&
      Field(r.request.body, "start_time") == Str(form.start)
  {
    if form.guestName == "" || form.guestEmail == "" then Blocked("Guest must provide Name and Email")
    else Issued(Request("POST", "/bookings/guest", [], None,
      Obj(map["service_id" := ParseIntValue(form.serviceId), "stylist_id" := ParseIntValue(form.stylistId),
              "start_time" := Str(form.start), "customer_name" := Str(form.guestName),
              "customer_email" := Str(form.guestEmail)])))
  }

  /** `canCancel` in `loadMyBookings`: the cancel button is offered unless the booking is
      cancelled or completed. */
  predicate CanCancel(status: string) {
    status != "cancelled" && status != "completed"
  }

  /** On the statuses the server writes, the cancel button is offered exactly for pending
      and confirmed bookings. */
  lemma CanCancelStatuses(s: BookingStatus)
    ensures CanCancel(StatusValue(s)) <==> s == Pending || s == Confirmed
  {
  }

  class App {
    /** The ids of the `.view` elements, in document order. */
    const views: seq<string>
    /** Which of them carries the `active` class. */
    var active: seq<bool>
    var token: Value
    var isGuestMode: bool
    /** The `token` entry of `localStorage`. */
    var storage: Option<string>

    ghost predicate Valid()
      reads this
    {
      |active| == |views|
    }

    /** Page load: the navigation code activates `home`, then the token is read back from
        storage and guest mode is off. */
    constructor (views: seq<string>, stored: Option<string>)
      ensures Valid() && this.views == views
      ensures active == Activation(views, "home")
      ensures token == RestoredToken(stored) && !isGuestMode && storage == stored
    {
      this.views := views;
      active := seq(|views|, _ => false);
      token := RestoredToken(stored);
      isGuestMode := false;
      storage := stored;
      new;
      Activate("home");
    }

    /** `activate(id)`: each view's `active` class is toggled on exactly when its id is `id`. */
    method Activate(id: string)
      requires Valid()
      modifies this
      ensures Valid() && active == Activation(views, id)
      ensures token == old(token) && isGuestMode == old(isGuestMode) && storage == old(storage)
    {
      for k := 0 to |views|
        invariant |active| == |views|
        invariant forall j :: 0 <= j < k ==> active[j] == (views[j] == id)
        invariant token == old(token) && isGuestMode == old(isGuestMode) && storage == old(storage)
      {
        active := active[k := views[k] == id];
      }
    }

    /** `enableGuestMode`: guest mode on, the token dropped from memory and from storage
        whatever it was, and the booking view shown. */
    method EnableGuestMode()
      requires Valid()
      modifies this
      ensures Valid() && isGuestMode && token == Null && storage.None?
      ensures active == GuestActivation(views)
    {
      isGuestMode := true;
      token := Null;
      storage := None;
      for k := 0 to |views|
        invariant |active| == |views|
        invariant forall j :: 0 <= j < k ==> !active[j]
        invariant isGuestMode && token == Null && storage.None?
      {
        active := active[k := false];
      }
      var booking := IndexOf(views, "booking");
      if booking.Some? {
        active := active[booking.value := true];
      }
    }

    /** The state effect of `login`: when the reply is ok and parses, the access token is
        kept in memory and in storage (`setItem` stores its string form) and guest mode
        ends; otherwise token, storage and guest mode are as they were. The view does not
        change. */
    method Login(reply: Option<LoginReply>)
      requires Valid()
      modifies this
      ensures Valid() && active == old(active)
      ensures LoginToken(reply).Some? ==>
        token == LoginToken(reply).value && storage == Some(JsString(token)) && !isGuestMode
      ensures LoginToken(reply).None? ==>
        token == old(token) && storage == old(storage) && isGuestMode == old(isGuestMode)
    {
      if reply.Some? && reply.value.ok && reply.value.body.Some? {
        var accessToken := Get(reply.value.body.value, "access_token");
        if accessToken.Some? {
          token := accessToken.value;
          storage := Some(JsString(token));
          isGuestMode := false;
        }
      }
    }

    /** `createUserBooking`: nothing is sent without a token; otherwise the form goes to
        `/bookings/` with the token as bearer. */
    function UserBooking(form: BookingForm): (r: Issue)
      reads this
      ensures r.Declined? == false
      ensures r.Issued? <==> Truthy(token)
      ensures r.Issued? ==>
        r.request.verb == "POST" && r.request.path == "/bookings/" &&
        r.request.authorization == Some(Bearer(token)) &&
        Field(r.request.body, "start_time") == Str(form.start)
    {
      if !Truthy(token) then Blocked("Please login first or use Guest Mode")
      else Issued(Request("POST", "/bookings/", [], Some(Bearer(token)),
        Obj(map["service_id" := ParseIntValue(form.serviceId), "stylist_id" := ParseIntValue(form.stylistId),
                "start_time" := Str(form.start)])))
    }

    /** `handleBookingSubmit`: the guest path in guest mode, the user path otherwise. A
        booking sent in guest mode carries no token, one sent otherwise always does. */
    function SubmitBooking(form: BookingForm): (r: Issue)
      reads this
      ensures r.Issued? <==>
        (if isGuestMode then form.guestName != "" && form.guestEmail != "" else Truthy(token))
      ensures r.Issued? ==>
        (r.request.path == "/bookings/guest" <==> isGuestMode) &&
        (r.request.authorization.None? <==> isGuestMode)
    {
      if isGuestMode then GuestBooking(form) else UserBooking(form)
    }

    /** `loadMyBookings`: nothing is fetched without a token. */
    function MyBookings(): (r: Issue)
      reads this
      ensures r.Issued? <==> Truthy(token)
      ensures r.Issued? ==>
        r.request == Request("GET", "/bookings/me", [], Some(Bearer(token)), Undefined)
      ensures r.Blocked? ==> r.message == "Please login to view bookings."
    {
      if !Truthy(token) then Blocked("Please login to view bookings.")
      else Issued(Request("GET", "/bookings/me", [], Some(Bearer(token)), Undefined))
    }

    /** `cancelBooking(id)`: nothing is sent unless the user confirms; the request goes out
        with whatever token there is, without checking for one. */
    function Cancel(id: Value, confirmed: bool): (r: Issue)
      reads this
      ensures r.Issued? <==> confirmed
      ensures !confirmed ==> r.Declined?
      ensures r.Issued? ==>
        r.request.verb == "PUT" && r.request.path == "/bookings/" + JsString(id) + "/cancel" &&
        r.request.authorization == Some(Bearer(token))
    {
      if !confirmed then Declined
      else Issued(Request("PUT", "/bookings/" + JsString(id) + "/cancel", [], Some(Bearer(token)), Undefined))
    }
  }
}

=== FILE: src/auth.dfy ===
/** The authentication router: registration, login (with the built-in owner account it
    creates on first use), and the password-reset pair. Password hashing, password
    verification and token encoding belong to `app/auth.py`, which is not part of this
    model; they enter as function parameters. */
module Auth {
  import opened Wrappers
  import opened Text
  import opened Models
  import opened Schemas
  import opened Tables
  import opened Database
  import opened Deps

  const FallbackOwnerEmail := "owner@salon.local"
  const FallbackOwnerPassword := "Owner@12345"
  const ResetRequestMessage := "If your email is registered, you will receive a reset link."

  // ---------------------------------------------------------------------------------
  // register

  /** The outcome of `register`: request validation of the `UserCreate` body first (422
      for a password shorter than 8 characters), then 400 when the email is taken,
      otherwise a new customer row with the hashed password. */
  function RegisterOutcome(users: seq<User>, userIn: UserCreate, hash: string -> string): (r: Result<User>)
    ensures (r.Fail? && r.status == Unprocessable) <==> |userIn.password| < MinPasswordLength
    ensures |userIn.password| >= MinPasswordLength ==>
      ((r.Fail? && r.status == BadRequest) <==> userIn.email in UserEmails(users))
    ensures r.Ok? <==> |userIn.password| >= MinPasswordLength && userIn.email !in UserEmails(users)
    ensures r.Ok? ==>
      r.value.email == userIn.email && r.value.fullName == userIn.fullName &&
      r.value.hashedPassword == hash(userIn.password) && r.value.role == Customer && r.value.isActive &&
      r.value.id !in UserIds(users) && r.value.email !in UserEmails(users) &&
      |userIn.password| >= MinPasswordLength
  {
    var payload :- ValidateUserCreate(userIn);
    if IndexOf(UserEmails(users), payload.email).Some? then Fail(BadRequest, "Email already registered")
    else Ok(NewUser(NextId(UserIds(users)), payload.email, hash(payload.password), payload.fullName, Customer))
  }

  /** A user row whose id and email are new keeps both columns unique. */
  lemma AddUserKeepsUnique(users: seq<User>, u: User)
    requires UsersValid(users) && u.id !in UserIds(users) && u.email !in UserEmails(users)
    ensures UsersValid(users + [u])
  {
    UserColumnsAppend(users, u);
    DistinctAppend(UserIds(users), u.id);
    DistinctAppend(UserEmails(users), u.email);
  }

  method Register(db: Db, userIn: UserCreate, hash: string -> string) returns (r: Result<User>)
    requires db.Valid()
    modifies db
    ensures db.Valid()
    ensures r == RegisterOutcome(old(db.users), userIn, hash)
    ensures r.Ok? ==> db.users == old(db.users) + [r.value]
    ensures r.Fail? ==> db.users == old(db.users)
    ensures db.stylists == old(db.stylists) && db.services == old(db.services)
    ensures db.bookings == old(db.bookings) && db.payments == old(db.payments)
  {
    var _ :- ValidateUserCreate(userIn);
    var existing := IndexOf(UserEmails(db.users), userIn.email);
    if existing.Some? {
      return Fail(BadRequest, "Email already registered");
    }
    var user := NewUser(NextId(UserIds(db.users)), userIn.email, hash(userIn.password), userIn.fullName, Customer);
    AddUserKeepsUnique(db.users, user);
    db.users := db.users + [user];
    r := Ok(user);
  }

  // ---------------------------------------------------------------------------------
  // login

  /** The claims of the access token `login` issues. */
  function LoginClaims(u: User): (c: Claims)
    ensures "sub" in c && ParseInt(c["sub"]) == Some(u.id)
    ensures "role" in c && ParseRole(c["role"]) == Some(u.role)
  {
    ParseIntOfIntToString(u.id);
    RoleValues(u.role);
    map["sub" := IntToString(u.id), "role" := RoleValue(u.role)]
  }

  /** The users table after `login`'s lookup: the built-in owner account is added when its
      email is asked for and is not there yet. */
  function LoginUsers(users: seq<User>, username: string, hash: string -> string): (r: seq<User>)
    ensures username in UserEmails(r)
      <==> username in UserEmails(users) || username == FallbackOwnerEmail
    ensures r == users || (username == FallbackOwnerEmail && username !in UserEmails(users) &&
      r == users + [NewUser(NextId(UserIds(users)), FallbackOwnerEmail, hash(FallbackOwnerPassword),
                            Some("Store Owner"), Owner)])
  {
    if IndexOf(UserEmails(users), username).None? && username == FallbackOwnerEmail then
      var owner := NewUser(NextId(UserIds(users)), FallbackOwnerEmail, hash(FallbackOwnerPassword),
                           Some("Store Owner"), Owner);
      UserColumnsAppend(users, owner);
      users + [owner]
    else users
  }

  /** The outcome of `login` on the table `LoginUsers` leaves: 401 when no user has that
      email or the password does not verify, otherwise a bearer token whose claims are
      `sub = str(user.id)` and `role = user.role`. `is_active` is not consulted. */
  function LoginOutcome(users: seq<User>, username: string, password: string,
                        verify: (string, string) -> bool, encode: Claims -> string): (r: Result<Token>)
    ensures (r.Fail? <==>
      username !in UserEmails(users) ||
      !verify(password, users[IndexOf(UserEmails(users), username).value].hashedPassword))
    ensures r.Fail? ==> r.status == Unauthorized
    ensures r.Ok? ==>
      var u := users[IndexOf(UserEmails(users), username).value];
      u.email == username && verify(password, u.hashedPassword) &&
      r.value == Token(encode(LoginClaims(u)), "bearer")
  {
    match IndexOf(UserEmails(users), username)
    case None => Fail(Unauthorized, "Invalid credentials")
    case Some(i) =>
      if !verify(password, users[i].hashedPassword) then Fail(Unauthorized, "Invalid credentials")
      else Ok(Token(encode(LoginClaims(users[i])), "bearer"))
  }

  /** A token issued by `login` names its user: decoded back to the same claims, it passes
      `get_current_user` for that user whenever the account is active. */
  lemma LoginTokenAuthenticates(users: seq<User>, username: string, password: string,
                                verify: (string, string) -> bool, encode: Claims -> string)
    requires Distinct(UserIds(users))
    requires LoginOutcome(users, username, password, verify, encode).Ok?
    ensures var u := users[IndexOf(UserEmails(users), username).value];
      u.isActive ==> GetCurrentUser(users, Some(LoginClaims(u))) == Ok(u)
  {
    var i := IndexOf(UserEmails(users), username).value;
    TokenIdentifiesUser(users, i, LoginClaims(users[i]));
  }

  /** `login`. The built-in owner account is created and committed before the password
      is checked, so it stays even when that login fails. */
  method Login(db: Db, username: string, password: string, hash: string -> string,
               verify: (string, string) -> bool, encode: Claims -> string) returns (r: Result<Token>)
    requires db.Valid()
    modifies db
    ensures db.Valid()
    ensures db.users == LoginUsers(old(db.users), username, hash)
    ensures r == LoginOutcome(db.users, username, password, verify, encode)
    ensures db.stylists == old(db.stylists) && db.services == old(db.services)
    ensures db.bookings == old(db.bookings) && db.payments == old(db.payments)
  {
    var found := IndexOf(UserEmails(db.users), username);
    if found.None? && username == FallbackOwnerEmail {
      var owner := NewUser(NextId(UserIds(db.users)), username, hash(FallbackOwnerPassword),
                           Some("Store Owner"), Owner);
      AddUserKeepsUnique(db.users, owner);
      db.users := db.users + [owner];
      found := Some(|db.users| - 1);
      assert UserEmails(db.users)[|db.users| - 1] == username;
    }
    if found.None? || !verify(password, db.users[found.value].hashedPassword) {
      return Fail(Unauthorized, "Invalid credentials");
    }
    var user := db.users[found.value];
    r := Ok(Token(encode(LoginClaims(user)), "bearer"));
  }

  // ---------------------------------------------------------------------------------
  // forgot_password / reset_password

  /** `forgot_password`: the reply, and the reset token the e-mail would carry (claims
      `sub` and `type = "reset"`), present exactly when the email is registered. The
      e-mail itself is not modelled. */
  function ForgotPassword(users: seq<User>, email: string, encode: Claims -> string):
    (r: (string, Option<string>))
    ensures r.1.Some? <==> email in UserEmails(users)
    ensures r.1.Some? ==>
      var u := users[IndexOf(UserEmails(users), email).value];
      r.1.value == encode(map["sub" := IntToString(u.id), "type" := "reset"])
  {
    match IndexOf(UserEmails(users), email)
    case None => (ResetRequestMessage, None)
    case Some(i) => (ResetRequestMessage, Some(encode(map["sub" := IntToString(users[i].id), "type" := "reset"])))
  }

  /** The reply does not reveal whether an address is registered. */
  lemma ForgotPasswordSameReply(users: seq<User>, known: string, unknown: string, encode: Claims -> string)
    requires known in UserEmails(users) && unknown !in UserEmails(users)
    ensures ForgotPassword(users, known, encode).0 == ForgotPassword(users, unknown, encode).0
    ensures ForgotPassword(users, known, encode).1.Some? && ForgotPassword(users, unknown, encode).1.None?
  {
  }

  /** The user a reset request names: 400 unless the payload exists and has type "reset";
      404 when `sub` is missing, does not parse as an integer, or names no user. */
  function ResetTarget(users: seq<User>, payload: Option<Claims>): (r: Result<nat>)
    ensures (r.Fail? && r.status == BadRequest) <==>
      (payload.None? || "type" !in payload.value || payload.value["type"] != "reset")
    ensures r.Fail? ==> r.status == BadRequest || r.status == NotFound
    ensures r.Ok? <==>
      payload.Some? && "type" in payload.value && payload.value["type"] == "reset" &&
      "sub" in payload.value && ParseInt(payload.value["sub"]).Some? &&
      ParseInt(payload.value["sub"]).value in UserIds(users)
    ensures r.Ok? ==>
      r.value < |users| && payload.Some? && "sub" in payload.value &&
      ParseInt(payload.value["sub"]) == Some(users[r.value].id)
  {
    if payload.None? || payload.value == map[] || "type" !in payload.value || payload.value["type"] != "reset" then
      Fail(BadRequest, "Invalid or expired token")
    else if "sub" !in payload.value || ParseInt(payload.value["sub"]).None? then
      Fail(NotFound, "User not found")
    else
      match IndexOf(UserIds(users), ParseInt(payload.value["sub"]).value)
      case None => Fail(NotFound, "User not found")
      case Some(i) => Ok(i)
  }

  /** `reset_password`: only the named user's password hash changes. */
  method ResetPassword(db: Db, payload: Option<Claims>, newPassword: string, hash: string -> string)
    returns (r: Result<string>)
    requires db.Valid()
    modifies db
    ensures db.Valid()
    ensures ResetTarget(old(db.users), payload).Fail? ==>
      r == ResetTarget(old(db.users), payload).PropagateFailure() && db.users == old(db.users)
    ensures ResetTarget(old(db.users), payload).Ok? ==>
      var i := ResetTarget(old(db.users), payload).value;
      r == Ok("Password updated successfully.") &&
      db.users == old(db.users)[i := old(db.users)[i].(hashedPassword := hash(newPassword))]
    ensures db.stylists == old(db.stylists) && db.services == old(db.services)
    ensures db.bookings == old(db.bookings) && db.payments == old(db.payments)
  {
    var i :- ResetTarget(db.users, payload);
    UserColumnsUpdate(db.users, i, db.users[i].(hashedPassword := hash(newPassword)));
    db.users := db.users[i := db.users[i].(hashedPassword := hash(newPassword))];
    r := Ok("Password updated successfully.");
  }
}

=== FILE: src/book_page.dfy ===
/** The booking page (`book.js`): the customer picks a service, a stylist and a slot; the
    choices live in three page variables, are mirrored into the hidden form inputs and the
    confirmation lines, and are checked before the availability query and the booking. */
module BookPage {
  import opened Wrappers
  import opened Text
  import opened Models
  import opened Browser

  /** `loadStylists`' normalisation of the `/stylists/` reply: an array is kept; otherwise
      `data.items || data.results || []`. `None` is the TypeError of reading a property of
      null. */
  function NormaliseStylists(data: Value): (r: Option<Value>)
    ensures data.Arr? ==> r == Some(data)
    ensures r.None? <==> data.Null? || data.Undefined?
    ensures !data.Arr? && r.Some? ==>
      r.value == (if Truthy(Field(data, "items")) then Field(data, "items")
                  else if Truthy(Field(data, "results")) then Field(data, "results")
                  else Arr([]))
  {
    if data.Arr? then Some(data)
    else
      match Get(data, "items")
      case None => None
      case Some(items) => Some(Or(Or(items, Field(data, "results")), Arr([])))
  }

  /** The stylists listed once `loadStylists` has run on a reply that parsed. `None`: the
      normalisation threw before the list was cleared, so the cards on show stay. An array
      gives one card per item; any other value clears the list (it shows "No stylists
      found." or stops at `forEach`). */
  function StylistItems(data: Value): (r: Option<seq<Value>>)
    ensures r.None? <==> data.Null? || data.Undefined?
    ensures data.Arr? ==> r == Some(data.items)
    ensures data.Obj? && Field(data, "items").Arr? ==> r == Some(Field(data, "items").items)
    ensures !data.Arr? && r.Some? ==>
      var chosen := if Truthy(Field(data, "items")) then Field(data, "items")
                    else if Truthy(Field(data, "results")) then Field(data, "results")
                    else Arr([]);
      r.value == (if chosen.Arr? then chosen.items else [])
  {
    match NormaliseStylists(data)
    case None => None
    case Some(list) => Some(if list.Arr? then list.items else [])
  }

  /** The card title: `display_name || name || full_name || 'Stylist #' + id`. */
  function StylistLabel(st: Value): (r: string)
    ensures Truthy(Field(st, "display_name")) ==> r == JsString(Field(st, "display_name"))
    ensures !Truthy(Field(st, "display_name")) && Truthy(Field(st, "name")) ==> r == JsString(Field(st, "name"))
    ensures !Truthy(Field(st, "display_name")) && !Truthy(Field(st, "name")) && Truthy(Field(st, "full_name")) ==>
      r == JsString(Field(st, "full_name"))
    ensures !Truthy(Field(st, "display_name")) && !Truthy(Field(st, "name")) && !Truthy(Field(st, "full_name")) ==>
      r == "Stylist #" + JsString(Field(st, "id"))
  {
    JsString(Or(Or(Or(Field(st, "display_name"), Field(st, "name")), Field(st, "full_name")),
                Str("Stylist #" + JsString(Field(st, "id")))))
  }

  /** An item of the `/stylists/` reply: the `StylistOut` schema as JSON. */
  function StylistJson(s: Stylist): Value {
    Obj(map["id" := Num(s.id), "display_name" := Str(s.displayName),
            "bio" := (match s.bio case None => Null case Some(b) => Str(b)),
            "start_hour" := Num(s.startHour), "end_hour" := Num(s.endHour)])
  }

  /** On what the server sends, a card is titled with the display name, or with
      `Stylist #<id>` when that name is empty (the schema has no `name` or `full_name`). */
  lemma LabelOfServerStylist(s: Stylist)
    ensures s.displayName != "" ==> StylistLabel(StylistJson(s)) == s.displayName
    ensures s.displayName == "" ==> StylistLabel(StylistJson(s)) == "Stylist #" + IntToString(s.id)
  {
    var v := StylistJson(s);
    assert Field(v, "display_name") == Str(s.displayName);
    assert Field(v, "name") == Undefined && Field(v, "full_name") == Undefined;
    assert Field(v, "id") == Num(s.id);
  }

  /** What `updateConfirmation` writes for one part of the selection: `x?.id || ''` into
      the hidden input. */
  function HiddenId(selected: Value): (r: string)
    ensures Truthy(Field(selected, "id")) ==> r == JsString(Field(selected, "id"))
    ensures !Truthy(Field(selected, "id")) ==> r == ""
  {
    JsString(Or(Field(selected, "id"), Str("")))
  }

  /** The confirmation line of one part of the selection: its name and `(#<id>)` when a
      part is selected, `-` otherwise. */
  function ConfirmLine(selected: Value, nameField: string): (r: string)
    ensures !Truthy(selected) <==> r == "-"
    ensures Truthy(selected) ==>
      r == JsString(Field(selected, nameField)) + " (#" + JsString(Field(selected, "id")) + ")"
  {
    if Truthy(selected) then
      JsString(Field(selected, nameField)) + " (#" + JsString(Field(selected, "id")) + ")"
    else "-"
  }

  class Book {
    var selectedService: Value
    var selectedStylist: Value
    var selectedStart: Value
    /** The services and stylists on show, and which stylist card is `active`. */
    var services: seq<Value>
    var stylists: seq<Value>
    var stylistCards: seq<bool>
    /** The hidden inputs `bkServiceId`, `bkStylistId`, `bkStart`. */
    var serviceInput: string
    var stylistInput: string
    var startInput: string
    /** The confirmation lines. */
    var confirmService: string
    var confirmStylist: string
    var confirmStart: string
    /** The `token` entry of `localStorage`. */
    var storage: Option<string>

    ghost predicate Valid()
      reads this
    {
      |stylistCards| == |stylists|
    }

    /** Page load: nothing selected and nothing listed. */
    constructor (stored: Option<string>)
      ensures Valid() && storage == stored
      ensures selectedService == Null && selectedStylist == Null && selectedStart == Null
      ensures services == [] && stylists == []
    {
      selectedService, selectedStylist, selectedStart := Null, Null, Null;
      services, stylists, stylistCards := [], [], [];
      serviceInput, stylistInput, startInput := "", "", "";
      confirmService, confirmStylist, confirmStart := "-", "-", "-";
      storage := stored;
    }

    /** `updateConfirmation`: the hidden inputs mirror the selection (`''` for an unset
        part), the confirmation lines name it (`-` for an unset part). */
    method UpdateConfirmation()
      modifies this
      ensures serviceInput == HiddenId(selectedService) && stylistInput == HiddenId(selectedStylist)
      ensures startInput == JsString(Or(selectedStart, Str("")))
      ensures confirmService == ConfirmLine(selectedService, "name")
      ensures confirmStylist == ConfirmLine(selectedStylist, "display_name")
      ensures confirmStart == (if Truthy(selectedStart) then JsString(selectedStart) else "-")
      ensures selectedService == old(selectedService) && selectedStylist == old(selectedStylist)
      ensures selectedStart == old(selectedStart) && storage == old(storage)
      ensures services == old(services) && stylists == old(stylists) && stylistCards == old(stylistCards)
    {
      var service, stylist, start := HiddenId(selectedService), HiddenId(selectedStylist),
                                     JsString(Or(selectedStart, Str("")));
      var serviceLine, stylistLine := ConfirmLine(selectedService, "name"), ConfirmLine(selectedStylist, "display_name");
      var startLine := if Truthy(selectedStart) then JsString(selectedStart) else "-";
      serviceInput, stylistInput, startInput := service, stylist, start;
      confirmService, confirmStylist, confirmStart := serviceLine, stylistLine, startLine;
    }

    /** `loadServices`: one button per service of the reply. */
    method LoadServices(data: seq<Value>)
      modifies this
      ensures services == data
      ensures selectedService == old(selectedService) && selectedStylist == old(selectedStylist)
      ensures selectedStart == old(selectedStart) && stylists == old(stylists) && stylistCards == old(stylistCards)
      ensures storage == old(storage)
    {
      services := data;
    }

    /** `loadStylists`. `reply` is the parsed body, `None` when `res.json()` rejected. Then
        the catch block reads the body again with `res.text()`, which rejects too because
        the body was already consumed, so the function stops before the error line is set
        and the cards on show stay. Otherwise the list is as `StylistItems` says, with no
        card `active`. */
    method LoadStylists(reply: Option<Value>)
      requires Valid()
      modifies this
      ensures Valid()
      ensures reply.Some? && StylistItems(reply.value).Some? ==>
        stylists == StylistItems(reply.value).value && forall k :: 0 <= k < |stylistCards| ==> !stylistCards[k]
      ensures reply.None? || StylistItems(reply.value).None? ==>
        stylists == old(stylists) && stylistCards == old(stylistCards)
      ensures selectedService == old(selectedService) && selectedStylist == old(selectedStylist)
      ensures selectedStart == old(selectedStart) && services == old(services) && storage == old(storage)
    {
      if reply.Some? {
        var items := StylistItems(reply.value);
        if items.Some? {
          stylists := items.value;
          stylistCards := seq(|stylists|, _ => false);
        }
      }
    }

    /** The click handler of the `k`-th service button: it sets the service and nothing
        else, so an earlier stylist and slot stay chosen. */
    method ChooseService(k: nat)
      requires Valid() && k < |services|
      modifies this
      ensures Valid()
      ensures selectedService == old(services)[k]
      ensures selectedStylist == old(selectedStylist) && selectedStart == old(selectedStart)
      ensures serviceInput == HiddenId(old(services)[k]) && stylistInput == HiddenId(selectedStylist)
      ensures services == old(services) && stylists == old(stylists) && stylistCards == old(stylistCards)
      ensures storage == old(storage)
    {
      selectedService := services[k];
      UpdateConfirmation();
    }

    /** The click handler of the `k`-th stylist card: it sets the stylist and leaves that
        card alone `active` among its siblings. */
    method ChooseStylist(k: nat)
      requires Valid() && k < |stylists|
      modifies this
      ensures Valid()
      ensures selectedStylist == old(stylists)[k]
      ensures forall j :: 0 <= j < |stylistCards| ==> (stylistCards[j] <==> j == k)
      ensures selectedService == old(selectedService) && selectedStart == old(selectedStart)
      ensures stylistInput == HiddenId(old(stylists)[k])
      ensures services == old(services) && stylists == old(stylists) && storage == old(storage)
    {
      selectedStylist := stylists[k];
      stylistCards := Highlight(stylistCards, k);
      UpdateConfirmation();
    }

    /** The click handler of a slot button: it sets the start and nothing else. */
    method ChooseSlot(slot: Value)
      requires Valid()
      modifies this
      ensures Valid()
      ensures selectedStart == Field(slot, "start_time")
      ensures selectedService == old(selectedService) && selectedStylist == old(selectedStylist)
      ensures startInput == JsString(Or(Field(slot, "start_time"), Str("")))
      ensures services == old(services) && stylists == old(stylists) && stylistCards == old(stylistCards)
      ensures storage == old(storage)
    {
      selectedStart := Field(slot, "start_time");
      UpdateConfirmation();
    }

    /** `loadSlots`: the service, then the stylist, then the date are checked, each with
        its own alert; only with all three is the availability query sent, and it always
        carries `stylist_id`. */
    function SlotsQuery(date: string): (r: Issue)
      reads this
      ensures r.Issued? <==> Truthy(selectedService) && Truthy(selectedStylist) && date != ""
      ensures !Truthy(selectedService) ==> r == Blocked("Select a service first")
      ensures Truthy(selectedService) && !Truthy(selectedStylist) ==> r == Blocked("Please choose a stylist first")
      ensures Truthy(selectedService) && Truthy(selectedStylist) && date == "" ==> r == Blocked("Please pick a date")
      ensures r.Issued? ==>
        r.request.path == "/bookings/availability" &&
        r.request.query == [("service_id", JsString(Field(selectedService, "id"))), ("date", date),
                            ("stylist_id", JsString(Field(selectedStylist, "id")))]
    {
      if !Truthy(selectedService) then Blocked("Select a service first")
      else if !Truthy(selectedStylist) then Blocked("Please choose a stylist first")
      else if date == "" then Blocked("Please pick a date")
      else Issued(Request("GET", "/bookings/availability",
        [("service_id", JsString(Field(selectedService, "id"))), ("date", date),
         ("stylist_id", JsString(Field(selectedStylist, "id")))], None, Undefined))
    }

    /** `createBooking`: nothing is sent unless service, stylist and start are all chosen;
        the payload is exactly the selection, and the stored token is the bearer. */
    function BookingRequest(): (r: Issue)
      reads this
      ensures r.Issued? <==> Truthy(selectedService) && Truthy(selectedStylist) && Truthy(selectedStart)
      ensures r.Blocked? ==> r.message == "Select service, stylist and timeslot"
      ensures r.Issued? ==>
        r.request.verb == "POST" && r.request.path == "/bookings/" &&
        r.request.authorization == Some(Bearer(Stored(storage))) &&
        Field(r.request.body, "service_id") == Field(selectedService, "id") &&
        Field(r.request.body, "stylist_id") == Field(selectedStylist, "id") &&
        Field(r.request.body, "start_time") == selectedStart
    {
      if !Truthy(selectedService) || !Truthy(selectedStylist) || !Truthy(selectedStart) then
        Blocked("Select service, stylist and timeslot")
      else Issued(Request("POST", "/bookings/", [], Some(Bearer(Stored(storage))),
        Obj(map["service_id" := Field(selectedService, "id"), "stylist_id" := Field(selectedStylist, "id"),
                "start_time" := selectedStart])))
    }
  }
}

=== FILE: src/bookings.dfy ===
/** The booking router: service lookup, the overlap query, the availability grid, and
    the three handlers that change the booking and payment tables. */
module Bookings {
  import opened Wrappers
  import opened Models
  import opened Schemas
  import opened Tables
  import opened Database
  import opened Deps
  import opened CardPayment

  const MinutesPerDay := 1440
  const SlotStep := 60

  /** `get_service`: 404 unless a service with that primary key exists and is active. */
  function GetService(services: seq<Service>, serviceId: int): (r: Result<Service>)
    ensures r.Ok? ==> r.value in services && r.value.id == serviceId && r.value.isActive
    ensures r.Fail? ==> r == Fail(NotFound, "Service not found")
    ensures serviceId !in ServiceIds(services) ==> r.Fail?
  {
    match IndexOf(ServiceIds(services), serviceId)
    case None => Fail(NotFound, "Service not found")
    case Some(i) => if !services[i].isActive then Fail(NotFound, "Service not found") else Ok(services[i])
  }

  /** With unique primary keys, `get_service` finds a present service exactly when it is active. */
  lemma GetServiceOfRow(services: seq<Service>, i: nat)
    requires Distinct(ServiceIds(services)) && i < |services|
    ensures services[i].isActive ==> GetService(services, services[i].id) == Ok(services[i])
    ensures !services[i].isActive ==> GetService(services, services[i].id).Fail?
  {
    IndexOfDistinct(ServiceIds(services), i);
  }

  /** One row of the `is_overlapping` query: the same stylist, not cancelled, the
      half-open intervals [start, end) and [startTime, endTime) intersect, and not the
      excluded booking. `if exclude_booking_id:` skips the exclusion for a null or zero id. */
  predicate Clashes(b: Booking, stylistId: int, start: Minutes, end: Minutes, exclude: Option<int>) {
    b.stylistId == Some(stylistId) && b.status != Cancelled &&
    b.startTime < end && b.endTime > start &&
    !(exclude.Some? && exclude.value != 0 && b.id == exclude.value)
  }

  /** `is_overlapping`: does any booking row clash with [start, end)? */
  function IsOverlapping(bookings: seq<Booking>, stylistId: int, start: Minutes, end: Minutes,
                         exclude: Option<int> := None): (r: bool)
    ensures r <==> exists i :: 0 <= i < |bookings| && Clashes(bookings[i], stylistId, start, end, exclude)
  {
    if bookings == [] then false
    else Clashes(bookings[0], stylistId, start, end, exclude) ||
         IsOverlapping(bookings[1..], stylistId, start, end, exclude)
  }

  /** Back-to-back appointments do not overlap: an interval that ends where another begins,
      or begins where another ends, never clashes with it. */
  lemma BackToBackDoNotClash(b: Booking, stylistId: int, start: Minutes, end: Minutes, exclude: Option<int>)
    requires b.endTime == start || b.startTime == end
    requires start <= end && b.startTime <= b.endTime
    ensures !Clashes(b, stylistId, start, end, exclude)
  {
  }

  /** Two bookings compete for the same stylist and time. */
  predicate DoubleBooked(a: Booking, b: Booking) {
    a.stylistId.Some? && a.stylistId == b.stylistId &&
    a.status != Cancelled && b.status != Cancelled &&
    a.startTime < b.endTime && b.startTime < a.endTime
  }

  /** The scheduling invariant: no two distinct non-cancelled rows of one stylist overlap. */
  ghost predicate NoOverlap(bookings: seq<Booking>) {
    forall i, j :: 0 <= i < |bookings| && 0 <= j < |bookings| && i != j ==> !DoubleBooked(bookings[i], bookings[j])
  }

  // ---------------------------------------------------------------------------------
  // Availability

  predicate ValidHour(h: int) {
    0 <= h < 24
  }

  /** The minute `hour:00` of day number `day`. */
  function At(day: int, hour: int): Minutes {
    day * MinutesPerDay + hour * 60
  }

  /** The stylist's shift on a day, `day_start` and `day_end`: 404 for an unknown stylist;
      an hour outside 0..23 makes the `datetime` constructor raise ValueError (500). */
  function StylistShift(stylists: seq<Stylist>, stylistId: int, day: int): (r: Result<(Minutes, Minutes)>)
    ensures stylistId !in StylistIds(stylists) <==> r == Fail(NotFound, "Stylist not found")
    ensures r.Fail? ==> r.status == NotFound || r.status == ServerError
    ensures IndexOf(StylistIds(stylists), stylistId).Some? ==>
      var s := stylists[IndexOf(StylistIds(stylists), stylistId).value];
      (r.Ok? <==> ValidHour(s.startHour) && ValidHour(s.endHour)) &&
      ((r.Fail? && r.status == ServerError) <==> !ValidHour(s.startHour) || !ValidHour(s.endHour))
    ensures r.Ok? ==>
      exists s :: s in stylists && s.id == stylistId && ValidHour(s.startHour) && ValidHour(s.endHour) &&
                  r.value == (At(day, s.startHour), At(day, s.endHour))
  {
    match IndexOf(StylistIds(stylists), stylistId)
    case None => Fail(NotFound, "Stylist not found")
    case Some(i) =>
      var s := stylists[i];
      if !ValidHour(s.startHour) || !ValidHour(s.endHour) then Fail(ServerError, "hour must be in 0..23")
      else Ok((At(day, s.startHour), At(day, s.endHour)))
  }

  /** A candidate start whose interval is free of clashes for the stylist. */
  predicate SlotFree(bookings: seq<Booking>, stylistId: int, t: Minutes, duration: int) {
    !IsOverlapping(bookings, stylistId, t, t + duration)
  }

  /** The slots the loop of `availability` collects from `current` on: one candidate every
      60 minutes while the candidate ends by `dayEnd`, kept when it is free. */
  function SlotsFrom(bookings: seq<Booking>, stylistId: int, current: Minutes, dayEnd: Minutes,
                     duration: int): seq<TimeSlot>
    decreases dayEnd - duration - current
  {
    if current + duration > dayEnd then []
    else
      (if SlotFree(bookings, stylistId, current, duration)
       then [TimeSlot(current, current + duration, Some(stylistId))] else [])
      + SlotsFrom(bookings, stylistId, current + SlotStep, dayEnd, duration)
  }

  /** The loop of `availability`: walk the grid from `dayStart` in 60-minute steps while
      the candidate ends by `dayEnd`, appending each free candidate. */
  method CollectSlots(bookings: seq<Booking>, stylistId: int, dayStart: Minutes, dayEnd: Minutes,
                      duration: int) returns (slots: seq<TimeSlot>)
    ensures slots == SlotsFrom(bookings, stylistId, dayStart, dayEnd, duration)
  {
    slots := [];
    var current := dayStart;
    while current + duration <= dayEnd
      invariant slots + SlotsFrom(bookings, stylistId, current, dayEnd, duration)
             == SlotsFrom(bookings, stylistId, dayStart, dayEnd, duration)
      decreases dayEnd - duration - current
    {
      var end := current + duration;
      var rest := SlotsFrom(bookings, stylistId, current + SlotStep, dayEnd, duration);
      if !IsOverlapping(bookings, stylistId, current, end) {
        var slot := TimeSlot(current, end, Some(stylistId));
        assert SlotsFrom(bookings, stylistId, current, dayEnd, duration) == [slot] + rest;
        assert slots + ([slot] + rest) == (slots + [slot]) + rest;
        slots := slots + [slot];
      } else {
        assert SlotsFrom(bookings, stylistId, current, dayEnd, duration) == rest;
      }
      current := current + SlotStep;
    }
    assert SlotsFrom(bookings, stylistId, current, dayEnd, duration) == [];
    assert slots + [] == slots;
  }

  /** `availability`: the service (404 when missing or inactive), the stylist's shift,
      then the slots of the shift. */
  method Availability(db: Db, serviceId: int, day: int, stylistId: int) returns (r: Result<seq<TimeSlot>>)
    ensures GetService(db.services, serviceId).Fail? ==> r == Fail(NotFound, "Service not found")
    ensures GetService(db.services, serviceId).Ok? && StylistShift(db.stylists, stylistId, day).Fail? ==>
      r == StylistShift(db.stylists, stylistId, day).PropagateFailure()
    ensures GetService(db.services, serviceId).Ok? && StylistShift(db.stylists, stylistId, day).Ok? ==>
      var shift := StylistShift(db.stylists, stylistId, day).value;
      r == Ok(SlotsFrom(db.bookings, stylistId, shift.0, shift.1,
                        GetService(db.services, serviceId).value.durationMinutes))
  {
    var svc :- GetService(db.services, serviceId);
    var shift :- StylistShift(db.stylists, stylistId, day);
    var slots := CollectSlots(db.bookings, stylistId, shift.0, shift.1, svc.durationMinutes);
    return Ok(slots);
  }

  /** Every returned slot lies on the hourly grid from the shift start, lasts exactly the
      service duration, ends by the end of the shift, names the stylist and is free. */
  lemma {:induction false} SlotsSound(bookings: seq<Booking>, stylistId: int, current: Minutes,
                                      dayEnd: Minutes, duration: int)
    ensures forall k :: 0 <= k < |SlotsFrom(bookings, stylistId, current, dayEnd, duration)| ==>
      var s := SlotsFrom(bookings, stylistId, current, dayEnd, duration)[k];
      s.startTime >= current && (s.startTime - current) % SlotStep == 0 &&
      s.endTime - s.startTime == duration && s.endTime <= dayEnd &&
      s.stylistId == Some(stylistId) && SlotFree(bookings, stylistId, s.startTime, duration)
    decreases dayEnd - duration - current
  {
    if current + duration <= dayEnd {
      SlotsSound(bookings, stylistId, current + SlotStep, dayEnd, duration);
    }
  }

  /** Slots come in strictly increasing order of start. */
  lemma {:induction false} SlotsIncreasing(bookings: seq<Booking>, stylistId: int, current: Minutes,
                                           dayEnd: Minutes, duration: int)
    ensures forall j, k :: 0 <= j < k < |SlotsFrom(bookings, stylistId, current, dayEnd, duration)| ==>
      SlotsFrom(bookings, stylistId, current, dayEnd, duration)[j].startTime
        < SlotsFrom(bookings, stylistId, current, dayEnd, duration)[k].startTime
    decreases dayEnd - duration - current
  {
    if current + duration <= dayEnd {
      SlotsIncreasing(bookings, stylistId, current + SlotStep, dayEnd, duration);
      SlotsSound(bookings, stylistId, current + SlotStep, dayEnd, duration);
    }
  }

  /** No free grid point is skipped: a free candidate of the right length inside the
      shift is among the slots. */
  lemma {:induction false} SlotsComplete(bookings: seq<Booking>, stylistId: int, current: Minutes,
                                         dayEnd: Minutes, duration: int, t: Minutes)
    requires t >= current && (t - current) % SlotStep == 0 && t + duration <= dayEnd
    requires SlotFree(bookings, stylistId, t, duration)
    ensures TimeSlot(t, t + duration, Some(stylistId)) in SlotsFrom(bookings, stylistId, current, dayEnd, duration)
    decreases dayEnd - duration - current
  {
    if t != current {
      SlotsComplete(bookings, stylistId, current + SlotStep, dayEnd, duration, t);
    }
  }

  /** When every grid candidate is taken, the list is empty. */
  lemma {:induction false} SlotsEmptyWhenBooked(bookings: seq<Booking>, stylistId: int, current: Minutes,
                                                dayEnd: Minutes, duration: int)
    requires forall t :: t >= current && (t - current) % SlotStep == 0 && t + duration <= dayEnd ==>
      !SlotFree(bookings, stylistId, t, duration)
    ensures SlotsFrom(bookings, stylistId, current, dayEnd, duration) == []
    decreases dayEnd - duration - current
  {
    if current + duration <= dayEnd {
      assert !SlotFree(bookings, stylistId, current, duration);
      forall t | t >= current + SlotStep && (t - (current + SlotStep)) % SlotStep == 0 && t + duration <= dayEnd
        ensures !SlotFree(bookings, stylistId, t, duration)
      {
        assert (t - current) % SlotStep == 0;
      }
      SlotsEmptyWhenBooked(bookings, stylistId, current + SlotStep, dayEnd, duration);
    }
  }

  /** A service longer than the shift leaves no slot. */
  lemma SlotsEmptyWhenTooLong(bookings: seq<Booking>, stylistId: int, dayStart: Minutes,
                              dayEnd: Minutes, duration: int)
    requires duration > dayEnd - dayStart
    ensures SlotsFrom(bookings, stylistId, dayStart, dayEnd, duration) == []
  {
  }

  /** A returned slot can be booked: `create_booking` over exactly that interval passes
      its overlap check. */
  lemma SlotIsBookable(bookings: seq<Booking>, stylistId: int, dayStart: Minutes, dayEnd: Minutes,
                       duration: int, k: nat)
    requires k < |SlotsFrom(bookings, stylistId, dayStart, dayEnd, duration)|
    ensures var s := SlotsFrom(bookings, stylistId, dayStart, dayEnd, duration)[k];
      !IsOverlapping(bookings, stylistId, s.startTime, s.startTime + duration)
  {
    SlotsSound(bookings, stylistId, dayStart, dayEnd, duration);
  }

  // ---------------------------------------------------------------------------------
  // create_booking

  /** The outcome of `create_booking` on the current tables: the row it adds, or the
      error. The current user is resolved first (`Depends(get_current_user)`). */
  function CreateBookingOutcome(users: seq<User>, services: seq<Service>, bookings: seq<Booking>,
                                claims: Option<Claims>, payload: BookingCreate): (r: Result<Booking>)
    ensures GetCurrentUser(users, claims).Fail? ==> r == GetCurrentUser(users, claims).PropagateFailure()
    ensures GetCurrentUser(users, claims).Ok? && GetService(services, payload.serviceId).Fail? ==>
      r == Fail(NotFound, "Service not found")
    ensures GetCurrentUser(users, claims).Ok? && GetService(services, payload.serviceId).Ok? ==>
      ((r.Fail? && r.status == BadRequest) <==> payload.stylistId.None?)
    ensures (GetCurrentUser(users, claims).Ok? && GetService(services, payload.serviceId).Ok? &&
             payload.stylistId.Some?) ==>
      ((r.Fail? && r.status == Conflict) <==>
       IsOverlapping(bookings, payload.stylistId.value, payload.startTime,
                     payload.startTime + GetService(services, payload.serviceId).value.durationMinutes))
    ensures r.Ok? <==>
      GetCurrentUser(users, claims).Ok? && GetService(services, payload.serviceId).Ok? &&
      payload.stylistId.Some? &&
      !IsOverlapping(bookings, payload.stylistId.value, payload.startTime,
                     payload.startTime + GetService(services, payload.serviceId).value.durationMinutes)
    ensures r.Ok? ==>
      var svc := GetService(services, payload.serviceId).value;
      GetService(services, payload.serviceId).Ok? &&
      r.value.id !in BookingIds(bookings) &&
      r.value.customerId == Some(GetCurrentUser(users, claims).value.id) &&
      r.value.serviceId == svc.id && r.value.stylistId == payload.stylistId && payload.stylistId.Some? &&
      r.value.startTime == payload.startTime && r.value.endTime == payload.startTime + svc.durationMinutes &&
      r.value.status == Confirmed && !r.value.isWalkin &&
      !IsOverlapping(bookings, payload.stylistId.value, r.value.startTime, r.value.endTime)
  {
    var user :- GetCurrentUser(users, claims);
    var svc :- GetService(services, payload.serviceId);
    var end := payload.startTime + svc.durationMinutes;
    if payload.stylistId.None? then Fail(BadRequest, "Stylist selection is required")
    else if IsOverlapping(bookings, payload.stylistId.value, payload.startTime, end) then
      Fail(Conflict, "Stylist is unavailable at this time")
    else
      Ok(NewBooking(NextId(BookingIds(bookings)), svc.id, payload.startTime, end,
                    Some(user.id), payload.stylistId, Confirmed))
  }

  /** A booking admitted by the overlap check keeps the scheduling invariant. */
  lemma AddKeepsNoOverlap(bookings: seq<Booking>, b: Booking)
    requires NoOverlap(bookings)
    requires b.stylistId.Some? && !IsOverlapping(bookings, b.stylistId.value, b.startTime, b.endTime)
    ensures NoOverlap(bookings + [b])
  {
    var bs := bookings + [b];
    forall i, j | 0 <= i < |bs| && 0 <= j < |bs| && i != j
      ensures !DoubleBooked(bs[i], bs[j])
    {
      if j == |bookings| {
        assert !Clashes(bookings[i], b.stylistId.value, b.startTime, b.endTime, None);
      } else if i == |bookings| {
        assert !Clashes(bookings[j], b.stylistId.value, b.startTime, b.endTime, None);
      }
    }
  }

  /** `create_booking` keeps the scheduling invariant. */
  lemma CreateBookingKeepsNoOverlap(users: seq<User>, services: seq<Service>, bookings: seq<Booking>,
                                    claims: Option<Claims>, payload: BookingCreate)
    requires NoOverlap(bookings)
    requires CreateBookingOutcome(users, services, bookings, claims, payload).Ok?
    ensures NoOverlap(bookings + [CreateBookingOutcome(users, services, bookings, claims, payload).value])
  {
    AddKeepsNoOverlap(bookings, CreateBookingOutcome(users, services, bookings, claims, payload).value);
  }

  method CreateBooking(db: Db, claims: Option<Claims>, payload: BookingCreate) returns (r: Result<Booking>)
    requires db.Valid()
    modifies db
    ensures db.Valid()
    ensures r == CreateBookingOutcome(old(db.users), old(db.services), old(db.bookings), claims, payload)
    ensures r.Ok? ==> db.bookings == old(db.bookings) + [r.value]
    ensures r.Fail? ==> db.bookings == old(db.bookings)
    ensures NoOverlap(old(db.bookings)) ==> NoOverlap(db.bookings)
    ensures db.users == old(db.users) && db.stylists == old(db.stylists)
    ensures db.services == old(db.services) && db.payments == old(db.payments)
  {
    var user :- GetCurrentUser(db.users, claims);
    var svc :- GetService(db.services, payload.serviceId);
    var start := payload.startTime;
    var end := start + svc.durationMinutes;
    if payload.stylistId.None? {
      return Fail(BadRequest, "Stylist selection is required");
    }
    var stylistId := payload.stylistId.value;
    if IsOverlapping(db.bookings, stylistId, start, end) {
      return Fail(Conflict, "Stylist is unavailable at this time");
    }
    var booking := NewBooking(NextId(BookingIds(db.bookings)), svc.id, start, end,
                              Some(user.id), Some(stylistId), Confirmed);
    BookingIdsAppend(db.bookings, booking);
    DistinctAppend(BookingIds(db.bookings), booking.id);
    if NoOverlap(db.bookings) {
      AddKeepsNoOverlap(db.bookings, booking);
    }
    db.bookings := db.bookings + [booking];
    r := Ok(booking);
  }

  // ---------------------------------------------------------------------------------
  // cancel_booking

  /** The outcome of `cancel_booking`: 404 for a missing booking, 403 unless the user is
      the owner or the booking's customer; otherwise the row with status cancelled,
      whatever its status was. */
  function CancelOutcome(users: seq<User>, bookings: seq<Booking>, claims: Option<Claims>,
                         bookingId: int): (r: Result<Booking>)
    ensures GetCurrentUser(users, claims).Fail? ==> r == GetCurrentUser(users, claims).PropagateFailure()
    ensures GetCurrentUser(users, claims).Ok? ==>
      ((r.Fail? && r.status == NotFound) <==> bookingId !in BookingIds(bookings))
    ensures GetCurrentUser(users, claims).Ok? && bookingId in BookingIds(bookings) ==>
      var user := GetCurrentUser(users, claims).value;
      var b := bookings[IndexOf(BookingIds(bookings), bookingId).value];
      ((r.Fail? && r.status == Forbidden) <==> user.role != Owner && b.customerId != Some(user.id)) &&
      (r.Ok? <==> user.role == Owner || b.customerId == Some(user.id))
    ensures r.Ok? ==>
      IndexOf(BookingIds(bookings), bookingId).Some? &&
      r.value == bookings[IndexOf(BookingIds(bookings), bookingId).value].(status := Cancelled)
  {
    var user :- GetCurrentUser(users, claims);
    match IndexOf(BookingIds(bookings), bookingId)
    case None => Fail(NotFound, "Booking not found")
    case Some(i) =>
      if user.role != Owner && bookings[i].customerId != Some(user.id) then
        Fail(Forbidden, "Not authorized to cancel this booking")
      else Ok(bookings[i].(status := Cancelled))
  }

  /** Cancelling again gives the same row and leaves the table as the first call left it. */
  lemma CancelIdempotent(users: seq<User>, bookings: seq<Booking>, claims: Option<Claims>, bookingId: int)
    requires CancelOutcome(users, bookings, claims, bookingId).Ok?
    ensures var i := IndexOf(BookingIds(bookings), bookingId).value;
      var once := bookings[i := CancelOutcome(users, bookings, claims, bookingId).value];
      CancelOutcome(users, once, claims, bookingId) == CancelOutcome(users, bookings, claims, bookingId) &&
      once[i := CancelOutcome(users, once, claims, bookingId).value] == once
  {
    var i := IndexOf(BookingIds(bookings), bookingId).value;
    var once := bookings[i := CancelOutcome(users, bookings, claims, bookingId).value];
    BookingIdsUpdate(bookings, i, once[i]);
  }

  /** Cancelling only frees time: the scheduling invariant is kept. */
  lemma CancelKeepsNoOverlap(bookings: seq<Booking>, i: nat)
    requires NoOverlap(bookings) && i < |bookings|
    ensures NoOverlap(bookings[i := bookings[i].(status := Cancelled)])
  {
  }

  method CancelBooking(db: Db, claims: Option<Claims>, bookingId: int) returns (r: Result<Booking>)
    requires db.Valid()
    modifies db
    ensures db.Valid()
    ensures r == CancelOutcome(old(db.users), old(db.bookings), claims, bookingId)
    ensures r.Ok? ==>
      db.bookings == old(db.bookings)[IndexOf(BookingIds(old(db.bookings)), bookingId).value := r.value]
    ensures r.Fail? ==> db.bookings == old(db.bookings)
    ensures NoOverlap(old(db.bookings)) ==> NoOverlap(db.bookings)
    ensures db.users == old(db.users) && db.stylists == old(db.stylists)
    ensures db.services == old(db.services) && db.payments == old(db.payments)
  {
    var user :- GetCurrentUser(db.users, claims);
    var found := IndexOf(BookingIds(db.bookings), bookingId);
    if found.None? {
      return Fail(NotFound, "Booking not found");
    }
    var i := found.value;
    if user.role != Owner && db.bookings[i].customerId != Some(user.id) {
      return Fail(Forbidden, "Not authorized to cancel this booking");
    }
    var booking := db.bookings[i].(status := Cancelled);
    BookingIdsUpdate(db.bookings, i, booking);
    if NoOverlap(db.bookings) {
      CancelKeepsNoOverlap(db.bookings, i);
    }
    db.bookings := db.bookings[i := booking];
    r := Ok(booking);
  }

  // ---------------------------------------------------------------------------------
  // pay_booking

  /** The payments table after `payment` is stored: the row for its booking is replaced
      when one exists, otherwise the row is added. */
  function StorePayment(payments: seq<Payment>, payment: Payment): (r: seq<Payment>)
    ensures payment in r
    ensures IndexOf(PaymentBookingIds(payments), payment.bookingId).None? ==> r == payments + [payment]
    ensures IndexOf(PaymentBookingIds(payments), payment.bookingId).Some? ==>
      var j := IndexOf(PaymentBookingIds(payments), payment.bookingId).value;
      |r| == |payments| && r[j] == payment &&
      forall k :: 0 <= k < |payments| && k != j ==> r[k] == payments[k]
  {
    match IndexOf(PaymentBookingIds(payments), payment.bookingId)
    case None => payments + [payment]
    case Some(j) =>
      assert payments[j := payment][j] == payment;
      payments[j := payment]
  }

  /** The payment row of a booking: the existing one, or a new row for `amount`. */
  function PaymentRow(payments: seq<Payment>, bookingId: int, amount: Money): Payment {
    match IndexOf(PaymentBookingIds(payments), bookingId)
    case Some(j) => payments[j]
    case None => NewPayment(NextId(PaymentIds(payments)), bookingId, amount)
  }

  /** The outcome of `pay_booking`, checked in the handler's order: the current user, 404
      for a missing booking, 403 when the booking has a customer other than the user, 400
      for a cancelled booking, 400 when the card fails Luhn or expiry. A service row that
      no longer exists makes `.price` fail (500). The stored payment is the booking's
      existing row, or a new row carrying the service price, marked success with masked
      card details. `nowYear`/`nowMonth` stand for `datetime.utcnow()`. */
  function PayOutcome(users: seq<User>, services: seq<Service>, bookings: seq<Booking>,
                      payments: seq<Payment>, claims: Option<Claims>, bookingId: int,
                      payload: PaymentRequest, nowYear: int, nowMonth: int): (r: Result<Payment>)
    requires 1 <= nowMonth <= 12
    ensures GetCurrentUser(users, claims).Fail? ==> r == GetCurrentUser(users, claims).PropagateFailure()
    ensures GetCurrentUser(users, claims).Ok? ==>
      ((r.Fail? && r.status == NotFound) <==> bookingId !in BookingIds(bookings))
    ensures GetCurrentUser(users, claims).Ok? && bookingId in BookingIds(bookings) ==>
      var user := GetCurrentUser(users, claims).value;
      var b := bookings[IndexOf(BookingIds(bookings), bookingId).value];
      var owned := b.customerId.Some? && b.customerId.value != 0 && b.customerId.value != user.id;
      ((r.Fail? && r.status == Forbidden) <==> owned) &&
      ((r.Fail? && r.status == BadRequest) <==>
        !owned && (b.status == Cancelled || !LuhnValid(payload.cardNumber) ||
                   !ValidateExpiry(payload.expiryMonth, payload.expiryYear, nowYear, nowMonth)))
    ensures GetCurrentUser(users, claims).Ok? && bookingId in BookingIds(bookings) ==>
      var user := GetCurrentUser(users, claims).value;
      var b := bookings[IndexOf(BookingIds(bookings), bookingId).value];
      var accepted := !(b.customerId.Some? && b.customerId.value != 0 && b.customerId.value != user.id) &&
                      b.status != Cancelled && LuhnValid(payload.cardNumber) &&
                      ValidateExpiry(payload.expiryMonth, payload.expiryYear, nowYear, nowMonth);
      ((r.Fail? && r.status == ServerError) <==> accepted && b.serviceId !in ServiceIds(services)) &&
      (r.Ok? <==> accepted && b.serviceId in ServiceIds(services))
    ensures r.Ok? ==>
      LuhnValid(payload.cardNumber) &&
      ValidateExpiry(payload.expiryMonth, payload.expiryYear, nowYear, nowMonth) &&
      IndexOf(BookingIds(bookings), bookingId).Some? &&
      r.value.bookingId == bookingId && r.value.status == Success &&
      r.value.provider == Some("mock") && r.value.maskedDetails == Some(MaskCard(payload.cardNumber))
    ensures r.Ok? ==>
      match IndexOf(PaymentBookingIds(payments), bookingId)
      case Some(j) => r.value == payments[j].(status := Success, provider := Some("mock"),
                                               maskedDetails := Some(MaskCard(payload.cardNumber)))
      case None =>
        r.value.id !in PaymentIds(payments) &&
        exists s :: s in services &&
          s.id == bookings[IndexOf(BookingIds(bookings), bookingId).value].serviceId &&
          r.value.amount == s.price
  {
    var user :- GetCurrentUser(users, claims);
    match IndexOf(BookingIds(bookings), bookingId)
    case None => Fail(NotFound, "Booking not found")
    case Some(i) =>
      var b := bookings[i];
      if b.customerId.Some? && b.customerId.value != 0 && b.customerId.value != user.id then
        Fail(Forbidden, "Not yours")
      else if b.status == Cancelled then Fail(BadRequest, "Booking cancelled")
      else if !LuhnValid(payload.cardNumber) ||
              !ValidateExpiry(payload.expiryMonth, payload.expiryYear, nowYear, nowMonth) then
        Fail(BadRequest, "Invalid payment details")
      else
        match IndexOf(ServiceIds(services), b.serviceId)
        case None => Fail(ServerError, "'NoneType' object has no attribute 'price'")
        case Some(k) =>
          Ok(PaymentRow(payments, b.id, services[k].price).(status := Success,
               maskedDetails := Some(MaskCard(payload.cardNumber)), provider := Some("mock")))
  }

  /** After a successful payment, with at most one payment per booking beforehand, the
      table still has at most one payment per booking, and exactly one for this booking. */
  lemma PayKeepsOnePaymentPerBooking(users: seq<User>, services: seq<Service>, bookings: seq<Booking>,
                                     payments: seq<Payment>, claims: Option<Claims>, bookingId: int,
                                     payload: PaymentRequest, nowYear: int, nowMonth: int)
    requires 1 <= nowMonth <= 12
    requires PaymentsValid(payments)
    requires PayOutcome(users, services, bookings, payments, claims, bookingId, payload, nowYear, nowMonth).Ok?
    ensures var p := PayOutcome(users, services, bookings, payments, claims, bookingId, payload, nowYear, nowMonth).value;
      var after := StorePayment(payments, p);
      PaymentsValid(after) &&
      (exists j :: 0 <= j < |after| && after[j] == p) &&
      (forall j, k ::
         (0 <= j < |after| && 0 <= k < |after| &&
          after[j].bookingId == bookingId && after[k].bookingId == bookingId) ==> j == k)
  {
    var p := PayOutcome(users, services, bookings, payments, claims, bookingId, payload, nowYear, nowMonth).value;
    var after := StorePayment(payments, p);
    match IndexOf(PaymentBookingIds(payments), bookingId)
    case Some(j) =>
      PaymentIdsUpdate(payments, j, p);
    case None =>
      PaymentIdsAppend(payments, p);
      DistinctAppend(PaymentIds(payments), p.id);
      DistinctAppend(PaymentBookingIds(payments), p.bookingId);
      assert after[|payments|] == p;
  }

  /** The write at the end of `pay_booking`: the booking's payment row, added and flushed
      first when there is none, is marked successful with the masked card. */
  method SavePayment(db: Db, bookingId: int, amount: Money, masked: string) returns (payment: Payment)
    requires db.Valid()
    modifies db
    ensures db.Valid()
    ensures payment == PaymentRow(old(db.payments), bookingId, amount).(status := Success,
              maskedDetails := Some(masked), provider := Some("mock"))
    ensures db.payments == StorePayment(old(db.payments), payment)
    ensures db.users == old(db.users) && db.stylists == old(db.stylists)
    ensures db.services == old(db.services) && db.bookings == old(db.bookings)
  {
    var existing := IndexOf(PaymentBookingIds(db.payments), bookingId);
    var j: nat;
    if existing.None? {
      var added := NewPayment(NextId(PaymentIds(db.payments)), bookingId, amount);
      PaymentIdsAppend(db.payments, added);
      DistinctAppend(PaymentIds(db.payments), added.id);
      DistinctAppend(PaymentBookingIds(db.payments), added.bookingId);
      db.payments := db.payments + [added];
      j := |db.payments| - 1;
    } else {
      j := existing.value;
    }
    payment := db.payments[j].(status := Success, maskedDetails := Some(masked), provider := Some("mock"));
    PaymentIdsUpdate(db.payments, j, payment);
    db.payments := db.payments[j := payment];
  }

  method PayBooking(db: Db, claims: Option<Claims>, bookingId: int, payload: PaymentRequest,
                    nowYear: int, nowMonth: int) returns (r: Result<Payment>)
    requires 1 <= nowMonth <= 12
    requires db.Valid()
    modifies db
    ensures db.Valid()
    ensures r == PayOutcome(old(db.users), old(db.services), old(db.bookings), old(db.payments),
                            claims, bookingId, payload, nowYear, nowMonth)
    ensures r.Ok? ==> db.payments == StorePayment(old(db.payments), r.value)
    ensures r.Fail? ==> db.payments == old(db.payments)
    ensures db.bookings == old(db.bookings)
    ensures db.users == old(db.users) && db.stylists == old(db.stylists) && db.services == old(db.services)
  {
    var user :- GetCurrentUser(db.users, claims);
    var found := IndexOf(BookingIds(db.bookings), bookingId);
    if found.None? {
      return Fail(NotFound, "Booking not found");
    }
    var booking := db.bookings[found.value];
    if booking.customerId.Some? && booking.customerId.value != 0 && booking.customerId.value != user.id {
      return Fail(Forbidden, "Not yours");
    }
    if booking.status == Cancelled {
      return Fail(BadRequest, "Booking cancelled");
    }
    var cardOk := LuhnChecksum(payload.cardNumber);
    if !cardOk || !ValidateExpiry(payload.expiryMonth, payload.expiryYear, nowYear, nowMonth) {
      return Fail(BadRequest, "Invalid payment details");
    }
    var svc := IndexOf(ServiceIds(db.services), booking.serviceId);
    if svc.None? {
      return Fail(ServerError, "'NoneType' object has no attribute 'price'");
    }
    var payment := SavePayment(db, booking.id, db.services[svc.value].price, MaskCard(payload.cardNumber));
    r := Ok(payment);
  }
}

=== FILE: src/browser.dfy ===
/** What the browser pages have in common: JavaScript values as `JSON.parse` delivers them,
    with the language's truthiness, property reads, `String(...)` and `parseInt`; the
    `localStorage` cell holding the token; the requests a page hands to `fetch`; and the
    string operations the role gates and the stylist cards apply (`split`, `replace`). */
module Browser {
  import opened Wrappers
  import opened Text

  /** A JavaScript value as JSON delivers it, plus `undefined`. Numbers are integers here:
      the pages only pass ids and hours along and do no arithmetic on them. */
  datatype Value =
    | Undefined
    | Null
    | Bool(b: bool)
    | Num(n: int)
    | Str(s: string)
    | Arr(items: seq<Value>)
    | Obj(fields: map<string, Value>)

  /** JavaScript truthiness: `undefined`, `null`, `false`, `0` and `""` are falsy, every
      array and object is truthy. */
  predicate Truthy(v: Value) {
    match v
    case Undefined => false
    case Null => false
    case Bool(b) => b
    case Num(n) => n != 0
    case Str(s) => s != ""
    case _ => true
  }

  /** `a || b`. */
  function Or(a: Value, b: Value): Value {
    if Truthy(a) then a else b
  }

  /** `v.key`. `None` is the TypeError thrown when `v` is null or undefined. The pages read
      only data keys, which primitives and arrays do not have, so those read as undefined. */
  function Get(v: Value, key: string): (r: Option<Value>)
    ensures r.None? <==> v.Null? || v.Undefined?
    ensures v.Obj? ==> r == Some(if key in v.fields then v.fields[key] else Undefined)
  {
    match v
    case Undefined => None
    case Null => None
    case Obj(fields) => Some(if key in fields then fields[key] else Undefined)
    case _ => Some(Undefined)
  }

  /** `v?.key`: optional chaining reads undefined where `v.key` would throw. */
  function Field(v: Value, key: string): Value {
    match Get(v, key)
    case None => Undefined
    case Some(x) => x
  }

  /** `String(v)`, the conversion a template literal, `+` with a string, an input's
      `value` and `localStorage.setItem` apply. An array joins its items with commas,
      writing null and undefined items as empty strings. */
  function JsString(v: Value): string
    decreases v
  {
    match v
    case Undefined => "undefined"
    case Null => "null"
    case Bool(b) => if b then "true" else "false"
    case Num(n) => IntToString(n)
    case Str(s) => s
    case Arr(items) =>
      Join(seq(|items|, k requires 0 <= k < |items| =>
        if items[k].Null? || items[k].Undefined? then "" else JsString(items[k])), ',')
    case Obj(_) => "[object Object]"
  }

  // -------------------------------------------------------------------------------------
  // Storage and requests

  /** `localStorage.getItem('token')` as a value: null when nothing is stored. */
  function Stored(cell: Option<string>): (v: Value)
    ensures v.Null? <==> cell.None?
    ensures cell.Some? ==> v == Str(cell.value)
  {
    match cell
    case None => Null
    case Some(s) => Str(s)
  }

  /** The `Authorization` header the pages build as `'Bearer ' + token`. */
  function Bearer(token: Value): string {
    "Bearer " + JsString(token)
  }

  /** A request a page hands to `fetch`: method, path, query parameters in order, the
      `Authorization` header if one is sent, and the JSON body (undefined for none). */
  datatype Request = Request(verb: string, path: string, query: seq<(string, string)>,
                             authorization: Option<string>, body: Value)

  /** What a handler did before the network: nothing, because the user declined a
      `confirm` dialog; nothing, with a message shown (an alert, a toast or a line in the
      page); or a request issued. */
  datatype Issue = Declined | Blocked(message: string) | Issued(request: Request)

  /** `v.length` as the pages read it; null and undefined, which would throw, are never
      asked. */
  function Length(v: Value): Value {
    match v
    case Arr(items) => Num(|items|)
    case Str(s) => Num(|s|)
    case Obj(_) => Field(v, "length")
    case _ => Undefined
  }

  // -------------------------------------------------------------------------------------
  // Role gates

  /** What a page's role gate finds: no stored token; a token whose payload cannot be read
      (no second part, the decoding threw, or the payload is null); a readable payload with
      another role; or the role the page wants. */
  datatype Gate = NoToken | Unreadable | WrongRole | Admitted

  /** The last step of a gate: `payload.role !== role` on the decoded payload (`None`: the
      decoding threw). */
  function RoleGate(payload: Option<Value>, role: string): (g: Gate)
    ensures g != NoToken
    ensures g == Admitted <==> payload.Some? && Get(payload.value, "role") == Some(Str(role))
    ensures g == Unreadable <==> payload.None? || payload.value.Null? || payload.value.Undefined?
  {
    if payload.None? then Unreadable
    else
      match Get(payload.value, "role")
      case None => Unreadable
      case Some(r) => if r != Str(role) then WrongRole else Admitted
  }

  /** Where a gate sends the browser: to `/auth` without a usable token, to `/` (after the
      denial alert) for another role, nowhere for the right one. */
  function GateDestination(g: Gate): Option<string> {
    match g
    case NoToken => Some("/auth")
    case Unreadable => Some("/auth")
    case WrongRole => Some("/")
    case Admitted => None
  }

  // -------------------------------------------------------------------------------------
  // parseInt

  /** The white space `parseInt` skips first; only the ASCII characters are modelled. */
  predicate IsSpace(c: char) {
    c == ' ' || c == '\t' || c == '\n' || c == '\r' || c == '\U{000B}' || c == '\U{000C}'
  }

  function TrimStart(s: string): (r: string)
    ensures |r| <= |s| && r == s[|s| - |r|..]
    ensures r == [] || !IsSpace(r[0])
  {
    if s != [] && IsSpace(s[0]) then TrimStart(s[1..]) else s
  }

  /** The longest prefix of decimal digits. */
  function LeadingDigits(s: string): (r: string)
    ensures AllDigits(r) && r <= s
    ensures |r| < |s| ==> !IsDigit(s[|r|])
  {
    if s != [] && IsDigit(s[0]) then [s[0]] + LeadingDigits(s[1..]) else []
  }

  /** `parseInt(s)` as `JSON.stringify` writes it: white space, then an optional sign,
      then the longest run of digits; `NaN` (no digit there) is written as null. */
  function ParseIntValue(s: string): (r: Value)
    ensures r.Null? || r.Num?
  {
    var t := TrimStart(s);
    var negative := t != [] && t[0] == '-';
    var body := if t != [] && (t[0] == '-' || t[0] == '+') then t[1..] else t;
    var digits := LeadingDigits(body);
    if digits == [] then Null
    else Num(if negative then -(DecimalValue(digits) as int) else DecimalValue(digits))
  }

  lemma {:induction false} LeadingDigitsOfDigits(d: string, rest: string)
    requires AllDigits(d)
    requires rest == [] || !IsDigit(rest[0])
    ensures LeadingDigits(d + rest) == d
  {
    if d != [] {
      assert (d + rest)[1..] == d[1..] + rest;
      LeadingDigitsOfDigits(d[1..], rest);
    }
  }

  lemma ParseIntValueOfDigits(d: string, rest: string)
    requires AllDigits(d) && d != []
    requires rest == [] || !IsDigit(rest[0])
    ensures ParseIntValue(d + rest) == Num(DecimalValue(d))
  {
    LeadingDigitsOfDigits(d, rest);
    var s := d + rest;
    assert s[0] == d[0];
    assert !IsSpace(s[0]) && s[0] != '-' && s[0] != '+';
  }

  lemma ParseIntValueOfNegative(d: string, rest: string)
    requires AllDigits(d) && d != []
    requires rest == [] || !IsDigit(rest[0])
    ensures ParseIntValue("-" + (d + rest)) == Num(-(DecimalValue(d) as int))
  {
    LeadingDigitsOfDigits(d, rest);
    var m := "-" + (d + rest);
    assert m[0] == '-' && !IsSpace(m[0]);
    assert TrimStart(m) == m;
    assert m[1..] == d + rest;
  }

  /** A number written by `String(i)` and followed by anything that is not a digit reads
      back as `i`: the ids the pages write into form fields survive `parseInt`. */
  lemma ParseIntValueOfIntToString(i: int, rest: string)
    requires rest == [] || !IsDigit(rest[0])
    ensures ParseIntValue(IntToString(i) + rest) == Num(i)
  {
    if i < 0 {
      ParseIntValueOfNegativeNat(-i, rest);
    } else {
      ParseIntValueOfNat(i, rest);
    }
  }

  lemma ParseIntValueOfNat(n: nat, rest: string)
    requires rest == [] || !IsDigit(rest[0])
    ensures ParseIntValue(NatToString(n) + rest) == Num(n)
  {
    ParseIntValueOfDigits(NatToString(n), rest);
    DecimalValueOfNatToString(n);
  }

  lemma ParseIntValueOfNegativeNat(n: nat, rest: string)
    requires n > 0
    requires rest == [] || !IsDigit(rest[0])
    ensures ParseIntValue("-" + NatToString(n) + rest) == Num(-(n as int))
  {
    assert "-" + NatToString(n) + rest == "-" + (NatToString(n) + rest);
    ParseIntValueOfNegative(NatToString(n), rest);
    DecimalValueOfNatToString(n);
  }

  // -------------------------------------------------------------------------------------
  // split and join

  /** `s.split(sep)` for a one-character separator: the pieces between separators, one
      more than there are separators. */
  function Split(s: string, sep: char): (r: seq<string>)
    ensures |r| >= 1
    ensures forall k :: 0 <= k < |r| ==> sep !in r[k]
  {
    if s == [] then [""]
    else
      var rest := Split(s[1..], sep);
      if s[0] == sep then [""] + rest
      else [[s[0]] + rest[0]] + rest[1..]
  }

  /** `parts.join(sep)`. */
  function Join(parts: seq<string>, sep: char): string {
    if parts == [] then ""
    else if |parts| == 1 then parts[0]
    else parts[0] + [sep] + Join(parts[1..], sep)
  }

  /** Joining the pieces restores the string. */
  lemma {:induction false} JoinSplit(s: string, sep: char)
    ensures Join(Split(s, sep), sep) == s
  {
    if s != [] {
      var rest := Split(s[1..], sep);
      JoinSplit(s[1..], sep);
      if s[0] != sep && |rest| > 1 {
        assert ([[s[0]] + rest[0]] + rest[1..])[1..] == rest[1..];
      }
    }
  }

  lemma {:induction false} SplitPrefix(a: string, t: string, sep: char)
    requires sep !in a
    ensures Split(a + t, sep) == [a + Split(t, sep)[0]] + Split(t, sep)[1..]
  {
    if a != [] {
      assert (a + t)[1..] == a[1..] + t;
      SplitPrefix(a[1..], t, sep);
      assert [a[0]] + (a[1..] + Split(t, sep)[0]) == a + Split(t, sep)[0];
    } else {
      var parts := Split(t, sep);
      assert a + t == t;
      assert a + parts[0] == parts[0];
      assert parts == [parts[0]] + parts[1..];
    }
  }

  /** Splitting undoes joining pieces that contain no separator. */
  lemma {:induction false} SplitJoin(parts: seq<string>, sep: char)
    requires |parts| >= 1
    requires forall k :: 0 <= k < |parts| ==> sep !in parts[k]
    ensures Split(Join(parts, sep), sep) == parts
  {
    if |parts| == 1 {
      SplitPrefix(parts[0], [], sep);
      assert parts[0] + [] == parts[0];
    } else {
      var tail := Join(parts[1..], sep);
      SplitJoin(parts[1..], sep);
      assert parts[0] + [sep] + tail == parts[0] + ([sep] + tail);
      SplitPrefix(parts[0], [sep] + tail, sep);
      assert ([sep] + tail)[1..] == tail;
      assert parts[0] + "" == parts[0];
      assert parts == [parts[0]] + parts[1..];
    }
  }

  /** `s.split(sep)[i]`; `None` is undefined, for an index past the last piece. */
  function Piece(s: string, sep: char, i: nat): (r: Option<string>)
    ensures r.Some? <==> i < |Split(s, sep)|
  {
    var parts := Split(s, sep);
    if i < |parts| then Some(parts[i]) else None
  }

  /** A JSON Web Token in compact form (section 7.1 of RFC 7519, three dot-separated
      parts): `split('.')[1]` is exactly its payload part. */
  lemma PayloadPiece(header: string, payload: string, signature: string)
    requires '.' !in header && '.' !in payload && '.' !in signature
    ensures Piece(header + "." + payload + "." + signature, '.', 1) == Some(payload)
  {
    var parts := [header, payload, signature];
    assert Join(parts[2..], '.') == signature;
    assert Join(parts, '.') == header + "." + payload + "." + signature;
    SplitJoin(parts, '.');
  }

  /** A string without a dot has no second piece. */
  lemma NoDotNoPiece(s: string)
    requires '.' !in s
    ensures Piece(s, '.', 1).None?
  {
    SplitJoin([s], '.');
  }

  // -------------------------------------------------------------------------------------
  // replace

  /** `s.replace(/c/g, repl)`: every `c` replaced by `repl`. */
  function ReplaceChar(s: string, c: char, repl: string): (r: string)
    ensures c !in repl ==> c !in r
    ensures forall x :: x !in s && x !in repl ==> x !in r
  {
    if s == [] then []
    else (if s[0] == c then repl else [s[0]]) + ReplaceChar(s[1..], c, repl)
  }

  lemma {:induction false} ReplaceCharAppend(a: string, b: string, c: char, repl: string)
    ensures ReplaceChar(a + b, c, repl) == ReplaceChar(a, c, repl) + ReplaceChar(b, c, repl)
  {
    if a == [] {
      assert a + b == b;
    } else {
      assert (a + b)[1..] == a[1..] + b;
      ReplaceCharAppend(a[1..], b, c, repl);
    }
  }

  /** Replacing one character by another changes nothing but that character. */
  lemma {:induction false} ReplaceCharPointwise(s: string, c: char, d: char)
    ensures |ReplaceChar(s, c, [d])| == |s|
    ensures forall k :: 0 <= k < |s| ==> ReplaceChar(s, c, [d])[k] == (if s[k] == c then d else s[k])
  {
    if s != [] {
      ReplaceCharPointwise(s[1..], c, d);
    }
  }

  /** The gate's translation of a base64url payload (section 5 of RFC 4648) to the
      standard alphabet `atob` reads (section 4): `-` becomes `+` and `_` becomes `/`. */
  function Base64UrlToBase64(s: string): (r: string)
    ensures |r| == |s|
    ensures '-' !in r && '_' !in r
    ensures forall k :: 0 <= k < |s| && s[k] != '-' && s[k] != '_' ==> r[k] == s[k]
  {
    var plus := ReplaceChar(s, '-', "+");
    ReplaceCharPointwise(s, '-', '+');
    ReplaceCharPointwise(plus, '_', '/');
    ReplaceChar(plus, '_', "/")
  }

  /** The opposite translation, standard alphabet to base64url. */
  function Base64ToBase64Url(s: string): (r: string)
    ensures |r| == |s|
    ensures '+' !in r && '/' !in r
  {
    var minus := ReplaceChar(s, '+', "-");
    ReplaceCharPointwise(s, '+', '-');
    ReplaceCharPointwise(minus, '/', '_');
    ReplaceChar(minus, '/', "_")
  }

  /** The translation loses nothing: a base64url text (which has no `+` or `/`) is restored
      by translating back. */
  lemma Base64UrlRoundTrip(s: string)
    requires '+' !in s && '/' !in s
    ensures Base64ToBase64Url(Base64UrlToBase64(s)) == s
  {
    var std := Base64UrlToBase64(s);
    var plus := ReplaceChar(s, '-', "+");
    ReplaceCharPointwise(s, '-', '+');
    ReplaceCharPointwise(plus, '_', '/');
    var back := Base64ToBase64Url(std);
    var minus := ReplaceChar(std, '+', "-");
    ReplaceCharPointwise(std, '+', '-');
    ReplaceCharPointwise(minus, '/', '_');
    assert |back| == |s|;
    forall k | 0 <= k < |s|
      ensures back[k] == s[k]
    {
    }
  }

  // -------------------------------------------------------------------------------------
  // Highlighting one element among its siblings

  /** A click handler's `forEach(c => c.classList.remove(cls))` over the siblings followed
      by `clicked.classList.add(cls)`: afterwards the clicked one alone carries the class. */
  method Highlight(flags: seq<bool>, k: nat) returns (r: seq<bool>)
    requires k < |flags|
    ensures |r| == |flags|
    ensures forall j :: 0 <= j < |r| ==> (r[j] <==> j == k)
  {
    r := flags;
    for j := 0 to |r|
      invariant |r| == |flags|
      invariant forall i :: 0 <= i < j ==> !r[i]
    {
      r := r[j := false];
    }
    r := r[k := true];
  }

  // -------------------------------------------------------------------------------------
  // Markup built by `html +=`

  /** The markup a loop of `html += part` appends, in order. */
  function Concat(parts: seq<string>): string {
    if parts == [] then "" else Concat(parts[..|parts| - 1]) + parts[|parts| - 1]
  }

  /** Each step of such a loop adds its part after the earlier ones. */
  lemma ConcatSnoc(parts: seq<string>, k: nat)
    requires k < |parts|
    ensures Concat(parts[..k + 1]) == Concat(parts[..k]) + parts[k]
  {
    assert parts[..k + 1][..k] == parts[..k];
  }

  /** The loop itself: `html` starts as `head` and each part is appended in turn. */
  method AppendAll(head: string, parts: seq<string>) returns (html: string)
    ensures html == head + Concat(parts)
  {
    html := head;
    for k := 0 to |parts|
      invariant html == head + Concat(parts[..k])
    {
      ConcatSnoc(parts, k);
      html := html + parts[k];
    }
    assert parts[..|parts|] == parts;
  }

  /** The markup of two runs of parts is the markup of the first then of the second. */
  lemma {:induction false} ConcatAppend(a: seq<string>, b: seq<string>)
    ensures Concat(a + b) == Concat(a) + Concat(b)
    decreases |b|
  {
    if b == [] {
      assert a + b == a;
    } else {
      var b' := b[..|b| - 1];
      ConcatAppend(a, b');
      assert (a + b)[..|a + b| - 1] == a + b';
      assert (a + b)[|a + b| - 1] == b[|b| - 1];
    }
  }

  /** Within the markup, part `k` stands after the parts before it and before those after. */
  lemma ConcatAt(parts: seq<string>, k: nat)
    requires k < |parts|
    ensures Concat(parts) == Concat(parts[..k]) + parts[k] + Concat(parts[k + 1..])
  {
    var upto := parts[..k + 1];
    assert parts == upto + parts[k + 1..];
    ConcatAppend(upto, parts[k + 1..]);
    ConcatSnoc(parts, k);
  }
}

=== FILE: src/database.dfy ===
/** The five tables of the salon database as one object whose fields the request
    handlers update in place, with the column projections that lookups and UNIQUE
    constraints are stated over. */
module Database {
  import opened Wrappers
  import opened Models
  import opened Tables

  function UserIds(users: seq<User>): (r: seq<int>)
    ensures |r| == |users| && forall i :: 0 <= i < |users| ==> r[i] == users[i].id
  {
    seq(|users|, i requires 0 <= i < |users| => users[i].id)
  }

  function UserEmails(users: seq<User>): (r: seq<string>)
    ensures |r| == |users| && forall i :: 0 <= i < |users| ==> r[i] == users[i].email
  {
    seq(|users|, i requires 0 <= i < |users| => users[i].email)
  }

  function StylistIds(stylists: seq<Stylist>): (r: seq<int>)
    ensures |r| == |stylists| && forall i :: 0 <= i < |stylists| ==> r[i] == stylists[i].id
  {
    seq(|stylists|, i requires 0 <= i < |stylists| => stylists[i].id)
  }

  function StylistUserIds(stylists: seq<Stylist>): (r: seq<int>)
    ensures |r| == |stylists| && forall i :: 0 <= i < |stylists| ==> r[i] == stylists[i].userId
  {
    seq(|stylists|, i requires 0 <= i < |stylists| => stylists[i].userId)
  }

  function ServiceIds(services: seq<Service>): (r: seq<int>)
    ensures |r| == |services| && forall i :: 0 <= i < |services| ==> r[i] == services[i].id
  {
    seq(|services|, i requires 0 <= i < |services| => services[i].id)
  }

  function ServiceNames(services: seq<Service>): (r: seq<string>)
    ensures |r| == |services| && forall i :: 0 <= i < |services| ==> r[i] == services[i].name
  {
    seq(|services|, i requires 0 <= i < |services| => services[i].name)
  }

  function BookingIds(bookings: seq<Booking>): (r: seq<int>)
    ensures |r| == |bookings| && forall i :: 0 <= i < |bookings| ==> r[i] == bookings[i].id
  {
    seq(|bookings|, i requires 0 <= i < |bookings| => bookings[i].id)
  }

  function PaymentIds(payments: seq<Payment>): (r: seq<int>)
    ensures |r| == |payments| && forall i :: 0 <= i < |payments| ==> r[i] == payments[i].id
  {
    seq(|payments|, i requires 0 <= i < |payments| => payments[i].id)
  }

  function PaymentBookingIds(payments: seq<Payment>): (r: seq<int>)
    ensures |r| == |payments| && forall i :: 0 <= i < |payments| ==> r[i] == payments[i].bookingId
  {
    seq(|payments|, i requires 0 <= i < |payments| => payments[i].bookingId)
  }

  lemma BookingIdsAppend(bookings: seq<Booking>, b: Booking)
    ensures BookingIds(bookings + [b]) == BookingIds(bookings) + [b.id]
  {
  }

  /** Rewriting a row without touching its key leaves the key column as it was. */
  lemma BookingIdsUpdate(bookings: seq<Booking>, i: nat, b: Booking)
    requires i < |bookings| && b.id == bookings[i].id
    ensures BookingIds(bookings[i := b]) == BookingIds(bookings)
  {
  }

  lemma PaymentIdsAppend(payments: seq<Payment>, p: Payment)
    ensures PaymentIds(payments + [p]) == PaymentIds(payments) + [p.id]
    ensures PaymentBookingIds(payments + [p]) == PaymentBookingIds(payments) + [p.bookingId]
  {
  }

  lemma PaymentIdsUpdate(payments: seq<Payment>, j: nat, p: Payment)
    requires j < |payments| && p.id == payments[j].id && p.bookingId == payments[j].bookingId
    ensures PaymentIds(payments[j := p]) == PaymentIds(payments)
    ensures PaymentBookingIds(payments[j := p]) == PaymentBookingIds(payments)
  {
  }

  lemma ServiceColumnsAppend(services: seq<Service>, s: Service)
    ensures ServiceIds(services + [s]) == ServiceIds(services) + [s.id]
    ensures ServiceNames(services + [s]) == ServiceNames(services) + [s.name]
  {
  }

  lemma ServiceColumnsRemove(services: seq<Service>, i: nat)
    requires i < |services|
    ensures ServiceIds(RemoveAt(services, i)) == RemoveAt(ServiceIds(services), i)
    ensures ServiceNames(RemoveAt(services, i)) == RemoveAt(ServiceNames(services), i)
  {
  }

  lemma StylistColumnsAppend(stylists: seq<Stylist>, s: Stylist)
    ensures StylistIds(stylists + [s]) == StylistIds(stylists) + [s.id]
    ensures StylistUserIds(stylists + [s]) == StylistUserIds(stylists) + [s.userId]
  {
  }

  lemma StylistColumnsUpdate(stylists: seq<Stylist>, i: nat, s: Stylist)
    requires i < |stylists| && s.id == stylists[i].id && s.userId == stylists[i].userId
    ensures StylistIds(stylists[i := s]) == StylistIds(stylists)
    ensures StylistUserIds(stylists[i := s]) == StylistUserIds(stylists)
  {
  }

  lemma StylistColumnsRemove(stylists: seq<Stylist>, i: nat)
    requires i < |stylists|
    ensures StylistIds(RemoveAt(stylists, i)) == RemoveAt(StylistIds(stylists), i)
    ensures StylistUserIds(RemoveAt(stylists, i)) == RemoveAt(StylistUserIds(stylists), i)
  {
  }

  lemma UserColumnsAppend(users: seq<User>, u: User)
    ensures UserIds(users + [u]) == UserIds(users) + [u.id]
    ensures UserEmails(users + [u]) == UserEmails(users) + [u.email]
  {
  }

  /** Changing a user's role or password hash leaves the key columns as they were. */
  lemma UserColumnsUpdate(users: seq<User>, i: nat, u: User)
    requires i < |users| && u.id == users[i].id && u.email == users[i].email
    ensures UserIds(users[i := u]) == UserIds(users)
    ensures UserEmails(users[i := u]) == UserEmails(users)
  {
  }

  /** The schema's key constraints over the user table: primary key and unique email. */
  ghost predicate UsersValid(users: seq<User>) {
    Distinct(UserIds(users)) && Distinct(UserEmails(users))
  }

  /** Primary key, and the unique `user_id`: a user has at most one stylist profile. */
  ghost predicate StylistsValid(stylists: seq<Stylist>) {
    Distinct(StylistIds(stylists)) && Distinct(StylistUserIds(stylists))
  }

  /** Primary key and unique service name. */
  ghost predicate ServicesValid(services: seq<Service>) {
    Distinct(ServiceIds(services)) && Distinct(ServiceNames(services))
  }

  /** Primary key, and the unique `booking_id`: at most one payment per booking. */
  ghost predicate PaymentsValid(payments: seq<Payment>) {
    Distinct(PaymentIds(payments)) && Distinct(PaymentBookingIds(payments))
  }

  /** The database session: one sequence of rows per table, in insertion order. */
  class Db {
    var users: seq<User>
    var stylists: seq<Stylist>
    var services: seq<Service>
    var bookings: seq<Booking>
    var payments: seq<Payment>

    /** Every PRIMARY KEY and UNIQUE constraint of the schema holds. */
    ghost predicate Valid()
      reads this
    {
      UsersValid(users) && StylistsValid(stylists) && ServicesValid(services) &&
      Distinct(BookingIds(bookings)) && PaymentsValid(payments)
    }

    /** `Base.metadata.create_all` on an empty database. */
    constructor()
      ensures users == [] && stylists == [] && services == [] && bookings == [] && payments == []
      ensures Valid()
    {
      users := [];
      stylists := [];
      services := [];
      bookings := [];
      payments := [];
    }
  }
}

=== FILE: src/deps.dfy ===
/** The authentication dependencies of the HTTP handlers: the current user named by a
    bearer token's `sub` claim, and the role checks built on it. Token decoding (signature
    and expiry checks) belongs to `app/auth.py`, which is not part of this model: its
    result enters as a parameter, `None` when `decode_token` rejects the token. */
module Deps {
  import opened Wrappers
  import opened Text
  import opened Models
  import opened Tables
  import opened Database

  /** A decoded token payload: claim name to claim value. */
  type Claims = map<string, string>

  /** `get_current_user`. An absent or empty payload, or one without `sub`, is 401; a
      `sub` that `int()` rejects raises ValueError (500); an unknown or inactive user
      is 401. */
  function GetCurrentUser(users: seq<User>, payload: Option<Claims>): (r: Result<User>)
    ensures payload.None? || "sub" !in payload.value ==> r == Fail(Unauthorized, "Invalid token")
    ensures r.Ok? ==>
      r.value in users && r.value.isActive &&
      payload.Some? && "sub" in payload.value && ParseInt(payload.value["sub"]) == Some(r.value.id)
    ensures r.Fail? ==> r.status == Unauthorized || r.status == ServerError
    ensures (r.Fail? && r.status == ServerError) <==>
      (payload.Some? && "sub" in payload.value && ParseInt(payload.value["sub"]).None?)
    ensures (payload.Some? && "sub" in payload.value && ParseInt(payload.value["sub"]).Some? &&
             ParseInt(payload.value["sub"]).value !in UserIds(users)) ==>
      r.Fail? && r.status == Unauthorized
  {
    if payload.None? || payload.value == map[] || "sub" !in payload.value then
      Fail(Unauthorized, "Invalid token")
    else
      match ParseInt(payload.value["sub"])
      case None => Fail(ServerError, "invalid literal for int()")
      case Some(id) =>
        match IndexOf(UserIds(users), id)
        case None => Fail(Unauthorized, "Inactive or not found")
        case Some(i) =>
          if !users[i].isActive then Fail(Unauthorized, "Inactive or not found") else Ok(users[i])
  }

  /** A token whose `sub` is `str(user.id)`, as `login` issues it, identifies that user:
      it is accepted exactly when the user is active. */
  lemma TokenIdentifiesUser(users: seq<User>, i: nat, claims: Claims)
    requires Distinct(UserIds(users)) && i < |users|
    requires "sub" in claims && claims["sub"] == IntToString(users[i].id)
    ensures users[i].isActive ==> GetCurrentUser(users, Some(claims)) == Ok(users[i])
    ensures !users[i].isActive ==> GetCurrentUser(users, Some(claims)) == Fail(Unauthorized, "Inactive or not found")
  {
    ParseIntOfIntToString(users[i].id);
    IndexOfDistinct(UserIds(users), i);
  }

  /** `require_role(required)`: 403 unless the user has exactly that role; the user is
      passed through unchanged. */
  function RequireRole(user: User, required: Role): (r: Result<User>)
    ensures r.Ok? <==> user.role == required
    ensures r.Ok? ==> r.value == user
    ensures r.Fail? ==> r.status == Forbidden
  {
    if user.role != required then Fail(Forbidden, "Insufficient permissions") else Ok(user)
  }

  /** A route guarded by `Depends(require_role(role))`: the current user, then the role. */
  function Authorize(users: seq<User>, payload: Option<Claims>, role: Role): (r: Result<User>)
    ensures GetCurrentUser(users, payload).Fail? ==> r == GetCurrentUser(users, payload)
    ensures r.Ok? <==> GetCurrentUser(users, payload).Ok? && GetCurrentUser(users, payload).value.role == role
    ensures r.Ok? ==> r.value == GetCurrentUser(users, payload).value && r.value.role == role
    ensures GetCurrentUser(users, payload).Ok? && r.Fail? ==> r.status == Forbidden
  {
    var user :- GetCurrentUser(users, payload);
    RequireRole(user, role)
  }

  /** `RequireOwner`. */
  function RequireOwner(users: seq<User>, payload: Option<Claims>): (r: Result<User>)
    ensures r.Ok? ==> r.value.role == Owner && r.value in users && r.value.isActive
    ensures r.Ok? <==> GetCurrentUser(users, payload).Ok? && GetCurrentUser(users, payload).value.role == Owner
  {
    Authorize(users, payload, Owner)
  }

  /** `RequireCustomer`. */
  function RequireCustomer(users: seq<User>, payload: Option<Claims>): (r: Result<User>)
    ensures r.Ok? ==> r.value.role == Customer && r.value in users && r.value.isActive
    ensures r.Ok? <==> GetCurrentUser(users, payload).Ok? && GetCurrentUser(users, payload).value.role == Customer
  {
    Authorize(users, payload, Customer)
  }

  /** `RequireStylist`. */
  function RequireStylist(users: seq<User>, payload: Option<Claims>): (r: Result<User>)
    ensures r.Ok? ==> r.value.role == Role.Stylist && r.value in users && r.value.isActive
    ensures r.Ok? <==> GetCurrentUser(users, payload).Ok? && GetCurrentUser(users, payload).value.role == Role.Stylist
  {
    Authorize(users, payload, Role.Stylist)
  }

  /** The three guards are exclusive: no token passes two of them. */
  lemma GuardsExclusive(users: seq<User>, payload: Option<Claims>)
    ensures !(RequireOwner(users, payload).Ok? && RequireCustomer(users, payload).Ok?)
    ensures !(RequireOwner(users, payload).Ok? && RequireStylist(users, payload).Ok?)
    ensures !(RequireCustomer(users, payload).Ok? && RequireStylist(users, payload).Ok?)
  {
  }
}

=== FILE: src/labels.dfy ===
/** The display mappings the owner's booking table (`admin.js`) and the stylist's schedule
    (`stylist.js`) apply to each booking: the status badge, which both pages compute
    alike, and the customer label, which they compute differently. */
module BookingLabels {
  import opened Wrappers
  import opened Text
  import opened Models
  import opened Browser

  /** The badge class of a status: `confirmed` and `cancelled` have their own, every other
      value (pending, completed, anything) shows as pending. */
  function StatusBadge(status: Value): (r: string)
    ensures r == "badge confirmed" <==> status == Str("confirmed")
    ensures r == "badge cancelled" <==> status == Str("cancelled")
    ensures r == "badge pending" <==> status != Str("confirmed") && status != Str("cancelled")
  {
    if status == Str("confirmed") then "badge confirmed"
    else if status == Str("cancelled") then "badge cancelled"
    else "badge pending"
  }

  /** On the statuses the server writes, a completed booking wears the pending badge. */
  lemma BadgeOfStatus(s: BookingStatus)
    ensures StatusBadge(Str(StatusValue(s))) == "badge pending" <==> s == Pending || s == Completed
    ensures StatusBadge(Str(StatusValue(s))) == "badge confirmed" <==> s == Confirmed
  {
    StatusValueInjective(s, Confirmed);
    StatusValueInjective(s, Cancelled);
  }

  /** A walk-in's label: its name in bold, then `(Walk-in)`. */
  function WalkinLabel(bk: Value): string {
    "<strong>" + JsString(Field(bk, "customer_name")) + "</strong> (Walk-in)"
  }

  /** The owner's table: a walk-in shows its name, any other booking `User #<customer_id>`. */
  function AdminCustomerLabel(bk: Value): (r: string)
    ensures Truthy(Field(bk, "is_walkin")) ==> r == WalkinLabel(bk)
    ensures !Truthy(Field(bk, "is_walkin")) ==> r == "User #" + JsString(Field(bk, "customer_id"))
  {
    if Truthy(Field(bk, "is_walkin")) then WalkinLabel(bk)
    else "User #" + JsString(Field(bk, "customer_id"))
  }

  /** The stylist's schedule: a walk-in shows its name; any other booking its customer name
      when there is one, `User #<customer_id>` otherwise. */
  function ScheduleCustomerLabel(bk: Value): (r: string)
    ensures Truthy(Field(bk, "is_walkin")) ==> r == WalkinLabel(bk)
    ensures !Truthy(Field(bk, "is_walkin")) && Truthy(Field(bk, "customer_name")) ==>
      r == JsString(Field(bk, "customer_name"))
    ensures !Truthy(Field(bk, "is_walkin")) && !Truthy(Field(bk, "customer_name")) ==>
      r == "User #" + JsString(Field(bk, "customer_id"))
  {
    if Truthy(Field(bk, "is_walkin")) then WalkinLabel(bk)
    else JsString(Or(Field(bk, "customer_name"), Str("User #" + JsString(Field(bk, "customer_id")))))
  }

  /** The two pages label a booking alike except for a booking that is not a walk-in but has
      a customer name: the schedule shows the name where the owner sees the user id. */
  lemma CustomerLabelsAgree(bk: Value)
    ensures Truthy(Field(bk, "is_walkin")) || !Truthy(Field(bk, "customer_name")) ==>
      AdminCustomerLabel(bk) == ScheduleCustomerLabel(bk)
    ensures !Truthy(Field(bk, "is_walkin")) && Truthy(Field(bk, "customer_name")) ==>
      ScheduleCustomerLabel(bk) == JsString(Field(bk, "customer_name")) &&
      AdminCustomerLabel(bk) == "User #" + JsString(Field(bk, "customer_id"))
  {
  }

  function OptionalString(o: Option<string>): Value {
    match o
    case None => Null
    case Some(s) => Str(s)
  }

  function OptionalId(o: Option<int>): Value {
    match o
    case None => Null
    case Some(i) => Num(i)
  }

  /** A booking row as `GET /admin/bookings` returns it (every column, encoded as JSON); the
      two timestamps are left out of this model. */
  function BookingJson(b: Booking): Value {
    Obj(map["id" := Num(b.id), "customer_id" := OptionalId(b.customerId),
            "customer_name" := OptionalString(b.customerName),
            "customer_email" := OptionalString(b.customerEmail),
            "service_id" := Num(b.serviceId), "stylist_id" := OptionalId(b.stylistId),
            "status" := Str(StatusValue(b.status)), "is_walkin" := Bool(b.isWalkin)])
  }

  /** On the rows the server returns, the owner sees a walk-in's name, a customer's user
      id, and `User #null` for a booking without either. */
  lemma AdminLabelOfRow(b: Booking)
    ensures b.isWalkin ==>
      AdminCustomerLabel(BookingJson(b)) == "<strong>" + JsString(OptionalString(b.customerName)) + "</strong> (Walk-in)"
    ensures !b.isWalkin && b.customerId.Some? ==>
      AdminCustomerLabel(BookingJson(b)) == "User #" + IntToString(b.customerId.value)
    ensures !b.isWalkin && b.customerId.None? ==>
      AdminCustomerLabel(BookingJson(b)) == "User #null"
  {
    var v := BookingJson(b);
    assert Field(v, "is_walkin") == Bool(b.isWalkin);
    assert Field(v, "customer_id") == OptionalId(b.customerId);
    assert Field(v, "customer_name") == OptionalString(b.customerName);
  }
}

=== FILE: src/models.dfy ===
/** The ORM records of the salon database and their column defaults. Datetimes are
    integer minutes, prices integer cents. */
module Models {
  import opened Wrappers

  datatype Role = Customer | Owner | Stylist | Guest

  /** The string stored in `users.role` and carried in the token's `role` claim. */
  function RoleValue(r: Role): string {
    match r
    case Customer => "customer"
    case Owner => "owner"
    case Stylist => "stylist"
    case Guest => "guest"
  }

  function ParseRole(s: string): (r: Option<Role>)
    ensures r.Some? ==> RoleValue(r.value) == s
  {
    if s == "customer" then Some(Customer)
    else if s == "owner" then Some(Owner)
    else if s == "stylist" then Some(Role.Stylist)
    else if s == "guest" then Some(Guest)
    else None
  }

  /** The role enumeration has exactly four values, each with its own string. */
  lemma RoleValues(r: Role)
    ensures RoleValue(r) in {"customer", "owner", "stylist", "guest"}
    ensures ParseRole(RoleValue(r)) == Some(r)
  {
  }

  datatype BookingStatus = Pending | Confirmed | Cancelled | Completed

  function StatusValue(s: BookingStatus): string {
    match s
    case Pending => "pending"
    case Confirmed => "confirmed"
    case Cancelled => "cancelled"
    case Completed => "completed"
  }

  lemma StatusValueInjective(s: BookingStatus, t: BookingStatus)
    ensures StatusValue(s) == StatusValue(t) <==> s == t
  {
  }

  datatype PaymentStatus = Initiated | Success | Failed

  type Money = int
  type Minutes = int

  datatype User = User(
    id: int,
    email: string,
    hashedPassword: string,
    fullName: Option<string>,
    role: Role,
    isActive: bool)

  /** A new `User` row: role defaults to customer and `is_active` to true. */
  function NewUser(id: int, email: string, hashedPassword: string, fullName: Option<string>,
                   role: Role := Customer): (u: User)
    ensures u.id == id && u.email == email && u.hashedPassword == hashedPassword
    ensures u.fullName == fullName && u.role == role && u.isActive
  {
    User(id, email, hashedPassword, fullName, role, true)
  }

  datatype Stylist = Stylist(
    id: int,
    userId: int,
    displayName: string,
    bio: Option<string>,
    startHour: int,
    endHour: int)

  /** A new `Stylist` row: working hours default to 9 and 20. */
  function NewStylist(id: int, userId: int, displayName: string, bio: Option<string>,
                      startHour: int := 9, endHour: int := 20): (s: Stylist)
    ensures s.id == id && s.userId == userId && s.displayName == displayName && s.bio == bio
    ensures s.startHour == startHour && s.endHour == endHour
  {
    Stylist.Stylist(id, userId, displayName, bio, startHour, endHour)
  }

  lemma StylistHoursDefault(id: int, userId: int, displayName: string)
    ensures NewStylist(id, userId, displayName, None).startHour == 9
    ensures NewStylist(id, userId, displayName, None).endHour == 20
  {
  }

  datatype Service = Service(
    id: int,
    name: string,
    description: Option<string>,
    price: Money,
    durationMinutes: int,
    isActive: bool)

  /** A new `Service` row: `duration_minutes` defaults to 60 and `is_active` to true. */
  function NewService(id: int, name: string, price: Money, description: Option<string> := None,
                      durationMinutes: int := 60): (s: Service)
    ensures s.id == id && s.name == name && s.price == price && s.description == description
    ensures s.durationMinutes == durationMinutes && s.isActive
  {
    Service(id, name, description, price, durationMinutes, true)
  }

  datatype Booking = Booking(
    id: int,
    customerId: Option<int>,
    customerName: Option<string>,
    customerEmail: Option<string>,
    serviceId: int,
    stylistId: Option<int>,
    startTime: Minutes,
    endTime: Minutes,
    status: BookingStatus,
    isWalkin: bool)

  /** A new `Booking` row: status defaults to pending and `is_walkin` to false; the customer
      and the stylist may be null. */
  function NewBooking(id: int, serviceId: int, startTime: Minutes, endTime: Minutes,
                      customerId: Option<int> := None, stylistId: Option<int> := None,
                      status: BookingStatus := Pending): (b: Booking)
    ensures b.id == id && b.serviceId == serviceId && b.startTime == startTime && b.endTime == endTime
    ensures b.customerId == customerId && b.stylistId == stylistId && b.status == status
    ensures b.customerName == None && b.customerEmail == None && !b.isWalkin
  {
    Booking(id, customerId, None, None, serviceId, stylistId, startTime, endTime, status, false)
  }

  lemma BookingDefaults(id: int, serviceId: int, startTime: Minutes, endTime: Minutes)
    ensures NewBooking(id, serviceId, startTime, endTime).status == Pending
    ensures !NewBooking(id, serviceId, startTime, endTime).isWalkin
    ensures NewBooking(id, serviceId, startTime, endTime).customerId == None
    ensures NewBooking(id, serviceId, startTime, endTime).stylistId == None
  {
  }

  datatype Payment = Payment(
    id: int,
    bookingId: int,
    amount: Money,
    status: PaymentStatus,
    provider: Option<string>,
    maskedDetails: Option<string>)

  /** A new `Payment` row: status defaults to initiated; provider and details are null. */
  function NewPayment(id: int, bookingId: int, amount: Money): (p: Payment)
    ensures p.id == id && p.bookingId == bookingId && p.amount == amount
    ensures p.status == Initiated && p.provider == None && p.maskedDetails == None
  {
    Payment(id, bookingId, amount, Initiated, None, None)
  }
}

=== FILE: src/payment.dfy ===
/** Card checks used before a payment is recorded: the Luhn checksum (ISO/IEC 7812-1,
    Annex B), masking of the card number, and the expiry check. */
module CardPayment {
  import opened Text

  const MinCardDigits := 12
  const MaskPrefix := "**** **** **** "

  /** What one digit adds to the checksum; a doubled digit above 9 loses 9. */
  function LuhnTerm(d: nat, doubled: bool): (t: nat)
    requires d < 10
    ensures t < 10
    ensures !doubled ==> t == d
  {
    if !doubled then d else if 2 * d > 9 then 2 * d - 9 else 2 * d
  }

  /** The checksum over the first `k` digits as `luhn_check`'s loop adds them up: the digit
      at index `i` is doubled exactly when `i % 2 == parity`. */
  function LuhnPrefixSum(ds: string, parity: nat, k: nat): nat
    requires AllDigits(ds) && k <= |ds|
  {
    if k == 0 then 0
    else LuhnPrefixSum(ds, parity, k - 1) + LuhnTerm(DigitValue(ds[k - 1]), (k - 1) % 2 == parity)
  }

  /** The formulation of ISO/IEC 7812-1, Annex B: positions are counted from the right-most
      digit, which has position `pos`; every digit at an odd position is doubled. */
  function AnnexBSum(ds: string, pos: nat): nat
    requires AllDigits(ds)
  {
    if ds == [] then 0
    else LuhnTerm(DigitValue(ds[|ds| - 1]), pos % 2 == 1) + AnnexBSum(ds[..|ds| - 1], pos + 1)
  }

  /** `luhn_checksum(card_number)`: at least 12 digits and a checksum divisible by 10;
      every non-digit character is ignored. */
  predicate LuhnValid(cardNumber: string) {
    var ds := Digits(cardNumber);
    |ds| >= MinCardDigits && LuhnPrefixSum(ds, |ds| % 2, |ds|) % 10 == 0
  }

  method LuhnChecksum(cardNumber: string) returns (ok: bool)
    ensures ok == LuhnValid(cardNumber)
    ensures |Digits(cardNumber)| < MinCardDigits ==> !ok
  {
    var digits := Digits(cardNumber);
    if |digits| < MinCardDigits {
      return false;
    }
    var checksum := 0;
    var parity := |digits| % 2;
    for i := 0 to |digits|
      invariant checksum == LuhnPrefixSum(digits, parity, i)
    {
      var d := DigitValue(digits[i]);
      if i % 2 == parity {
        d := d * 2;
        if d > 9 {
          d := d - 9;
        }
      }
      checksum := checksum + d;
    }
    ok := checksum % 10 == 0;
  }

  lemma {:induction false} PrefixSumIsAnnexB(ds: string, k: nat)
    requires AllDigits(ds) && k <= |ds|
    ensures LuhnPrefixSum(ds, |ds| % 2, k) == AnnexBSum(ds[..k], |ds| - k)
  {
    if k > 0 {
      PrefixSumIsAnnexB(ds, k - 1);
      var prefix := ds[..k];
      assert prefix[..k - 1] == ds[..k - 1];
      assert prefix[k - 1] == ds[k - 1];
      ParityFromTheRight(|ds|, k);
    }
  }

  /** Index `k - 1` of `n` digits has the parity of `n` exactly when its position from the
      right, `n - k`, is odd. */
  lemma ParityFromTheRight(n: nat, k: nat)
    requires 0 < k <= n
    ensures ((k - 1) % 2 == n % 2) == ((n - k) % 2 == 1)
  {
  }

  /** `luhn_check`'s index-parity rule is the standard's "every second digit from the right":
      the last (check) digit is never doubled, the one before it always is. */
  lemma LuhnIsAnnexB(cardNumber: string)
    ensures LuhnValid(cardNumber) <==>
      |Digits(cardNumber)| >= MinCardDigits && AnnexBSum(Digits(cardNumber), 0) % 10 == 0
  {
    var ds := Digits(cardNumber);
    PrefixSumIsAnnexB(ds, |ds|);
    assert ds[..|ds|] == ds;
  }

  /** Inserting a non-digit anywhere (a space, a dash) does not change the verdict. */
  lemma LuhnIgnoresNonDigit(before: string, c: char, after: string)
    requires !IsDigit(c)
    ensures LuhnValid(before + [c] + after) == LuhnValid(before + after)
  {
    DigitsAppend(before + [c], after);
    DigitsAppend(before, [c]);
    DigitsAppend(before, after);
    assert Digits([c]) == [];
    assert Digits(before + [c] + after) == Digits(before + after);
  }

  lemma {:induction false} AlternatingFoursAndTwos(ds: string, m: nat)
    requires AllDigits(ds) && 2 * m <= |ds|
    requires forall j :: 0 <= j < m ==> ds[2 * j] == '4' && ds[2 * j + 1] == '2'
    ensures LuhnPrefixSum(ds, 0, 2 * m) == 10 * m
  {
    if m > 0 {
      AlternatingFoursAndTwos(ds, m - 1);
      assert ds[2 * (m - 1)] == '4' && ds[2 * (m - 1) + 1] == '2';
    }
  }

  /** A 16-digit number alternating 4 and 2 passes: its checksum is 80. */
  lemma AlternatingCardPasses(s: string)
    requires AllDigits(s) && |s| == 16
    requires forall j :: 0 <= j < 8 ==> s[2 * j] == '4' && s[2 * j + 1] == '2'
    ensures LuhnValid(s)
  {
    DigitsOfDigits(s);
    AlternatingFoursAndTwos(s, 8);
  }

  lemma TestCardShape(s: string)
    requires s == "4242424242424242"
    ensures AllDigits(s) && |s| == 16
    ensures forall j :: 0 <= j < 8 ==> s[2 * j] == '4' && s[2 * j + 1] == '2'
  {
  }

  /** The card number of the end-to-end payment flow passes the check. */
  lemma TestCardPasses()
    ensures LuhnValid("4242424242424242")
  {
    TestCardShape("4242424242424242");
    AlternatingCardPasses("4242424242424242");
  }

  /** `mask_card`: the last four digits behind a fixed mask, or `****` when there are fewer
      than four digits. The result never shows more than four card digits. */
  function MaskCard(cardNumber: string): (r: string)
    ensures |Digits(r)| <= 4
    ensures |Digits(cardNumber)| >= 4 ==>
      |r| == |MaskPrefix| + 4 && r[..|MaskPrefix|] == MaskPrefix &&
      Digits(r) == Digits(cardNumber)[|Digits(cardNumber)| - 4..]
    ensures |Digits(cardNumber)| < 4 ==> r == "****"
  {
    var ds := Digits(cardNumber);
    if |ds| >= 4 then
      var last4 := ds[|ds| - 4..];
      MaskedDigits(last4);
      assert (MaskPrefix + last4)[..|MaskPrefix|] == MaskPrefix;
      MaskPrefix + last4
    else
      StarsHaveNoDigits();
      "****"
  }

  lemma StarsHaveNoDigits()
    ensures Digits("****") == []
  {
    DigitsOfNonDigits("****");
  }

  lemma MaskPrefixHasNoDigits()
    ensures Digits(MaskPrefix) == []
  {
    DigitsOfNonDigits(MaskPrefix);
  }

  lemma MaskedDigits(last4: string)
    requires AllDigits(last4)
    ensures Digits(MaskPrefix + last4) == last4
  {
    DigitsAppend(MaskPrefix, last4);
    MaskPrefixHasNoDigits();
    DigitsOfDigits(last4);
  }

  /** Months counted from year 0, so that (year, month) pairs compare as numbers. */
  function MonthIndex(year: int, month: int): int {
    year * 12 + (month - 1)
  }

  /** `validate_expiry(month, year)` with the current UTC year and month passed in: a real
      month that is not before the current one. */
  function ValidateExpiry(month: int, year: int, nowYear: int, nowMonth: int): (ok: bool)
    requires 1 <= nowMonth <= 12
    ensures ok <==> 1 <= month <= 12 && MonthIndex(year, month) >= MonthIndex(nowYear, nowMonth)
  {
    if month < 1 || month > 12 then false
    else if year < nowYear || (year == nowYear && month < nowMonth) then false
    else true
  }

  lemma ExpiryValidNextYear(month: int, year: int, nowYear: int, nowMonth: int)
    requires 1 <= nowMonth <= 12
    requires ValidateExpiry(month, year, nowYear, nowMonth)
    ensures ValidateExpiry(month, year + 1, nowYear, nowMonth)
  {
  }

  /** The expiry of the end-to-end flow's test card is accepted at any date up to 2099. */
  lemma TestExpiryPasses(nowYear: int, nowMonth: int)
    requires 1 <= nowMonth <= 12 && nowYear <= 2099
    ensures ValidateExpiry(12, 2099, nowYear, nowMonth)
  {
  }
}

=== FILE: src/schemas.dfy ===
/** Request and response shapes of the HTTP API with their field defaults and the
    constraints request validation enforces before a handler runs (a 422 response). */
module Schemas {
  import opened Wrappers
  import opened Models

  const MinPasswordLength := 8

  datatype UserCreate = UserCreate(email: string, password: string, fullName: Option<string> := None)

  /** Request validation of `UserCreate`: the password needs at least 8 characters. */
  function ValidateUserCreate(u: UserCreate): (r: Result<UserCreate>)
    ensures r.Ok? <==> |u.password| >= MinPasswordLength
    ensures r.Ok? ==> r.value == u
    ensures r.Fail? ==> r.status == Unprocessable
  {
    if |u.password| < MinPasswordLength then Fail(Unprocessable, "password: at least 8 characters")
    else Ok(u)
  }

  datatype StylistCreateFull = StylistCreateFull(
    email: string,
    password: string,
    fullName: string,
    displayName: string,
    bio: Option<string> := None,
    startHour: int := 9,
    endHour: int := 20)

  /** Request validation of `StylistCreateFull`: the same password length rule. */
  function ValidateStylistCreateFull(s: StylistCreateFull): (r: Result<StylistCreateFull>)
    ensures r.Ok? <==> |s.password| >= MinPasswordLength
    ensures r.Ok? ==> r.value == s
    ensures r.Fail? ==> r.status == Unprocessable
  {
    if |s.password| < MinPasswordLength then Fail(Unprocessable, "password: at least 8 characters")
    else Ok(s)
  }

  lemma StylistCreateFullDefaults(email: string, password: string, fullName: string, displayName: string)
    ensures StylistCreateFull(email, password, fullName, displayName).startHour == 9
    ensures StylistCreateFull(email, password, fullName, displayName).endHour == 20
    ensures StylistCreateFull(email, password, fullName, displayName).bio == None
  {
  }

  /** `stylist_id` is optional and defaults to null; the service and the start are required. */
  datatype BookingCreate = BookingCreate(serviceId: int, startTime: Minutes, stylistId: Option<int> := None)

  datatype WalkinBookingCreate = WalkinBookingCreate(
    serviceId: int,
    stylistId: int,
    startTime: Minutes,
    customerName: string,
    customerEmail: Option<string> := None,
    customerPhone: Option<string> := None)

  /** `ServiceCreate` is `ServiceBase`: `duration_minutes` defaults to 60. */
  datatype ServiceCreate = ServiceCreate(
    name: string,
    price: Money,
    description: Option<string> := None,
    durationMinutes: int := 60)

  lemma ServiceCreateDefaults(name: string, price: Money)
    ensures ServiceCreate(name, price).durationMinutes == 60
    ensures ServiceCreate(name, price).description == None
  {
  }

  /** Every field optional: `None` is a field the client left unset. `description` is a
      nullable column, so a set value may itself be null. */
  datatype ServiceUpdate = ServiceUpdate(
    name: Option<string> := None,
    description: Option<Option<string>> := None,
    price: Option<Money> := None,
    durationMinutes: Option<int> := None,
    isActive: Option<bool> := None)

  /** One item of `payload.model_dump(exclude_unset=True)` for a `ServiceUpdate`. */
  datatype ServiceField =
    | SetName(name: string)
    | SetDescription(description: Option<string>)
    | SetPrice(price: Money)
    | SetDuration(minutes: int)
    | SetActive(active: bool)

  function ItemIf<T>(present: bool, item: T): seq<T> {
    if present then [item] else []
  }

  /** One for a field the client set, zero otherwise. */
  function Present(given: bool): nat {
    if given then 1 else 0
  }

  /** `model_dump(exclude_unset=True)`: the fields that were set, in declaration order. */
  function ServiceUpdateItems(p: ServiceUpdate): (items: seq<ServiceField>)
    ensures |items| <= 5
    ensures p == ServiceUpdate() ==> items == []
    ensures forall f :: f in items <==>
      (p.name.Some? && f == SetName(p.name.value)) ||
      (p.description.Some? && f == SetDescription(p.description.value)) ||
      (p.price.Some? && f == SetPrice(p.price.value)) ||
      (p.durationMinutes.Some? && f == SetDuration(p.durationMinutes.value)) ||
      (p.isActive.Some? && f == SetActive(p.isActive.value))
    ensures |items| == Present(p.name.Some?) + Present(p.description.Some?) + Present(p.price.Some?) +
                       Present(p.durationMinutes.Some?) + Present(p.isActive.Some?)
  {
    ItemIf(p.name.Some?, SetName(p.name.GetOr([])))
    + ItemIf(p.description.Some?, SetDescription(p.description.GetOr(None)))
    + ItemIf(p.price.Some?, SetPrice(p.price.GetOr(0)))
    + ItemIf(p.durationMinutes.Some?, SetDuration(p.durationMinutes.GetOr(0)))
    + ItemIf(p.isActive.Some?, SetActive(p.isActive.GetOr(false)))
  }

  datatype StylistUpdate = StylistUpdate(
    displayName: Option<string> := None,
    bio: Option<Option<string>> := None,
    startHour: Option<int> := None,
    endHour: Option<int> := None)

  /** One item of `model_dump(exclude_unset=True)` for a `StylistUpdate`. */
  datatype StylistField =
    | SetDisplayName(displayName: string)
    | SetBio(bio: Option<string>)
    | SetStartHour(startHour: int)
    | SetEndHour(endHour: int)

  function StylistUpdateItems(p: StylistUpdate): (items: seq<StylistField>)
    ensures |items| <= 4
    ensures p == StylistUpdate() ==> items == []
    ensures forall f :: f in items <==>
      (p.displayName.Some? && f == SetDisplayName(p.displayName.value)) ||
      (p.bio.Some? && f == SetBio(p.bio.value)) ||
      (p.startHour.Some? && f == SetStartHour(p.startHour.value)) ||
      (p.endHour.Some? && f == SetEndHour(p.endHour.value))
    ensures |items| == Present(p.displayName.Some?) + Present(p.bio.Some?) + Present(p.startHour.Some?) +
                       Present(p.endHour.Some?)
  {
    ItemIf(p.displayName.Some?, SetDisplayName(p.displayName.GetOr([])))
    + ItemIf(p.bio.Some?, SetBio(p.bio.GetOr(None)))
    + ItemIf(p.startHour.Some?, SetStartHour(p.startHour.GetOr(0)))
    + ItemIf(p.endHour.Some?, SetEndHour(p.endHour.GetOr(0)))
  }

  datatype TimeSlot = TimeSlot(startTime: Minutes, endTime: Minutes, stylistId: Option<int> := None)

  datatype PaymentRequest = PaymentRequest(
    amount: Money,
    cardNumber: string,
    expiryMonth: int,
    expiryYear: int,
    cvv: string,
    cardholderName: string)

  datatype Token = Token(accessToken: string, tokenType: string := "bearer")

  lemma TokenTypeDefault(accessToken: string)
    ensures Token(accessToken).tokenType == "bearer"
  {
  }
}

=== FILE: src/seed.dfy ===
/** The startup seeding of the database: the administrator account is created or promoted
    to owner, a default stylist is added to an empty stylist table, and each sample service
    is inserted when its name is not taken. */
module Seed {
  import opened Wrappers
  import opened Models
  import opened Tables
  import opened Database

  const AdminEmail := "owner@salon.local"
  const AdminPassword := "Owner@12345"

  /** One entry of the sample catalogue; prices are in cents. */
  datatype SampleService = SampleService(name: string, price: Money, durationMinutes: int, description: string)

  const SampleServices: seq<SampleService> := [
    SampleService("Women's Haircut", 4000, 60, "Wash, cut & blowdry styling."),
    SampleService("Men's Haircut", 2500, 30, "Standard clipper or scissor cut."),
    SampleService("Color & Style", 10000, 120, "Full hair coloring and professional styling.")
  ]

  /** The tables seeding touches. */
  datatype Snapshot = Snapshot(users: seq<User>, stylists: seq<Stylist>, services: seq<Service>)

  /** The users table after the administrator upsert, and the administrator's position. */
  function SeedAdmin(users: seq<User>, hash: string -> string): (r: (seq<User>, nat))
    ensures r.1 < |r.0| && r.0[r.1].email == AdminEmail && r.0[r.1].role == Owner
    ensures IndexOf(UserEmails(r.0), AdminEmail) == Some(r.1)
    ensures AdminEmail in UserEmails(users) ==>
      r.1 < |users| && r.0 == users[r.1 := users[r.1].(role := Owner)]
    ensures AdminEmail !in UserEmails(users) ==>
      r.0 == users + [NewUser(NextId(UserIds(users)), AdminEmail, hash(AdminPassword), Some("Store Owner"), Owner)]
  {
    match IndexOf(UserEmails(users), AdminEmail)
    case Some(i) =>
      var after := users[i := users[i].(role := Owner)];
      UserColumnsUpdate(users, i, after[i]);
      (after, i)
    case None =>
      var admin := NewUser(NextId(UserIds(users)), AdminEmail, hash(AdminPassword), Some("Store Owner"), Owner);
      UserColumnsAppend(users, admin);
      assert UserEmails(users + [admin])[|users|] == AdminEmail;
      (users + [admin], |users|)
  }

  /** The default stylist "Sam", linked to the administrator, for an empty table only. */
  function SeedStylist(stylists: seq<Stylist>, adminId: int): (r: seq<Stylist>)
    ensures |stylists| > 0 ==> r == stylists
    ensures |stylists| == 0 ==>
      |r| == 1 && r[0].displayName == "Sam" && r[0].userId == adminId && r[0].startHour == 9 && r[0].endHour == 20
  {
    if |stylists| > 0 then stylists
    else [NewStylist(NextId(StylistIds(stylists)), adminId, "Sam", Some("Top Stylist"), 9, 20)]
  }

  /** One pass of the sample loop: insert the sample unless its name exists. */
  function AddSample(services: seq<Service>, sample: SampleService): (r: seq<Service>)
    ensures sample.name in ServiceNames(services) ==> r == services
    ensures sample.name !in ServiceNames(services) ==>
      r == services + [NewService(NextId(ServiceIds(services)), sample.name, sample.price,
                                  Some(sample.description), sample.durationMinutes)]
    ensures sample.name in ServiceNames(r)
  {
    if IndexOf(ServiceNames(services), sample.name).Some? then services
    else
      var svc := NewService(NextId(ServiceIds(services)), sample.name, sample.price,
                            Some(sample.description), sample.durationMinutes);
      ServiceColumnsAppend(services, svc);
      services + [svc]
  }

  /** The services table after the loop has run over `samples` in order. */
  function AddSamples(services: seq<Service>, samples: seq<SampleService>): seq<Service> {
    if samples == [] then services
    else AddSample(AddSamples(services, samples[..|samples| - 1]), samples[|samples| - 1])
  }

  /** The whole of `seed_data` on the three tables it touches. */
  function Seeded(s: Snapshot, hash: string -> string): Snapshot {
    var (users, adminIndex) := SeedAdmin(s.users, hash);
    Snapshot(users, SeedStylist(s.stylists, users[adminIndex].id), AddSamples(s.services, SampleServices))
  }

  /** Rows already present stay where they are, so names already present stay present. */
  lemma {:induction false} AddSamplesKeepsPrefix(services: seq<Service>, samples: seq<SampleService>)
    ensures |services| <= |AddSamples(services, samples)|
    ensures AddSamples(services, samples)[..|services|] == services
  {
    if samples != [] {
      AddSamplesKeepsPrefix(services, samples[..|samples| - 1]);
    }
  }

  /** After the loop every sample name is in the table. */
  lemma {:induction false} AddSamplesCoversNames(services: seq<Service>, samples: seq<SampleService>)
    ensures forall k :: 0 <= k < |samples| ==> samples[k].name in ServiceNames(AddSamples(services, samples))
  {
    if samples != [] {
      var init := samples[..|samples| - 1];
      AddSamplesCoversNames(services, init);
      var before := AddSamples(services, init);
      var after := AddSamples(services, samples);
      AddSamplesKeepsPrefix(before, [samples[|samples| - 1]]);
      assert [samples[|samples| - 1]][..0] == [];
      forall k | 0 <= k < |samples|
        ensures samples[k].name in ServiceNames(after)
      {
        if k < |samples| - 1 {
          assert samples[k] == init[k];
          var j :| 0 <= j < |before| && before[j].name == samples[k].name;
          assert after[j] == before[j];
        }
      }
    }
  }

  /** When every sample name is taken already, the loop changes nothing. */
  lemma {:induction false} AddSamplesNoop(services: seq<Service>, samples: seq<SampleService>)
    requires forall k :: 0 <= k < |samples| ==> samples[k].name in ServiceNames(services)
    ensures AddSamples(services, samples) == services
  {
    if samples != [] {
      AddSamplesNoop(services, samples[..|samples| - 1]);
    }
  }

  /** Seeding twice leaves the tables as seeding once. */
  lemma SeedIdempotent(s: Snapshot, hash: string -> string)
    ensures Seeded(Seeded(s, hash), hash) == Seeded(s, hash)
  {
    var once := Seeded(s, hash);
    var (users, i) := SeedAdmin(s.users, hash);
    var (users2, i2) := SeedAdmin(once.users, hash);
    assert i2 == i;
    assert users[i := users[i].(role := Owner)] == users;
    AddSamplesCoversNames(s.services, SampleServices);
    AddSamplesNoop(once.services, SampleServices);
  }

  /** After seeding an owner account with the administrator email exists, whether or not it
      existed before, and the stylist table is not empty. */
  lemma SeedEstablishesOwner(s: Snapshot, hash: string -> string)
    ensures exists u :: u in Seeded(s, hash).users && u.email == AdminEmail && u.role == Owner
    ensures |Seeded(s, hash).stylists| > 0
  {
    var (users, i) := SeedAdmin(s.users, hash);
    assert users[i] in Seeded(s, hash).users;
  }

  /** The administrator upsert at the start of `seed_data`. */
  method UpsertAdmin(db: Db, hash: string -> string) returns (adminIndex: nat)
    requires db.Valid()
    modifies db
    ensures db.Valid()
    ensures (db.users, adminIndex) == SeedAdmin(old(db.users), hash)
    ensures db.stylists == old(db.stylists) && db.services == old(db.services)
    ensures db.bookings == old(db.bookings) && db.payments == old(db.payments)
  {
    var found := IndexOf(UserEmails(db.users), AdminEmail);
    if found.None? {
      var admin := NewUser(NextId(UserIds(db.users)), AdminEmail, hash(AdminPassword), Some("Store Owner"), Owner);
      UserColumnsAppend(db.users, admin);
      DistinctAppend(UserIds(db.users), admin.id);
      DistinctAppend(UserEmails(db.users), admin.email);
      db.users := db.users + [admin];
      adminIndex := |db.users| - 1;
    } else {
      adminIndex := found.value;
      UserColumnsUpdate(db.users, adminIndex, db.users[adminIndex].(role := Owner));
      db.users := db.users[adminIndex := db.users[adminIndex].(role := Owner)];
    }
  }

  /** The sample loop of `seed_data`: each sample is inserted unless its name is taken. */
  method InsertSamples(db: Db, samples: seq<SampleService>)
    requires db.Valid()
    modifies db
    ensures db.Valid()
    ensures db.services == AddSamples(old(db.services), samples)
    ensures db.users == old(db.users) && db.stylists == old(db.stylists)
    ensures db.bookings == old(db.bookings) && db.payments == old(db.payments)
  {
    for k := 0 to |samples|
      invariant db.services == AddSamples(old(db.services), samples[..k])
      invariant db.Valid()
      invariant db.users == old(db.users) && db.stylists == old(db.stylists)
      invariant db.bookings == old(db.bookings) && db.payments == old(db.payments)
    {
      assert samples[..k + 1][..k] == samples[..k];
      var sample := samples[k];
      var existing := IndexOf(ServiceNames(db.services), sample.name);
      if existing.None? {
        var svc := NewService(NextId(ServiceIds(db.services)), sample.name, sample.price,
                              Some(sample.description), sample.durationMinutes);
        ServiceColumnsAppend(db.services, svc);
        DistinctAppend(ServiceIds(db.services), svc.id);
        DistinctAppend(ServiceNames(db.services), svc.name);
        db.services := db.services + [svc];
      }
    }
    assert samples[..|samples|] == samples;
  }

  /** `seed_data`, run on the database at startup. */
  method SeedData(db: Db, hash: string -> string)
    requires db.Valid()
    modifies db
    ensures db.Valid()
    ensures Snapshot(db.users, db.stylists, db.services)
         == Seeded(Snapshot(old(db.users), old(db.stylists), old(db.services)), hash)
    ensures db.bookings == old(db.bookings) && db.payments == old(db.payments)
  {
    var adminIndex := UpsertAdmin(db, hash);
    if |db.stylists| == 0 {
      db.stylists := [NewStylist(NextId(StylistIds(db.stylists)), db.users[adminIndex].id, "Sam",
                                 Some("Top Stylist"), 9, 20)];
    }
    InsertSamples(db, SampleServices);
  }
}

=== FILE: src/services.dfy ===
/** The service catalogue router: the public list and the owner-only create, partial
    update and delete. */
module Services {
  import opened Wrappers
  import opened Models
  import opened Schemas
  import opened Tables
  import opened Database
  import opened Deps
  import opened Bookings

  /** `list_services`: the active services, in table order. */
  function ListServices(services: seq<Service>): (r: seq<Service>)
    ensures forall s :: s in r <==> s in services && s.isActive
    ensures |r| <= |services|
  {
    if services == [] then []
    else (if services[0].isActive then [services[0]] else []) + ListServices(services[1..])
  }

  /** The listing keeps table order: listing two runs of rows is listing each in turn. */
  lemma {:induction false} ListServicesAppend(a: seq<Service>, b: seq<Service>)
    ensures ListServices(a + b) == ListServices(a) + ListServices(b)
  {
    if a != [] {
      assert (a + b)[1..] == a[1..] + b;
      ListServicesAppend(a[1..], b);
    } else {
      assert a + b == b;
    }
  }

  // ---------------------------------------------------------------------------------
  // create_service

  /** The outcome of `create_service` (owner only): 400 when the name is taken, otherwise
      the new row built from the payload with `is_active` true. */
  function CreateServiceOutcome(users: seq<User>, services: seq<Service>, claims: Option<Claims>,
                                payload: ServiceCreate): (r: Result<Service>)
    ensures RequireOwner(users, claims).Fail? ==> r == RequireOwner(users, claims).PropagateFailure()
    ensures RequireOwner(users, claims).Ok? ==>
      ((r.Fail? && r.status == BadRequest) <==> payload.name in ServiceNames(services))
    ensures r.Ok? <==> RequireOwner(users, claims).Ok? && payload.name !in ServiceNames(services)
    ensures r.Ok? ==>
      r.value.name == payload.name && r.value.price == payload.price &&
      r.value.description == payload.description && r.value.durationMinutes == payload.durationMinutes &&
      r.value.isActive && r.value.id !in ServiceIds(services) && r.value.name !in ServiceNames(services)
  {
    var _ :- RequireOwner(users, claims);
    if IndexOf(ServiceNames(services), payload.name).Some? then Fail(BadRequest, "Service already exists")
    else Ok(NewService(NextId(ServiceIds(services)), payload.name, payload.price,
                       payload.description, payload.durationMinutes))
  }

  /** Creation never introduces a duplicate name or key. */
  lemma CreateServiceKeepsUnique(users: seq<User>, services: seq<Service>, claims: Option<Claims>,
                                 payload: ServiceCreate)
    requires ServicesValid(services)
    requires CreateServiceOutcome(users, services, claims, payload).Ok?
    ensures ServicesValid(services + [CreateServiceOutcome(users, services, claims, payload).value])
  {
    var s := CreateServiceOutcome(users, services, claims, payload).value;
    ServiceColumnsAppend(services, s);
    DistinctAppend(ServiceIds(services), s.id);
    DistinctAppend(ServiceNames(services), s.name);
  }

  method CreateService(db: Db, claims: Option<Claims>, payload: ServiceCreate) returns (r: Result<Service>)
    requires db.Valid()
    modifies db
    ensures db.Valid()
    ensures r == CreateServiceOutcome(old(db.users), old(db.services), claims, payload)
    ensures r.Ok? ==> db.services == old(db.services) + [r.value]
    ensures r.Fail? ==> db.services == old(db.services)
    ensures db.users == old(db.users) && db.stylists == old(db.stylists)
    ensures db.bookings == old(db.bookings) && db.payments == old(db.payments)
  {
    var _ :- RequireOwner(db.users, claims);
    var existing := IndexOf(ServiceNames(db.services), payload.name);
    if existing.Some? {
      return Fail(BadRequest, "Service already exists");
    }
    var svc := NewService(NextId(ServiceIds(db.services)), payload.name, payload.price,
                          payload.description, payload.durationMinutes);
    CreateServiceKeepsUnique(db.users, db.services, claims, payload);
    db.services := db.services + [svc];
    r := Ok(svc);
  }

  // ---------------------------------------------------------------------------------
  // update_service

  /** `setattr(svc, k, v)` for one item of the payload dump. */
  function ApplyServiceField(s: Service, f: ServiceField): Service {
    match f
    case SetName(name) => s.(name := name)
    case SetDescription(d) => s.(description := d)
    case SetPrice(price) => s.(price := price)
    case SetDuration(minutes) => s.(durationMinutes := minutes)
    case SetActive(active) => s.(isActive := active)
  }

  /** The row after the `setattr` loop has run over `items` in order. */
  function ApplyServiceFields(s: Service, items: seq<ServiceField>): Service {
    if items == [] then s
    else ApplyServiceField(ApplyServiceFields(s, items[..|items| - 1]), items[|items| - 1])
  }

  /** The reference meaning of a partial update: each field the client set takes the sent
      value; every other field keeps its value. */
  function MergeServiceUpdate(s: Service, p: ServiceUpdate): Service {
    Service(s.id, p.name.GetOr(s.name), p.description.GetOr(s.description), p.price.GetOr(s.price),
            p.durationMinutes.GetOr(s.durationMinutes), p.isActive.GetOr(s.isActive))
  }

  lemma {:induction false} ApplyServiceFieldsAppend(s: Service, a: seq<ServiceField>, b: seq<ServiceField>)
    ensures ApplyServiceFields(s, a + b) == ApplyServiceFields(ApplyServiceFields(s, a), b)
    decreases |b|
  {
    if b == [] {
      assert a + b == a;
    } else {
      assert (a + b)[..|a + b| - 1] == a + b[..|b| - 1];
      ApplyServiceFieldsAppend(s, a, b[..|b| - 1]);
    }
  }

  lemma ApplyServiceItemIf(s: Service, present: bool, f: ServiceField)
    ensures ApplyServiceFields(s, ItemIf(present, f)) == if present then ApplyServiceField(s, f) else s
  {
    if present {
      assert ItemIf(present, f)[..0] == [];
    }
  }

  /** The `setattr` loop over `model_dump(exclude_unset=True)` is the field-wise merge: set
      fields are overwritten, the others are unchanged, the key is untouched. */
  lemma ServiceUpdateIsMerge(s: Service, p: ServiceUpdate)
    ensures ApplyServiceFields(s, ServiceUpdateItems(p)) == MergeServiceUpdate(s, p)
    ensures ApplyServiceFields(s, ServiceUpdateItems(p)).id == s.id
  {
    var i1 := ItemIf(p.name.Some?, SetName(p.name.GetOr([])));
    var i2 := ItemIf(p.description.Some?, SetDescription(p.description.GetOr(None)));
    var i3 := ItemIf(p.price.Some?, SetPrice(p.price.GetOr(0)));
    var i4 := ItemIf(p.durationMinutes.Some?, SetDuration(p.durationMinutes.GetOr(0)));
    var i5 := ItemIf(p.isActive.Some?, SetActive(p.isActive.GetOr(false)));
    assert ServiceUpdateItems(p) == (((i1 + i2) + i3) + i4) + i5;
    ApplyServiceItemIf(s, p.name.Some?, SetName(p.name.GetOr([])));
    var s1 := ApplyServiceFields(s, i1);
    ApplyServiceItemIf(s1, p.description.Some?, SetDescription(p.description.GetOr(None)));
    var s2 := ApplyServiceFields(s1, i2);
    ApplyServiceItemIf(s2, p.price.Some?, SetPrice(p.price.GetOr(0)));
    var s3 := ApplyServiceFields(s2, i3);
    ApplyServiceItemIf(s3, p.durationMinutes.Some?, SetDuration(p.durationMinutes.GetOr(0)));
    var s4 := ApplyServiceFields(s3, i4);
    ApplyServiceItemIf(s4, p.isActive.Some?, SetActive(p.isActive.GetOr(false)));
    ApplyServiceFieldsAppend(s, i1, i2);
    ApplyServiceFieldsAppend(s, i1 + i2, i3);
    ApplyServiceFieldsAppend(s, (i1 + i2) + i3, i4);
    ApplyServiceFieldsAppend(s, ((i1 + i2) + i3) + i4, i5);
  }

  /** The outcome of `update_service` (owner only): 404 for a missing id; the merged row;
      a name that another row already has fails the UNIQUE constraint at commit
      (IntegrityError, 500) and nothing is written. */
  function UpdateServiceOutcome(users: seq<User>, services: seq<Service>, claims: Option<Claims>,
                                serviceId: int, payload: ServiceUpdate): (r: Result<Service>)
    ensures RequireOwner(users, claims).Fail? ==> r == RequireOwner(users, claims).PropagateFailure()
    ensures RequireOwner(users, claims).Ok? ==>
      ((r.Fail? && r.status == NotFound) <==> serviceId !in ServiceIds(services))
    ensures RequireOwner(users, claims).Ok? && serviceId in ServiceIds(services) ==>
      var i := IndexOf(ServiceIds(services), serviceId).value;
      var merged := MergeServiceUpdate(services[i], payload);
      ((r.Fail? && r.status == ServerError) <==> merged.name in ServiceNames(RemoveAt(services, i))) &&
      (r.Ok? <==> merged.name !in ServiceNames(RemoveAt(services, i)))
    ensures r.Ok? ==>
      var i := IndexOf(ServiceIds(services), serviceId);
      i.Some? && r.value == MergeServiceUpdate(services[i.value], payload) && r.value.id == serviceId &&
      r.value.name !in ServiceNames(RemoveAt(services, i.value))
  {
    var _ :- RequireOwner(users, claims);
    match IndexOf(ServiceIds(services), serviceId)
    case None => Fail(NotFound, "Not found")
    case Some(i) =>
      var updated := ApplyServiceFields(services[i], ServiceUpdateItems(payload));
      ServiceUpdateIsMerge(services[i], payload);
      if updated.name in ServiceNames(RemoveAt(services, i)) then
        Fail(ServerError, "UNIQUE constraint failed: services.name")
      else Ok(updated)
  }

  /** A name that no other row carries keeps the name column unique after the update. */
  lemma ReplaceKeepsServicesValid(services: seq<Service>, i: nat, s: Service)
    requires ServicesValid(services) && i < |services|
    requires s.id == services[i].id && s.name !in ServiceNames(RemoveAt(services, i))
    ensures ServicesValid(services[i := s])
  {
    var after := services[i := s];
    ServiceColumnsRemove(services, i);
    assert ServiceIds(after) == ServiceIds(services)[i := s.id];
    forall a, b | 0 <= a < b < |after|
      ensures after[a].name != after[b].name
    {
      if a == i {
        assert after[b].name == RemoveAt(ServiceNames(services), i)[b - 1];
      } else if b == i {
        assert after[a].name == RemoveAt(ServiceNames(services), i)[a];
      }
    }
  }

  /** The `setattr` loop of `update_service` over the payload dump. */
  method SetServiceFields(s: Service, items: seq<ServiceField>) returns (t: Service)
    ensures t == ApplyServiceFields(s, items)
  {
    t := s;
    for k := 0 to |items|
      invariant t == ApplyServiceFields(s, items[..k])
    {
      assert items[..k + 1][..k] == items[..k];
      t := ApplyServiceField(t, items[k]);
    }
    assert items[..|items|] == items;
  }

  method UpdateService(db: Db, claims: Option<Claims>, serviceId: int, payload: ServiceUpdate)
    returns (r: Result<Service>)
    requires db.Valid()
    modifies db
    ensures db.Valid()
    ensures r == UpdateServiceOutcome(old(db.users), old(db.services), claims, serviceId, payload)
    ensures r.Ok? ==>
      db.services == old(db.services)[IndexOf(ServiceIds(old(db.services)), serviceId).value := r.value]
    ensures r.Fail? ==> db.services == old(db.services)
    ensures db.users == old(db.users) && db.stylists == old(db.stylists)
    ensures db.bookings == old(db.bookings) && db.payments == old(db.payments)
  {
    var _ :- RequireOwner(db.users, claims);
    var found := IndexOf(ServiceIds(db.services), serviceId);
    if found.None? {
      return Fail(NotFound, "Not found");
    }
    var i := found.value;
    var svc := SetServiceFields(db.services[i], ServiceUpdateItems(payload));
    ServiceUpdateIsMerge(db.services[i], payload);
    if svc.name in ServiceNames(RemoveAt(db.services, i)) {
      return Fail(ServerError, "UNIQUE constraint failed: services.name");
    }
    ReplaceKeepsServicesValid(db.services, i, svc);
    db.services := db.services[i := svc];
    r := Ok(svc);
  }

  /** Switching a service off through an update hides it: it leaves the public list and
      `get_service` then answers 404. */
  lemma DeactivatedServiceHidden(services: seq<Service>, i: nat, payload: ServiceUpdate)
    requires Distinct(ServiceIds(services)) && i < |services|
    requires payload.isActive == Some(false)
    ensures var after := services[i := MergeServiceUpdate(services[i], payload)];
      (forall s :: s in ListServices(after) ==> s.id != services[i].id) &&
      GetService(after, services[i].id).Fail?
  {
    var after := services[i := MergeServiceUpdate(services[i], payload)];
    assert ServiceIds(after) == ServiceIds(services);
    IndexOfDistinct(ServiceIds(after), i);
    forall s | s in ListServices(after)
      ensures s.id != services[i].id
    {
      var j :| 0 <= j < |after| && after[j] == s;
      if j != i {
        assert ServiceIds(services)[j] != ServiceIds(services)[i];
      }
    }
  }

  // ---------------------------------------------------------------------------------
  // delete_service

  /** The outcome of `delete_service` (owner only): 404 for a missing id; otherwise the
      position of the row to delete. `db.delete(svc)` makes the ORM set `service_id` to
      NULL on every booking of the service first (the relationship has no delete cascade),
      and the NOT NULL column rejects that at commit: while any booking references the
      service the reply is a 500 and nothing is deleted. */
  function DeleteServiceOutcome(users: seq<User>, services: seq<Service>, bookings: seq<Booking>,
                                claims: Option<Claims>, serviceId: int): (r: Result<nat>)
    ensures RequireOwner(users, claims).Fail? ==> r == RequireOwner(users, claims).PropagateFailure()
    ensures RequireOwner(users, claims).Ok? ==>
      ((r.Fail? && r.status == NotFound) <==> serviceId !in ServiceIds(services))
    ensures RequireOwner(users, claims).Ok? && serviceId in ServiceIds(services) ==>
      ((r.Fail? && r.status == ServerError) <==> exists b :: b in bookings && b.serviceId == serviceId)
    ensures r.Ok? <==>
      RequireOwner(users, claims).Ok? && serviceId in ServiceIds(services) &&
      forall b :: b in bookings ==> b.serviceId != serviceId
    ensures r.Ok? ==>
      r.value < |services| && services[r.value].id == serviceId &&
      forall b :: b in bookings ==> b.serviceId != serviceId
  {
    var _ :- RequireOwner(users, claims);
    match IndexOf(ServiceIds(services), serviceId)
    case None => Fail(NotFound, "Not found")
    case Some(i) =>
      if exists b :: b in bookings && b.serviceId == serviceId then Fail(ServerError, "Internal Server Error")
      else Ok(i)
  }

  method DeleteService(db: Db, claims: Option<Claims>, serviceId: int) returns (r: Result<bool>)
    requires db.Valid()
    modifies db
    ensures db.Valid()
    ensures var outcome := DeleteServiceOutcome(old(db.users), old(db.services), old(db.bookings), claims, serviceId);
      (outcome.Fail? ==> r == outcome.PropagateFailure() && db.services == old(db.services)) &&
      (outcome.Ok? ==> r == Ok(true) && db.services == RemoveAt(old(db.services), outcome.value))
    ensures db.users == old(db.users) && db.stylists == old(db.stylists)
    ensures db.bookings == old(db.bookings) && db.payments == old(db.payments)
  {
    var _ :- RequireOwner(db.users, claims);
    var found := IndexOf(ServiceIds(db.services), serviceId);
    if found.None? {
      return Fail(NotFound, "Not found");
    }
    if exists b :: b in db.bookings && b.serviceId == serviceId {
      return Fail(ServerError, "Internal Server Error");
    }
    ServiceColumnsRemove(db.services, found.value);
    DistinctRemoveAt(ServiceIds(db.services), found.value);
    DistinctRemoveAt(ServiceNames(db.services), found.value);
    db.services := RemoveAt(db.services, found.value);
    r := Ok(true);
  }

  /** A deletion never leaves a booking pointing at a missing service: every booking whose
      service existed before still finds it, and the deleted id is gone. */
  lemma DeleteServiceLeavesNoDanglingBooking(users: seq<User>, services: seq<Service>, bookings: seq<Booking>,
                                             claims: Option<Claims>, serviceId: int)
    requires Distinct(ServiceIds(services))
    requires DeleteServiceOutcome(users, services, bookings, claims, serviceId).Ok?
    ensures var i := DeleteServiceOutcome(users, services, bookings, claims, serviceId).value;
      serviceId !in ServiceIds(RemoveAt(services, i)) &&
      forall b :: b in bookings && b.serviceId in ServiceIds(services) ==>
        b.serviceId in ServiceIds(RemoveAt(services, i))
  {
    var i := DeleteServiceOutcome(users, services, bookings, claims, serviceId).value;
    var ids := ServiceIds(services);
    ServiceColumnsRemove(services, i);
    RemoveAtMembers(ids, i, serviceId);
    forall b | b in bookings && b.serviceId in ids
      ensures b.serviceId in RemoveAt(ids, i)
    {
      var j :| 0 <= j < |ids| && ids[j] == b.serviceId;
      assert j != i;
      RemoveAtMembers(ids, i, b.serviceId);
    }
  }

  /** Deleting removes exactly the service with that id: with unique keys, the rows left
      are all the others. */
  lemma DeleteRemovesExactly(services: seq<Service>, i: nat, s: Service)
    requires Distinct(ServiceIds(services)) && i < |services|
    ensures s in RemoveAt(services, i) <==> s in services && s.id != services[i].id
  {
    RemoveAtMembers(services, i, s);
    if s in services && s.id != services[i].id {
      var j :| 0 <= j < |services| && services[j] == s;
      assert j != i;
    }
    if s in RemoveAt(services, i) {
      var j :| 0 <= j < |services| && j != i && services[j] == s;
      assert ServiceIds(services)[j] != ServiceIds(services)[i];
    }
  }
}

=== FILE: src/stylist_page.dfy ===
/** The stylist's page (`stylist.js`): the role gate that runs when the script loads, the
    schedule table it renders from `GET /bookings/stylist-schedule`, and logout. */
module StylistPage {
  import opened Wrappers
  import opened Models
  import opened Browser
  import opened BookingLabels

  /** The gate as the script runs it: no stored token; else the token's second
      dot-separated part goes straight to `parse` (which stands for `atob` and `JSON.parse`,
      `None` when one of them throws; there is no base64url translation here), and the
      payload must carry the role `stylist`. A missing second part reaches `atob` as
      `undefined`, which is not base64 and throws. */
  function StylistGate(stored: Option<string>, parse: string -> Option<Value>): (g: Gate)
    ensures g == NoToken <==> stored.None? || stored.value == ""
    ensures g != NoToken && Piece(stored.value, '.', 1).None? ==> g == Unreadable
    ensures g != NoToken && Piece(stored.value, '.', 1).Some? ==>
      g == RoleGate(parse(Piece(stored.value, '.', 1).value), RoleValue(Role.Stylist))
  {
    if !Truthy(Stored(stored)) then NoToken
    else
      match Piece(stored.value, '.', 1)
      case None => Unreadable
      case Some(part) => RoleGate(parse(part), "stylist")
  }

  /** On a token whose payload parses to the claims the server writes, the gate admits
      exactly the stylist role and sends every other role to `/`. */
  lemma StylistGateOnServerToken(header: string, payload: string, signature: string,
                                 parse: string -> Option<Value>, sub: string, role: Role)
    requires '.' !in header && '.' !in payload && '.' !in signature
    requires parse(payload) == Some(Obj(map["sub" := Str(sub), "role" := Str(RoleValue(role))]))
    ensures StylistGate(Some(header + "." + payload + "." + signature), parse) == Admitted <==> role == Role.Stylist
    ensures role != Role.Stylist ==>
      StylistGate(Some(header + "." + payload + "." + signature), parse) == WrongRole
  {
    PayloadPiece(header, payload, signature);
    var token := header + "." + payload + "." + signature;
    assert token[|header|] == '.';
    if role != Role.Stylist {
      assert RoleValue(role) != RoleValue(Role.Stylist) by {
        RoleValues(role);
        RoleValues(Role.Stylist);
      }
    }
  }

  /** One row of the schedule; `clock` and `day` stand for the locale time and date
      formatting of the start time. */
  function ScheduleRow(bk: Value, clock: Value -> string, day: Value -> string): string {
    "<tr><td><div style=\"font-weight:600;\">" + clock(Field(bk, "start_time")) +
    "</div><div style=\"font-size:0.85em; color:#666;\">" + day(Field(bk, "start_time")) +
    "</div></td><td>" + ScheduleCustomerLabel(bk) +
    "</td><td>#" + JsString(Field(bk, "service_id")) +
    "</td><td><span class=\"" + StatusBadge(Field(bk, "status")) + "\">" + JsString(Field(bk, "status")) +
    "</span></td></tr>"
  }

  /** The rows of `bks`, in order. */
  function ScheduleRows(bks: seq<Value>, clock: Value -> string, day: Value -> string): (r: seq<string>)
    ensures |r| == |bks|
  {
    seq(|bks|, k requires 0 <= k < |bks| => ScheduleRow(bks[k], clock, day))
  }

  const Updating := "<p class=\"text-muted\">Updating...</p>"
  const ScheduleHead := "<table><thead><tr><th>Time</th><th>Customer</th><th>Service ID</th><th>Status</th></tr></thead><tbody>"
  const NoSchedule := "<p class=\"text-muted\">No bookings assigned yet.</p>"
  const ScheduleError := "<p style=\"color:red\">Error loading schedule.</p>"

  /** What `loadSchedule` leaves in the table area. `reply` is the parsed body of an ok
      reply, `None` when the request failed, the status was not ok or the body did not
      parse. A null body throws on `.length`; a body of length 0 shows the empty message;
      an array shows its rows; anything else has no `forEach` and throws. */
  function ScheduleView(reply: Option<Value>, clock: Value -> string, day: Value -> string): (r: string)
    ensures reply.None? || reply.value.Null? || reply.value.Undefined? ==> r == ScheduleError
    ensures reply.Some? && !reply.value.Null? && !reply.value.Undefined? && Length(reply.value) == Num(0) ==>
      r == NoSchedule
    ensures reply.Some? && reply.value.Arr? && reply.value.items != [] ==>
      |r| >= |ScheduleHead| && r[..|ScheduleHead|] == ScheduleHead
    ensures r == ScheduleError <==>
      reply.None? || reply.value.Null? || reply.value.Undefined? ||
      (Length(reply.value) != Num(0) && !reply.value.Arr?)
  {
    if reply.None? || reply.value.Null? || reply.value.Undefined? then ScheduleError
    else if Length(reply.value) == Num(0) then NoSchedule
    else if reply.value.Arr? then
      var rows := Concat(ScheduleRows(reply.value.items, clock, day));
      TableIsNoMessage(rows);
      ScheduleHead + rows + "</tbody></table>"
    else ScheduleError
  }

  /** The table starts with its head, which is longer than either message. */
  lemma TableIsNoMessage(rows: string)
    ensures var table := ScheduleHead + rows + "</tbody></table>";
      |table| >= |ScheduleHead| && table[..|ScheduleHead|] == ScheduleHead &&
      table != ScheduleError && table != NoSchedule
  {
    var table := ScheduleHead + rows + "</tbody></table>";
    assert table[..|ScheduleHead|] == ScheduleHead;
    assert |ScheduleError| < |ScheduleHead| && |NoSchedule| < |ScheduleHead|;
  }

  /** Each assigned booking has its own row, in the order the server sent them. */
  lemma ScheduleViewRow(bks: seq<Value>, k: nat, clock: Value -> string, day: Value -> string)
    requires k < |bks|
    ensures ScheduleRows(bks, clock, day)[k] == ScheduleRow(bks[k], clock, day)
    ensures ScheduleView(Some(Arr(bks)), clock, day) == ScheduleHead + (Concat(ScheduleRows(bks, clock, day)[..k]) +
      ScheduleRows(bks, clock, day)[k] + Concat(ScheduleRows(bks, clock, day)[k + 1..])) + "</tbody></table>"
  {
    var rows := ScheduleRows(bks, clock, day);
    ScheduleViewOfArray(bks, clock, day);
    ConcatAt(rows, k);
  }

  /** A non-empty schedule is shown as the head, its rows and the closing tags. */
  lemma ScheduleViewOfArray(bks: seq<Value>, clock: Value -> string, day: Value -> string)
    requires bks != []
    ensures ScheduleView(Some(Arr(bks)), clock, day) ==
      ScheduleHead + Concat(ScheduleRows(bks, clock, day)) + "</tbody></table>"
  {
    assert Length(Arr(bks)) == Num(|bks|);
  }

  class Dashboard {
    /** The token read once when the script loads; every request uses it. */
    const token: Option<string>
    /** The `token` entry of `localStorage`, where the page sent the browser (`None`:
        nowhere), and the content of the table area. */
    var storage: Option<string>
    var location: Option<string>
    var schedule: string

    /** The script loads: the gate runs on the stored token, which it never removes. */
    constructor (stored: Option<string>, parse: string -> Option<Value>)
      ensures token == stored && storage == stored
      ensures location == GateDestination(StylistGate(stored, parse))
      ensures schedule == ""
    {
      token, storage := stored, stored;
      location := GateDestination(StylistGate(stored, parse));
      schedule := "";
    }

    /** The start of `loadSchedule`: the placeholder is shown and the request goes out with
        the token read at load time, `Bearer null` when there was none. */
    method BeginLoad() returns (r: Request)
      modifies this
      ensures schedule == Updating
      ensures r == Request("GET", "/bookings/stylist-schedule", [], Some(Bearer(Stored(token))), Undefined)
      ensures storage == old(storage) && location == old(location)
    {
      schedule := Updating;
      r := Request("GET", "/bookings/stylist-schedule", [], Some(Bearer(Stored(token))), Undefined);
    }

    /** The end of `loadSchedule`, with the reply: the `html +=` loop over the rows. */
    method ShowSchedule(reply: Option<Value>, clock: Value -> string, day: Value -> string)
      modifies this
      ensures schedule == ScheduleView(reply, clock, day)
      ensures storage == old(storage) && location == old(location)
    {
      if reply.None? || reply.value.Null? || reply.value.Undefined? {
        schedule := ScheduleError;
      } else if Length(reply.value) == Num(0) {
        schedule := NoSchedule;
      } else if reply.value.Arr? {
        var html := AppendAll(ScheduleHead, ScheduleRows(reply.value.items, clock, day));
        schedule := html + "</tbody></table>";
      } else {
        schedule := ScheduleError;
      }
    }

    /** `logout`: the stored token is removed and the browser goes to `/auth`. */
    method Logout()
      modifies this
      ensures storage.None? && location == Some("/auth")
      ensures schedule == old(schedule)
    {
      storage := None;
      location := Some("/auth");
    }
  }
}

=== FILE: src/stylists.dfy ===
/** The stylist router: owner-only creation of a stylist profile for an existing user,
    partial update, and deletion guarded by the stylist's bookings. `list_stylists`
    returns the stylist table as it stands (`db.stylists`). */
module Stylists {
  import opened Wrappers
  import opened Models
  import opened Schemas
  import opened Tables
  import opened Database
  import opened Deps

  // ---------------------------------------------------------------------------------
  // create_stylist

  /** The outcome of `create_stylist` (owner only): 404 for an unknown user, 400 when the
      user already has a profile, otherwise the new profile with the given fields. */
  function CreateStylistOutcome(users: seq<User>, stylists: seq<Stylist>, claims: Option<Claims>,
                                displayName: string, userId: int, bio: Option<string>,
                                startHour: int, endHour: int): (r: Result<Stylist>)
    ensures RequireOwner(users, claims).Fail? ==> r == RequireOwner(users, claims).PropagateFailure()
    ensures RequireOwner(users, claims).Ok? ==>
      ((r.Fail? && r.status == NotFound) <==> userId !in UserIds(users))
    ensures RequireOwner(users, claims).Ok? && userId in UserIds(users) ==>
      ((r.Fail? && r.status == BadRequest) <==> userId in StylistUserIds(stylists))
    ensures r.Ok? <==>
      RequireOwner(users, claims).Ok? && userId in UserIds(users) && userId !in StylistUserIds(stylists)
    ensures r.Ok? ==>
      r.value.userId == userId && r.value.displayName == displayName && r.value.bio == bio &&
      r.value.startHour == startHour && r.value.endHour == endHour &&
      r.value.id !in StylistIds(stylists) && userId in UserIds(users) && userId !in StylistUserIds(stylists)
  {
    var _ :- RequireOwner(users, claims);
    if IndexOf(UserIds(users), userId).None? then Fail(NotFound, "User not found")
    else if IndexOf(StylistUserIds(stylists), userId).Some? then
      Fail(BadRequest, "User already has a stylist profile")
    else Ok(NewStylist(NextId(StylistIds(stylists)), userId, displayName, bio, startHour, endHour))
  }

  /** A new profile keeps one profile per user. */
  lemma CreateStylistKeepsOneProfilePerUser(users: seq<User>, stylists: seq<Stylist>, claims: Option<Claims>,
                                            displayName: string, userId: int, bio: Option<string>,
                                            startHour: int, endHour: int)
    requires StylistsValid(stylists)
    requires CreateStylistOutcome(users, stylists, claims, displayName, userId, bio, startHour, endHour).Ok?
    ensures StylistsValid(stylists +
      [CreateStylistOutcome(users, stylists, claims, displayName, userId, bio, startHour, endHour).value])
  {
    var s := CreateStylistOutcome(users, stylists, claims, displayName, userId, bio, startHour, endHour).value;
    StylistColumnsAppend(stylists, s);
    DistinctAppend(StylistIds(stylists), s.id);
    DistinctAppend(StylistUserIds(stylists), s.userId);
  }

  /** On success the user's role becomes stylist and one profile is added. */
  method CreateStylist(db: Db, claims: Option<Claims>, displayName: string, userId: int,
                       bio: Option<string> := None, startHour: int := 9, endHour: int := 20)
    returns (r: Result<Stylist>)
    requires db.Valid()
    modifies db
    ensures db.Valid()
    ensures r == CreateStylistOutcome(old(db.users), old(db.stylists), claims, displayName, userId, bio,
                                      startHour, endHour)
    ensures r.Ok? ==>
      var u := IndexOf(UserIds(old(db.users)), userId).value;
      db.stylists == old(db.stylists) + [r.value] &&
      db.users == old(db.users)[u := old(db.users)[u].(role := Role.Stylist)]
    ensures r.Fail? ==> db.stylists == old(db.stylists) && db.users == old(db.users)
    ensures db.services == old(db.services) && db.bookings == old(db.bookings) && db.payments == old(db.payments)
  {
    var _ :- RequireOwner(db.users, claims);
    var u := IndexOf(UserIds(db.users), userId);
    if u.None? {
      return Fail(NotFound, "User not found");
    }
    var existing := IndexOf(StylistUserIds(db.stylists), userId);
    if existing.Some? {
      return Fail(BadRequest, "User already has a stylist profile");
    }
    var stylist := NewStylist(NextId(StylistIds(db.stylists)), userId, displayName, bio, startHour, endHour);
    CreateStylistKeepsOneProfilePerUser(db.users, db.stylists, claims, displayName, userId, bio,
                                        startHour, endHour);
    UserColumnsUpdate(db.users, u.value, db.users[u.value].(role := Role.Stylist));
    db.users := db.users[u.value := db.users[u.value].(role := Role.Stylist)];
    db.stylists := db.stylists + [stylist];
    r := Ok(stylist);
  }

  // ---------------------------------------------------------------------------------
  // update_stylist

  /** `setattr(stylist, key, value)` for one item of the payload dump. */
  function ApplyStylistField(s: Stylist, f: StylistField): Stylist {
    match f
    case SetDisplayName(name) => s.(displayName := name)
    case SetBio(bio) => s.(bio := bio)
    case SetStartHour(h) => s.(startHour := h)
    case SetEndHour(h) => s.(endHour := h)
  }

  /** The row after the `setattr` loop has run over `items` in order. */
  function ApplyStylistFields(s: Stylist, items: seq<StylistField>): Stylist {
    if items == [] then s
    else ApplyStylistField(ApplyStylistFields(s, items[..|items| - 1]), items[|items| - 1])
  }

  /** The reference meaning of a partial update of a profile. */
  function MergeStylistUpdate(s: Stylist, p: StylistUpdate): Stylist {
    Stylist.Stylist(s.id, s.userId, p.displayName.GetOr(s.displayName), p.bio.GetOr(s.bio),
                    p.startHour.GetOr(s.startHour), p.endHour.GetOr(s.endHour))
  }

  lemma {:induction false} ApplyStylistFieldsAppend(s: Stylist, a: seq<StylistField>, b: seq<StylistField>)
    ensures ApplyStylistFields(s, a + b) == ApplyStylistFields(ApplyStylistFields(s, a), b)
    decreases |b|
  {
    if b == [] {
      assert a + b == a;
    } else {
      assert (a + b)[..|a + b| - 1] == a + b[..|b| - 1];
      ApplyStylistFieldsAppend(s, a, b[..|b| - 1]);
    }
  }

  lemma ApplyStylistItemIf(s: Stylist, present: bool, f: StylistField)
    ensures ApplyStylistFields(s, ItemIf(present, f)) == if present then ApplyStylistField(s, f) else s
  {
    if present {
      assert ItemIf(present, f)[..0] == [];
    }
  }

  /** The `setattr` loop over the set fields is the field-wise merge; the key and the
      linked user are never touched. */
  lemma StylistUpdateIsMerge(s: Stylist, p: StylistUpdate)
    ensures ApplyStylistFields(s, StylistUpdateItems(p)) == MergeStylistUpdate(s, p)
  {
    var i1 := ItemIf(p.displayName.Some?, SetDisplayName(p.displayName.GetOr([])));
    var i2 := ItemIf(p.bio.Some?, SetBio(p.bio.GetOr(None)));
    var i3 := ItemIf(p.startHour.Some?, SetStartHour(p.startHour.GetOr(0)));
    var i4 := ItemIf(p.endHour.Some?, SetEndHour(p.endHour.GetOr(0)));
    assert StylistUpdateItems(p) == ((i1 + i2) + i3) + i4;
    ApplyStylistItemIf(s, p.displayName.Some?, SetDisplayName(p.displayName.GetOr([])));
    var s1 := ApplyStylistFields(s, i1);
    ApplyStylistItemIf(s1, p.bio.Some?, SetBio(p.bio.GetOr(None)));
    var s2 := ApplyStylistFields(s1, i2);
    ApplyStylistItemIf(s2, p.startHour.Some?, SetStartHour(p.startHour.GetOr(0)));
    var s3 := ApplyStylistFields(s2, i3);
    ApplyStylistItemIf(s3, p.endHour.Some?, SetEndHour(p.endHour.GetOr(0)));
    ApplyStylistFieldsAppend(s, i1, i2);
    ApplyStylistFieldsAppend(s, i1 + i2, i3);
    ApplyStylistFieldsAppend(s, (i1 + i2) + i3, i4);
  }

  /** The `setattr` loop of `update_stylist` over the payload dump. */
  method SetStylistFields(s: Stylist, items: seq<StylistField>) returns (t: Stylist)
    ensures t == ApplyStylistFields(s, items)
  {
    t := s;
    for k := 0 to |items|
      invariant t == ApplyStylistFields(s, items[..k])
    {
      assert items[..k + 1][..k] == items[..k];
      t := ApplyStylistField(t, items[k]);
    }
    assert items[..|items|] == items;
  }

  method UpdateStylist(db: Db, claims: Option<Claims>, stylistId: int, payload: StylistUpdate)
    returns (r: Result<Stylist>)
    requires db.Valid()
    modifies db
    ensures db.Valid()
    ensures RequireOwner(old(db.users), claims).Fail? ==>
      r == RequireOwner(old(db.users), claims).PropagateFailure()
    ensures RequireOwner(old(db.users), claims).Ok? ==>
      ((r.Fail? && r.status == NotFound) <==> stylistId !in StylistIds(old(db.stylists)))
    ensures r.Ok? <==> RequireOwner(old(db.users), claims).Ok? && stylistId in StylistIds(old(db.stylists))
    ensures r.Ok? ==>
      var i := IndexOf(StylistIds(old(db.stylists)), stylistId).value;
      r.value == MergeStylistUpdate(old(db.stylists)[i], payload) &&
      db.stylists == old(db.stylists)[i := r.value]
    ensures r.Fail? ==> db.stylists == old(db.stylists)
    ensures db.users == old(db.users) && db.services == old(db.services)
    ensures db.bookings == old(db.bookings) && db.payments == old(db.payments)
  {
    var _ :- RequireOwner(db.users, claims);
    var found := IndexOf(StylistIds(db.stylists), stylistId);
    if found.None? {
      return Fail(NotFound, "Stylist not found");
    }
    var i := found.value;
    var stylist := SetStylistFields(db.stylists[i], StylistUpdateItems(payload));
    StylistUpdateIsMerge(db.stylists[i], payload);
    StylistColumnsUpdate(db.stylists, i, stylist);
    db.stylists := db.stylists[i := stylist];
    r := Ok(stylist);
  }

  // ---------------------------------------------------------------------------------
  // delete_stylist

  /** `stylist.bookings`: the relationship holds every booking row pointing at the
      stylist, cancelled ones included. */
  function StylistBookings(bookings: seq<Booking>, stylistId: int): (r: seq<Booking>)
    ensures forall b :: b in r <==> b in bookings && b.stylistId == Some(stylistId)
  {
    if bookings == [] then []
    else (if bookings[0].stylistId == Some(stylistId) then [bookings[0]] else [])
         + StylistBookings(bookings[1..], stylistId)
  }

  /** The outcome of `delete_stylist` (owner only): 404 for a missing id; 400 while any
      booking references the stylist; otherwise the position of the row to delete. */
  function DeleteStylistOutcome(users: seq<User>, stylists: seq<Stylist>, bookings: seq<Booking>,
                                claims: Option<Claims>, stylistId: int): (r: Result<nat>)
    ensures RequireOwner(users, claims).Fail? ==> r == RequireOwner(users, claims).PropagateFailure()
    ensures RequireOwner(users, claims).Ok? ==>
      ((r.Fail? && r.status == NotFound) <==> stylistId !in StylistIds(stylists))
    ensures RequireOwner(users, claims).Ok? && stylistId in StylistIds(stylists) ==>
      ((r.Fail? && r.status == BadRequest) <==>
       exists b :: b in bookings && b.stylistId == Some(stylistId))
    ensures r.Ok? <==>
      RequireOwner(users, claims).Ok? && stylistId in StylistIds(stylists) &&
      forall b :: b in bookings ==> b.stylistId != Some(stylistId)
    ensures r.Ok? ==>
      r.value < |stylists| && stylists[r.value].id == stylistId &&
      forall b :: b in bookings ==> b.stylistId != Some(stylistId)
  {
    var _ :- RequireOwner(users, claims);
    match IndexOf(StylistIds(stylists), stylistId)
    case None => Fail(NotFound, "Stylist not found")
    case Some(i) =>
      if StylistBookings(bookings, stylistId) != [] then
        assert StylistBookings(bookings, stylistId)[0] in StylistBookings(bookings, stylistId);
        Fail(BadRequest, "Cannot delete stylist with existing bookings. Delete bookings first.")
      else Ok(i)
  }

  /** The users table after a profile is deleted: the linked user, when there is one,
      goes back to the customer role. */
  function DemoteLinkedUser(users: seq<User>, userId: int): (r: seq<User>)
    ensures |r| == |users|
    ensures UserIds(r) == UserIds(users) && UserEmails(r) == UserEmails(users)
    ensures forall k :: 0 <= k < |users| && k != IndexOf(UserIds(users), userId).GetOr(|users|) ==> r[k] == users[k]
    ensures IndexOf(UserIds(users), userId).Some? ==>
      r[IndexOf(UserIds(users), userId).value] == users[IndexOf(UserIds(users), userId).value].(role := Customer)
  {
    match IndexOf(UserIds(users), userId)
    case None => users
    case Some(u) =>
      UserColumnsUpdate(users, u, users[u].(role := Customer));
      users[u := users[u].(role := Customer)]
  }

  /** The linked user of a deleted profile, when there is one, is set back to the
      customer role in place. */
  method DemoteUser(db: Db, userId: int)
    requires db.Valid()
    modifies db
    ensures db.Valid()
    ensures db.users == DemoteLinkedUser(old(db.users), userId)
    ensures db.stylists == old(db.stylists) && db.services == old(db.services)
    ensures db.bookings == old(db.bookings) && db.payments == old(db.payments)
  {
    var user := IndexOf(UserIds(db.users), userId);
    if user.Some? {
      db.users := db.users[user.value := db.users[user.value].(role := Customer)];
    }
  }

  method DeleteStylist(db: Db, claims: Option<Claims>, stylistId: int) returns (r: Result<bool>)
    requires db.Valid()
    modifies db
    ensures db.Valid()
    ensures var outcome := DeleteStylistOutcome(old(db.users), old(db.stylists), old(db.bookings), claims, stylistId);
      (outcome.Fail? ==> r == outcome.PropagateFailure() &&
                          db.stylists == old(db.stylists) && db.users == old(db.users)) &&
      (outcome.Ok? ==> r == Ok(true) &&
                        db.stylists == RemoveAt(old(db.stylists), outcome.value) &&
                        db.users == DemoteLinkedUser(old(db.users), old(db.stylists)[outcome.value].userId))
    ensures db.services == old(db.services) && db.bookings == old(db.bookings) && db.payments == old(db.payments)
  {
    var _ :- RequireOwner(db.users, claims);
    var found := IndexOf(StylistIds(db.stylists), stylistId);
    if found.None? {
      return Fail(NotFound, "Stylist not found");
    }
    var i := found.value;
    if StylistBookings(db.bookings, stylistId) != [] {
      return Fail(BadRequest, "Cannot delete stylist with existing bookings. Delete bookings first.");
    }
    DemoteUser(db, db.stylists[i].userId);
    StylistColumnsRemove(db.stylists, i);
    DistinctRemoveAt(StylistIds(db.stylists), i);
    DistinctRemoveAt(StylistUserIds(db.stylists), i);
    db.stylists := RemoveAt(db.stylists, i);
    r := Ok(true);
  }

  /** A deletion refused for bookings leaves the stylist in place; a successful one leaves
      no booking pointing at a missing stylist id that was present before. */
  lemma DeleteStylistLeavesNoDanglingBooking(users: seq<User>, stylists: seq<Stylist>, bookings: seq<Booking>,
                                             claims: Option<Claims>, stylistId: int)
    requires Distinct(StylistIds(stylists))
    requires DeleteStylistOutcome(users, stylists, bookings, claims, stylistId).Ok?
    ensures var i := DeleteStylistOutcome(users, stylists, bookings, claims, stylistId).value;
      stylistId !in StylistIds(RemoveAt(stylists, i)) &&
      forall b :: b in bookings ==> b.stylistId != Some(stylistId)
  {
    var i := DeleteStylistOutcome(users, stylists, bookings, claims, stylistId).value;
    StylistColumnsRemove(stylists, i);
    IndexOfDistinct(StylistIds(stylists), i);
    RemoveAtMembers(StylistIds(stylists), i, stylistId);
  }
}

=== FILE: src/tables.dfy ===
/** Generic helpers over a table column (the sequence of one attribute of every row):
    primary-key lookup, uniqueness constraints and key allocation. */
module Tables {
  import opened Wrappers

  /** Position of the first row whose column value is `k`, as `query.filter(col == k).first()`. */
  function IndexOf<K(==)>(keys: seq<K>, k: K): (r: Option<nat>)
    ensures r.Some? ==> r.value < |keys| && keys[r.value] == k
    ensures r.Some? ==> forall j :: 0 <= j < r.value ==> keys[j] != k
    ensures r.None? <==> k !in keys
  {
    if keys == [] then None
    else if keys[0] == k then Some(0)
    else
      var rest := IndexOf(keys[1..], k);
      if rest.Some? then Some(rest.value + 1) else None
  }

  /** A UNIQUE constraint on a column. */
  predicate Distinct<K(==)>(keys: seq<K>) {
    forall i, j :: 0 <= i < j < |keys| ==> keys[i] != keys[j]
  }

  lemma IndexOfDistinct<K>(keys: seq<K>, i: nat)
    requires Distinct(keys) && i < |keys|
    ensures IndexOf(keys, keys[i]) == Some(i)
  {
  }

  function MaxKey(keys: seq<int>): (m: int)
    ensures m >= 0
    ensures forall k :: k in keys ==> k <= m
  {
    if keys == [] then 0
    else
      var rest := MaxKey(keys[1..]);
      assert forall k :: k in keys ==> k == keys[0] || k in keys[1..];
      if keys[0] > rest then keys[0] else rest
  }

  /** The key an INTEGER PRIMARY KEY column receives for a new row: one more than the
      largest key present (SQLite's rowid allocation). */
  function NextId(keys: seq<int>): (id: int)
    ensures id >= 1 && id !in keys
  {
    MaxKey(keys) + 1
  }

  lemma DistinctAppend<K>(keys: seq<K>, k: K)
    requires Distinct(keys) && k !in keys
    ensures Distinct(keys + [k])
  {
  }

  /** The sequence with position `i` taken out (`db.delete(row)`). */
  function RemoveAt<T>(s: seq<T>, i: nat): (r: seq<T>)
    requires i < |s|
    ensures |r| == |s| - 1
    ensures forall j :: 0 <= j < i ==> r[j] == s[j]
    ensures forall j :: i <= j < |r| ==> r[j] == s[j + 1]
  {
    s[..i] + s[i + 1..]
  }

  /** Deleting a row keeps a UNIQUE column unique. */
  lemma DistinctRemoveAt<K>(keys: seq<K>, i: nat)
    requires Distinct(keys) && i < |keys|
    ensures Distinct(RemoveAt(keys, i))
  {
    var r := RemoveAt(keys, i);
    forall a, b | 0 <= a < b < |r|
      ensures r[a] != r[b]
    {
      var a' := if a < i then a else a + 1;
      var b' := if b < i then b else b + 1;
      assert r[a] == keys[a'] && r[b] == keys[b'] && a' < b';
    }
  }

  /** The rows left after deleting position `i` are the others. */
  lemma RemoveAtMembers<T>(s: seq<T>, i: nat, x: T)
    requires i < |s|
    ensures x in RemoveAt(s, i) <==> exists j :: 0 <= j < |s| && j != i && s[j] == x
  {
    var r := RemoveAt(s, i);
    if x in r {
      var k :| 0 <= k < |r| && r[k] == x;
      var j := if k < i then k else k + 1;
      assert s[j] == x && j != i;
    }
    if exists j :: 0 <= j < |s| && j != i && s[j] == x {
      var j :| 0 <= j < |s| && j != i && s[j] == x;
      var k := if j < i then j else j - 1;
      assert r[k] == x;
    }
  }
}

=== FILE: src/text.dfy ===
/** Character and number helpers standing for Python's `str.isdigit`, `str(int)` and
    `int(str)`, and for JavaScript's number-to-string conversion. */
module Text {
  import opened Wrappers

  /** Decimal digit characters. Python's `isdigit` also accepts other Unicode digits;
      only ASCII digits are modelled. */
  predicate IsDigit(c: char) {
    '0' <= c <= '9'
  }

  function DigitValue(c: char): (d: nat)
    requires IsDigit(c)
    ensures d < 10
  {
    (c as int) - ('0' as int)
  }

  function DigitChar(d: nat): (c: char)
    requires d < 10
    ensures IsDigit(c) && DigitValue(c) == d
  {
    (('0' as int) + d) as char
  }

  predicate AllDigits(s: string) {
    forall i :: 0 <= i < |s| ==> IsDigit(s[i])
  }

  /** The digit characters of `s`, in order: `[d for d in s if d.isdigit()]`. */
  function Digits(s: string): (r: string)
    ensures |r| <= |s|
    ensures AllDigits(r)
  {
    if s == [] then []
    else (if IsDigit(s[0]) then [s[0]] else []) + Digits(s[1..])
  }

  lemma {:induction false} DigitsAppend(a: string, b: string)
    ensures Digits(a + b) == Digits(a) + Digits(b)
  {
    if a == [] {
      assert a + b == b;
    } else {
      assert (a + b)[1..] == a[1..] + b;
      DigitsAppend(a[1..], b);
    }
  }

  lemma {:induction false} DigitsOfDigits(s: string)
    requires AllDigits(s)
    ensures Digits(s) == s
  {
    if s != [] {
      DigitsOfDigits(s[1..]);
    }
  }

  lemma {:induction false} DigitsOfNonDigits(s: string)
    requires forall i :: 0 <= i < |s| ==> !IsDigit(s[i])
    ensures Digits(s) == []
  {
    if s != [] {
      DigitsOfNonDigits(s[1..]);
    }
  }

  /** The number a string of decimal digits denotes (leading zeros allowed). */
  function DecimalValue(s: string): nat
    requires AllDigits(s)
  {
    if s == [] then 0
    else DecimalValue(s[..|s| - 1]) * 10 + DigitValue(s[|s| - 1])
  }

  /** Python's `str(n)` for a non-negative integer: no sign, no leading zero. */
  function NatToString(n: nat): (r: string)
    ensures |r| >= 1 && AllDigits(r)
    ensures r[0] != '0' || n == 0
  {
    if n < 10 then [DigitChar(n)] else NatToString(n / 10) + [DigitChar(n % 10)]
  }

  /** `str(i)` / JavaScript `String(i)` for any integer. */
  function IntToString(i: int): (r: string)
    ensures |r| >= 1
  {
    if i < 0 then "-" + NatToString(-i) else NatToString(i)
  }

  /** Python's `int(s)` on a string: an optional sign followed by one or more decimal
      digits; anything else raises ValueError (`None` here). Surrounding whitespace and
      digit-group underscores, which Python also accepts, are not modelled. */
  function ParseInt(s: string): (r: Option<int>)
    ensures r.Some? ==> |s| >= 1
    ensures AllDigits(s) && s != [] ==> r == Some(DecimalValue(s))
  {
    if s == [] then None
    else if (s[0] == '-' || s[0] == '+') && |s| > 1 && AllDigits(s[1..]) then
      Some(if s[0] == '-' then -(DecimalValue(s[1..]) as int) else DecimalValue(s[1..]))
    else if AllDigits(s) then Some(DecimalValue(s))
    else None
  }

  lemma {:induction false} DecimalValueOfNatToString(n: nat)
    ensures DecimalValue(NatToString(n)) == n
  {
    if n >= 10 {
      var prefix := NatToString(n / 10);
      var s := prefix + [DigitChar(n % 10)];
      assert s[..|s| - 1] == prefix;
      DecimalValueOfNatToString(n / 10);
    }
  }

  /** Round trip: `int(str(n)) == n`. This is what lets a token's `sub` claim, written with
      `str(user.id)`, be read back with `int(...)`. */
  lemma ParseIntOfNatToString(n: nat)
    ensures ParseInt(NatToString(n)) == Some(n)
  {
    DecimalValueOfNatToString(n);
  }

  /** The negative half of the round trip: `int("-" + str(n)) == -n`. */
  lemma ParseIntOfNegative(n: nat)
    requires n > 0
    ensures ParseInt("-" + NatToString(n)) == Some(-(n as int))
  {
    var s := "-" + NatToString(n);
    assert s[0] == '-' && s[1..] == NatToString(n);
    DecimalValueOfNatToString(n);
  }

  /** Round trip for every integer, negative ones included: `int(str(i)) == i`. */
  lemma ParseIntOfIntToString(i: int)
    ensures ParseInt(IntToString(i)) == Some(i)
  {
    if i < 0 {
      ParseIntOfNegative(-i);
    } else {
      ParseIntOfNatToString(i);
    }
  }

  lemma {:induction false} NatToStringInjective(m: nat, n: nat)
    requires NatToString(m) == NatToString(n)
    ensures m == n
  {
    DecimalValueOfNatToString(m);
    DecimalValueOfNatToString(n);
  }
}

=== FILE: src/wrappers.dfy ===
/** Failure-compatible result types shared by every module. An HTTP error raised by a
    FastAPI handler (`HTTPException(status_code, detail)`) is a `Fail(status, detail)`. */
module Wrappers {

  datatype Option<+T> = None | Some(value: T) {
    function GetOr(default: T): T {
      match this
      case Some(v) => v
      case None => default
    }
  }

  datatype Result<+T> = Ok(value: T) | Fail(status: int, detail: string) {
    predicate IsFailure() { Fail? }

    function PropagateFailure<U>(): Result<U>
      requires Fail?
    {
      Fail(status, detail)
    }

    function Extract(): T
      requires Ok?
    {
      value
    }
  }

  const BadRequest := 400
  const Unauthorized := 401
  const Forbidden := 403
  const NotFound := 404
  const Conflict := 409
  const Unprocessable := 422
  const ServerError := 500
}
